=== FILE: README.md ===
# Storefront core, modelled in Dafny

This project models the logic under the storefront demo's user interface as
pure Dafny functions over immutable sequences of records, and proves what
that logic promises. Prices, ratings and scores are `real`; `Math.round(x)`
is `floor(x + 1/2)`.

- **Client store.** The store reducer of `src/store/useStore.ts` becomes
  `Store.Step(State, Action)`, with `Store.Run` for a sequence of actions.
  - Cart lines are keyed by (id, colour, size), with merge, wildcard
    removal and quantity overwrite (`Cart`).
  - The wishlist, comparison list, recent lists and saved-for-later list
    are keyed lists (`Lists`).
  - The coupon slot, logout and the persisted projection are in `Store`.
  - A global invariant `Store.Inv` holds for every state the reducer can
    reach.
- **Filtering and sorting.** The filter/sort hook `useFilters`, with the
  filter panel that feeds it (`Filters`, `FilterPanel`). Every sort is
  `StableSort.SortDesc`: a permutation, ordered by its key, with ties in
  input order, as JavaScript's stable `Array.prototype.sort` gives.
- **Recommendations.** The scorer in `Recommendations`.
- **Search.** The search wrapper (`Search`). Fuse.js is an oracle that
  returns an ordered list of hits.
- **Catalog.** The generated catalog (`MockProducts`). Each `Math.random()`
  draw becomes a parameter in [0, 1).
- **Component rules.** The pricing, stock, badge, form and navigation rules
  of the product card, detail page, drawers, carousel, bundle box, reorder
  panel, reviews, questions, quote and login dialogs, tab bar, breadcrumbs
  and chat button. Each is one module named after its component. UI controls
  are functions that return the `Store.Action` they dispatch.

Clocks, random draws, the locale date text, `Date.now` ids,
`encodeURIComponent` and the window size are parameters.

## Model

| member | source | states |
|---|---|---|
| Cart.Incoming | src/store/useStore.ts:123 | an added line brings its quantity when that is at least one, else exactly one unit |
| Cart.AddToCart | src/store/useStore.ts:121-145 | a matching (id, colour, size) line grows by the incoming units and every other line is unchanged; with no match one line carrying the incoming units is appended after the unchanged cart |
| Cart.RemoveFromCart | src/store/useStore.ts:147-158 | exactly the lines the (wildcard) pattern does not match survive |
| Cart.RemoveFromCartKeepsOrder | src/store/useStore.ts:147-158 | removal over a split cart is the removals of the two parts joined, and one line stays or goes: the survivors keep their order |
| Cart.UpdateCartQuantity | src/store/useStore.ts:160-174 | a quantity of zero or less is removal with the same arguments; otherwise every matching line gets the quantity and no other line changes |
| Cart.BumpLines | src/store/useStore.ts:132-141 | each line is bumped by the increment if and only if it carries the key |
| Cart.SetLines | src/store/useStore.ts:164-171 | each line is set to the quantity if and only if it matches the pattern |
| Cart.RemoveLine | src/components/MiniCart/MiniCart.tsx:184 | exactly the lines of other (id, colour, size) keys survive |
| Cart.SetLineQuantity | src/components/MiniCart/MiniCart.tsx:153-176 | the one keyed line gets the quantity, or is removed for a quantity of zero or less; the others are unchanged |
| Cart.HasLineCons | src/store/useStore.ts:123-127 | a cart has a line with the key if and only if its head or its tail has one |
| Cart.BumpLinesUnits | src/store/useStore.ts:132-141 | with distinct keys, bumping adds the increment to the cart's units exactly when the key is present |
| Cart.AddToCartUnits | src/store/useStore.ts:121-145 | adding to a well-formed cart raises its units by exactly the incoming units |
| Cart.AddToCartTwiceMerges | src/store/useStore.ts:121-145 | after one add the line is present, so a second add of the same product merges and adds no line |
| Cart.AddToCartWellFormed | src/store/useStore.ts:121-145 | adding keeps keys distinct and every quantity at least one |
| Cart.RemoveFromCartWellFormed | src/store/useStore.ts:147-158 | removal keeps the cart well formed |
| Cart.UpdateCartQuantityWellFormed | src/store/useStore.ts:160-174 | a quantity update keeps the cart well formed |
| Cart.RemoveAbsentIsNoop | src/store/useStore.ts:147-158 | removing an id no line has leaves the cart unchanged |
| Cart.RemoveWithoutVariantRemovesAllVariants | src/store/useStore.ts:147-158 | removal by id alone deletes every variant of the product and keeps every line of other products |
| Cart.RemoveLineUndoesAdd | src/store/useStore.ts:142-144 | appending a new line and removing its key gives back the cart |
| Cart.RemoveLineWellFormed | src/components/MiniCart/MiniCart.tsx:184 | removing one keyed line keeps the cart well formed |
| Cart.RemoveLineKeepsOtherVariants | src/components/MiniCart/MiniCart.tsx:184 | every line with a different key survives |
| Cart.NoLineNoUnits | src/store/useStore.ts:123-127 | a key with no line holds no units |
| Cart.BumpLinesLineUnits | src/store/useStore.ts:132-141 | bumping changes the units of the bumped key only, and only when present |
| Cart.AddToCartLineUnits | src/store/useStore.ts:121-145 | adding raises the units on the product's own key by the incoming units and leaves every other key's units unchanged |
| Cart.AddEachUnits | src/store/useStore.ts:121-145 | a run of adds keeps the cart well formed and adds the sum of incoming units, in total and key by key |
| Lists.AppendIfAbsent | src/store/useStore.ts:178-183 | the item's key is present after; an item is appended at the end exactly when its key was absent |
| Lists.AppendIfRoom | src/store/useStore.ts:189-194 | an item is appended exactly when the list is below the cap and its key is absent |
| Lists.RemoveKey | src/store/useStore.ts:185-187 | exactly the items with other keys survive |
| Lists.RemoveKeyKeepsOrder | src/store/useStore.ts:185-187 | removal over a split list is the removals of the two parts joined, and one item stays or goes: the survivors keep their order |
| Lists.PushRecent | src/store/useStore.ts:238-242 | the new item goes first, followed by the other items in their order, cut to the cap |
| Lists.AppendIfAbsentIdempotent | src/store/useStore.ts:178-183 | adding the same item twice is adding it once |
| Lists.AppendIfAbsentDistinct | src/store/useStore.ts:178-183 | appending keeps keys distinct |
| Lists.AppendIfRoomDistinct | src/store/useStore.ts:189-194 | the comparison list keeps distinct keys and never exceeds its cap |
| Lists.RemoveKeyDistinct | src/store/useStore.ts:185-187 | removal keeps keys distinct |
| Lists.RemoveKeyUndoesAppend | src/store/useStore.ts:178-187 | removing an item just added to a list without it gives back the list |
| Lists.PushRecentDistinct | src/store/useStore.ts:254-258 | the recent lists keep distinct keys |
| Lists.PushRecentIdempotent | src/store/useStore.ts:238-242 | pushing the same item twice is pushing it once |
| Store.MergeSearchFilters | src/store/useStore.ts:204-207 | each field given in the patch replaces the current one; every other field is kept |
| Store.LogoutState | src/store/useStore.ts:227-229 | logout empties user, cart and wishlist and changes nothing else |
| Store.MoveToCartState | src/store/useStore.ts:265-268 | the item is added to the cart and every saved item with its id is dropped; the other saved items and the rest of the state are kept |
| Store.Partialize | src/store/useStore.ts:277-282 | the snapshot holds exactly cart, wishlist, user and recent searches |
| Store.Rehydrate | src/store/useStore.ts:274-282 | a snapshot restores exactly the four persisted slices and keeps the rest of the base state |
| Store.Step | src/store/useStore.ts:121-273 | the reducer: each action updates its own slice of the state; its meaning is stated by `StepInv`, `CartActionsTouchOnlyCart` and the lemmas below |
| Store.Run | src/store/useStore.ts:121-273 | the state after dispatching the actions one by one, in order |
| Store.SetAuth | src/store/useStore.ts:297 | the sign-in flag and user are set as given |
| Store.AuthLogout | src/store/useStore.ts:298 | signing out returns to the initial signed-out state |
| Store.InitialInv | src/store/useStore.ts:88-119 | the initial state meets the store invariant |
| Store.StepInv | src/store/useStore.ts:121-273 | every action keeps the invariant: well-formed cart, distinct wishlist, comparison list of at most four distinct ids, recent lists of at most ten distinct items, saved-for-later ids distinct |
| Store.RunInv | src/store/useStore.ts:121-273 | every sequence of actions keeps the invariant |
| Store.AddActions | src/components/FrequentlyBoughtTogether/FrequentlyBoughtTogether.tsx:19-21 | one add action per line, in order |
| Store.RunAddActions | src/store/useStore.ts:121-145 | a run of adds changes the cart only, as the fold of single adds |
| Store.CartActionsTouchOnlyCart | src/store/useStore.ts:121-176 | the cart actions change nothing but the cart |
| Store.CouponLastWins | src/store/useStore.ts:272-273 | the last coupon applied wins and removal empties the slot |
| Store.WishlistIdempotent | src/store/useStore.ts:178-183 | adding a product to the wishlist twice is adding it once |
| Store.RecentSearchIdempotent | src/store/useStore.ts:238-242 | repeating a search does not change the recent list |
| Store.PersistRoundTrip | src/store/useStore.ts:277-282 | restoring a snapshot into its own state changes nothing; into a fresh store it restores the cart and leaves the unpersisted slices empty |
| Store.RehydrateInv | src/store/useStore.ts:277-282 | a restored snapshot of a valid state is a valid state |
| Store.MergeSearchFiltersLaws | src/store/useStore.ts:204-207 | the empty patch changes nothing and applying a patch twice is applying it once |
| Store.AuthLogoutResets | src/store/useStore.ts:297-298 | signing out after any sign-in gives the initial state |
| Filters.Facets | src/hooks/useFilters.ts:11-54 | there are exactly the eight facet tests |
| Filters.Actives | src/hooks/useFilters.ts:11-54 | each facet has an activity flag |
| Filters.Reverse | src/hooks/useFilters.ts:66-68 | position i holds the element at position n-1-i |
| Filters.SortBy | src/hooks/useFilters.ts:56-72 | the result is a permutation; price-asc is non-decreasing and price-desc, rating and popular non-increasing in their key, each with ties in filtered order; newest is the reverse; any other value keeps the order |
| Filters.ReverseMultiset | src/hooks/useFilters.ts:66-68 | reversal is a permutation |
| Filters.UseFilters | src/hooks/useFilters.ts:8-75 | the hook throws exactly when one of the four list filters is missing, and otherwise gives the lenient result |
| Filters.SlotCriteria | src/hooks/useFilters.ts:11-54 | the stored filters become criteria, a missing list counting as empty |
| Filters.OptionsSlot | src/types/index.ts:57-65 | a complete filter object has every list present |
| Filters.SortByMembers | src/hooks/useFilters.ts:56-72 | sorting keeps exactly the filtered products |
| Filters.InactiveFacetsPass | src/hooks/useFilters.ts:11-54 | an inactive facet admits every product |
| Filters.StagesArePipeline | src/hooks/useFilters.ts:11-54 | skipping the inactive stages is the same as applying every stage |
| Filters.FacetsAreAdmits | src/hooks/useFilters.ts:11-54 | all eight facets together are the conjunction of the criteria |
| Filters.StagedIsFilter | src/hooks/useFilters.ts:11-54 | the staged filters are one filter by the conjunction, so their order does not matter |
| Filters.UseFiltersExact | src/hooks/useFilters.ts:11-75 | a product is in the result if and only if it is in the input and meets every active criterion (soundness and completeness) |
| Filters.CompleteOptionsNeverFail | src/hooks/useFilters.ts:22-54 | with a complete filter object the hook never throws |
| Filters.InactiveFacetsKeepAll | src/hooks/useFilters.ts:11-54 | an empty query, empty lists, rating 0 and in-stock off filter nothing |
| Filters.InitialSlotThrows | src/store/useStore.ts:115 | the initial empty filter object makes the hook throw |
| Filters.LenientOnEmptySlot | src/hooks/useFilters.ts:11-22 | read leniently, the empty filter object applies only the query |
| Filters.QueryIgnoresTags | src/hooks/useFilters.ts:11-20 | tags are not searched |
| Filters.QueryCaseInsensitive | src/hooks/useFilters.ts:11-20 | the query ignores letter case |
| FilterPanel.Options | src/components/FilterPanel/FilterPanel.tsx:11-12 | the option list is distinct and holds exactly the values the products have |
| FilterPanel.FlatOptions | src/components/FilterPanel/FilterPanel.tsx:13-14 | the colour and size lists are distinct and hold exactly the values some product has |
| FilterPanel.OptionsFirstOccurrence | src/components/FilterPanel/FilterPanel.tsx:11-12 | options appear in first-occurrence order |
| FilterPanel.Toggle | src/components/FilterPanel/FilterPanel.tsx:16-22 | the value is present after if and only if it was absent before, and no other value changes |
| FilterPanel.ToggleTwice | src/components/FilterPanel/FilterPanel.tsx:16-22 | toggling an absent value twice restores the list |
| FilterPanel.OfferedColors | src/components/FilterPanel/FilterPanel.tsx:125 | at most eight distinct colours, all of them available |
| FilterPanel.Apply | src/components/FilterPanel/FilterPanel.tsx:21-100 | each panel action leaves a filter object holding only the key it sets; the slider sets the lower bound to 0; reset empties the object |
| FilterPanel.ApplyLeavesAtMostOneList | src/components/FilterPanel/FilterPanel.tsx:21-100 | after any panel action at most one list filter is present |
| FilterPanel.ApplyThenFilterFails | src/store/useStore.ts:251 | after any panel action the filter hook throws |
| StableSort.SortDesc | src/services/recommendationService.ts:13-18 | the stable sort: non-increasing in the key, a permutation, ties in input order |
| StableSort.StableSortUnique | src/hooks/useFilters.ts:56-72 | two non-increasing arrangements with the same ties are equal, so the stable sort is determined |
| StableSort.TakeSortedIsTop | src/services/recommendationService.ts:13-18 | an element left out of the first `n` of the sorted input means all `n` places are taken by elements with at least its key |
| Recommendations.PriceRatio | src/services/recommendationService.ts:91 | for positive prices the ratio lies in (0, 1] and is 1 exactly when the prices are equal |
| Recommendations.CommonTags | src/services/recommendationService.ts:94-96 | the shared tags are focal tags the candidate also has |
| Recommendations.Similarity | src/services/recommendationService.ts:84-99 | the score is between 0 and its maximum |
| Recommendations.GetSimilarProducts | src/services/recommendationService.ts:10-20 | as many as the limit or the other products allow, never the focal product, non-increasing in similarity |
| Recommendations.TopByScore | src/services/recommendationService.ts:13-18 | sorting precomputed scores picks the same top items as sorting by the key |
| Recommendations.SimilarIsStableTop | src/services/recommendationService.ts:10-20 | the result is the top of the stable sort of the non-focal products |
| Recommendations.Complementary | src/services/recommendationService.ts:119-130 | a known category maps to itself and one partner; any other category finds no list (inherited names are handled by BundleOutcome) |
| Recommendations.ComplementarySymmetric | src/services/recommendationService.ts:119-130 | the table is symmetric and every known category is its own complement |
| Recommendations.GetBundleRecommendations | src/services/recommendationService.ts:22-32 | as many as the limit or the complementary candidates allow, never the focal product, only complementary categories, non-increasing in rating |
| Recommendations.BundleIsStableTop | src/services/recommendationService.ts:22-32 | the bundle is the first `limit` complementary candidates of the stable sort by rating |
| Recommendations.BundleIsTop | src/services/recommendationService.ts:22-32 | a complementary candidate left out means the bundle is full and every product in it is rated at least as high |
| Recommendations.UnknownCategoryNoBundle | src/services/recommendationService.ts:22-32 | a category outside the table gives no bundle; when it is an `Object.prototype` name and another product is on offer the call throws instead |
| Recommendations.BundleOutcome | src/services/recommendationService.ts:129 | the call throws exactly when the category is an `Object.prototype` name and some other product exists; otherwise it returns the bundle |
| Recommendations.KnownCategoryNeverThrows | src/services/recommendationService.ts:119-129 | a category of the table never reaches the exception path |
| Recommendations.GetTrendingProducts | src/services/recommendationService.ts:34-42 | as many products as the limit allows, drawn from the catalogue with no product repeated beyond its copies, ordered by rating times review count |
| Recommendations.TrendingIsStableTop | src/services/recommendationService.ts:34-42 | the list is the first `limit` products of the stable sort by rating times review count, ties in catalogue order |
| Recommendations.TrendingLeavesOutOnlyLower | src/services/recommendationService.ts:34-42 | a product left out means the list is full and every product in it scores at least as high |
| Recommendations.TrendingIsTop | src/services/recommendationService.ts:34-42 | no left-out product scores above the last one chosen |
| Recommendations.Occurrences | src/services/recommendationService.ts:101-117 | a count never exceeds the list length |
| Recommendations.PersonalScore | src/services/recommendationService.ts:101-117 | the score is non-negative for non-negative ratings and review counts |
| Recommendations.GetPersonalizedRecommendations | src/services/recommendationService.ts:44-62 | as many as the limit or the unpurchased products allow, no purchased id, non-increasing in the personal score |
| Recommendations.PersonalizedIsStableTop | src/services/recommendationService.ts:44-62 | the list is the first `limit` unpurchased products of the stable sort by personal score |
| Recommendations.PersonalizedIsTop | src/services/recommendationService.ts:44-62 | an unpurchased product left out means the list is full and every product in it scores at least as high |
| Recommendations.ViewingRaisesScore | src/services/recommendationService.ts:101-117 | viewing a product adds 3 for a shared category and 2 for a shared brand |
| Recommendations.ViewedNotExcluded | src/services/recommendationService.ts:44-62 | viewed products are not excluded |
| Recommendations.GetRecommendations | src/services/recommendationService.ts:64-82 | exactly the similar, bundle and trending groups, in that order, with limits 4, 3 and 4 |
| Recommendations.SimilarityIsAdditive | src/services/recommendationService.ts:84-99 | a shared category adds 3 and a shared brand adds 2 |
| Search.MatchKey | src/services/searchService.ts:34 | a missing key reads as the empty string |
| Search.ToResult | src/services/searchService.ts:29-35 | a result keeps its product, its score and the Fuse score add up to 1, and its matches are the hit's keys in order with `''` for a missing key |
| Search.SearchProducts | src/services/searchService.ts:24-35 | a blank query gives nothing; otherwise one result per hit, in Fuse's order, with score 1 minus the Fuse score and the hit's match keys |
| Search.ScoresInvertOrder | src/services/searchService.ts:29-35 | hits in ascending Fuse score give results in descending score |
| Search.ScoresInUnitRange | src/services/searchService.ts:29-35 | Fuse scores in [0, 1] give result scores in [0, 1] |
| Search.SuggestionsFrom | src/services/searchService.ts:44-52 | suggestions are distinct, as many as the limit or the distinct labels of the first 2·limit results allow, each a label of one of those results |
| Search.SuggestionsAreEarliest | src/services/searchService.ts:46-52 | a label of the leading results that is not suggested means the suggestions are full and each was added to the set before it |
| Search.FirstSuggestionIsTopName | src/services/searchService.ts:46-52 | the best result's name is the first suggestion |
| Search.GetSuggestions | src/services/searchService.ts:38-52 | a blank or one-character query gives none; otherwise distinct labels of the first 2·limit results, as many as the limit or those labels allow |
| Search.SuggestionsInInsertionOrder | src/services/searchService.ts:46-52 | suggestions are the first `limit` distinct labels of the leading results, in the order they were first added |
| Search.UseSearch | src/hooks/useSearch.ts:11-24 | a query under two characters gives nothing; otherwise the search results and suggestions |
| Search.BlankQueryYieldsNothing | src/hooks/useSearch.ts:17-18 | a whitespace-only query gives nothing however long |
| MockProducts.BasePrice | src/data/mockProducts.ts:21 | the base price lies in [20, 520] |
| MockProducts.Cut | src/data/mockProducts.ts:22-23 | the cut price is positive, below the base and within a cent of the fraction |
| MockProducts.Rating | src/data/mockProducts.ts:33 | ratings lie in [3, 5] |
| MockProducts.Tiers | src/data/mockProducts.ts:65-70 | four tiers at 1, 5, 10 and 20 units with 0, 5, 10 and 15 percent off, the first at the base price, prices non-increasing |
| MockProducts.Pricing | src/data/mockProducts.ts:21-29 | the original price is present exactly for a discounted product, and then exceeds the price and equals the base |
| MockProducts.ColorChoice | src/data/mockProducts.ts:41 | a prefix of the colours of length 2 to 5 |
| MockProducts.SizeChoice | src/data/mockProducts.ts:42 | sizes exist exactly for Fashion, as a prefix of XS to XXL of length 3 to 6 |
| MockProducts.TagChoice | src/data/mockProducts.ts:44-50 | a prefix of the tags of length 1 to 3 |
| MockProducts.FeatureChoice | src/data/mockProducts.ts:51-58 | a prefix of the features of length 2 to 5 |
| MockProducts.GenerateProduct | src/data/mockProducts.ts:18-72 | every field bound of a generated product: id, category and brand by id, price, rating, review count, stock in [10, 109], colours, sizes, tags, features, four volume tiers |
| MockProducts.ProductKeyInjective | src/data/mockProducts.ts:26 | distinct numbers give distinct ids |
| MockProducts.Catalog | src/data/mockProducts.ts:74 | 120 products prod-1 to prod-120, category and brand by id, all in stock |
| MockProducts.CatalogIdsDistinct | src/data/mockProducts.ts:74 | catalog ids are pairwise distinct |
| MockProducts.Slice | src/data/mockProducts.ts:76-78 | each slice is eight consecutive products |
| MockProducts.Featured | src/data/mockProducts.ts:76 | eight products, prod-1 to prod-8 |
| MockProducts.Trending | src/data/mockProducts.ts:77 | eight products, prod-9 to prod-16 |
| MockProducts.NewArrivals | src/data/mockProducts.ts:78 | eight products, prod-17 to prod-24 |
| MockProducts.SlicesDisjoint | src/data/mockProducts.ts:76-78 | featured, trending and new arrivals share no product |
| ProductDetail.EarningsAreEarned | src/components/ProductDetail/ProductDetail.tsx:49-57 | a badge is earned exactly by its rule |
| ProductDetail.DerivedBadges | src/components/ProductDetail/ProductDetail.tsx:46-59 | the badges are distinct and are exactly the product's own plus the earned ones |
| ProductDetail.OnSale | src/components/ProductDetail/ProductDetail.tsx:51 | a non-zero original price above the price |
| ProductDetail.Earned | src/components/ProductDetail/ProductDetail.tsx:49-57 | which badge the product's own data earns: featured tag, sale, best seller at 4.6 and 250 reviews, limited stock below 10 |
| ProductDetail.Shipping | src/components/ProductDetail/ProductDetail.tsx:62-85 | the product's own shipping wins; otherwise free exactly from 75, Standard costing 0 when free and 9.99 otherwise in 3 to 7 days, Express 19.99 in 1 to 3 days |
| ProductDetail.ShippingMonotone | src/components/ProductDetail/ProductDetail.tsx:62-85 | a dearer product never loses free shipping, and Standard never costs more than Express |
| ProductDetail.FirstTier | src/components/ProductDetail/ProductDetail.tsx:87-89 | the first applicable tier in list order, or none when no tier applies |
| ProductDetail.SelectedTierAsWritten | src/components/ProductDetail/ProductDetail.tsx:87-89 | the first tier found, or none without volume pricing |
| ProductDetail.LastIndex | src/components/ProductDetail/ProductDetail.tsx:87-89 | the index of the last applicable tier, or -1 |
| ProductDetail.LastTier | src/components/ProductDetail/ProductDetail.tsx:87-89 | the last applicable tier, or none when no tier applies |
| ProductDetail.SelectedTier | src/components/ProductDetail/ProductDetail.tsx:87-89 | the corrected tier, or none without volume pricing |
| ProductDetail.LastTierIsBest | src/components/ProductDetail/ProductDetail.tsx:87-89 | with ascending thresholds the chosen tier has the highest applicable threshold |
| ProductDetail.EffectivePrice | src/components/ProductDetail/ProductDetail.tsx:90-91 | the tier's price when there is one (and non-zero), else the product's price |
| ProductDetail.VolumeDiscount | src/components/ProductDetail/ProductDetail.tsx:92 | the tier's discount, else 0 |
| ProductDetail.FirstTierAlwaysFirst | src/components/ProductDetail/ProductDetail.tsx:87-89 | when the first threshold is 1 the first tier is chosen for every quantity |
| ProductDetail.TwentyUnitsGetNoDiscount | src/components/ProductDetail/ProductDetail.tsx:87-92 | as written, twenty units of a catalog product get no discount; the corrected rule gives 15 percent |
| ProductDetail.CatalogTierBands | src/data/mockProducts.ts:65-70 | the corrected rule gives 0, 5, 10 or 15 percent by quantity band |
| ProductDetail.SaleProductShowsBasePrice | src/components/ProductDetail/ProductDetail.tsx:90-91 | on a discounted catalog product the tier price shown is the base price, above the sale price |
| ProductDetail.ParseQuantity | src/components/ProductDetail/ProductDetail.tsx:288 | a typed quantity is kept when at least one, else 1 |
| ProductDetail.NextQuantity | src/components/ProductDetail/ProductDetail.tsx:280-288 | '−' clamps at 1, '+' adds one, typing parses |
| ProductDetail.QuantityStaysPositive | src/components/ProductDetail/ProductDetail.tsx:280-288 | no sequence of controls takes the quantity below 1 |
| ProductDetail.BuyDisabled | src/components/ProductDetail/ProductDetail.tsx:310 | Add to Cart and Buy Now are disabled exactly at zero stock |
| ProductDetail.CompareDisabled | src/components/ProductDetail/ProductDetail.tsx:330 | Compare is disabled when the product is compared or four are |
| ProductDetail.CompareEnabledIffAppends | src/components/ProductDetail/ProductDetail.tsx:349 | Compare is enabled exactly when the store would append the product |
| ProductDetail.InitialColor | src/components/ProductDetail/ProductDetail.tsx:21 | the first colour's name, when there is one |
| ProductDetail.InitialSize | src/components/ProductDetail/ProductDetail.tsx:22 | the first size, when there is one |
| ProductDetail.Payload | src/components/ProductDetail/ProductDetail.tsx:32-39 | the payload carries the chosen quantity, colour and size |
| ProductDetail.AddPayloadAddsQuantity | src/components/ProductDetail/ProductDetail.tsx:32-39 | adding the payload raises the cart's units by the quantity and creates the variant's line |
| MiniCart.Units | src/components/MiniCart/MiniCart.tsx:35 | a missing or zero quantity counts as one |
| MiniCart.Subtotal | src/components/MiniCart/MiniCart.tsx:35 | the sum over the lines of price times units |
| MiniCart.ItemCount | src/components/MiniCart/MiniCart.tsx:59 | the sum of the lines' units; equal to the store's units on a well-formed cart by `ItemCountOfWellFormed` |
| MiniCart.ShowBadge | src/components/MiniCart/MiniCart.tsx:53 | the badge shows exactly when the cart has lines |
| MiniCart.ShippingFee | src/components/MiniCart/MiniCart.tsx:36 | free exactly above 100, else 10 |
| MiniCart.Total | src/components/MiniCart/MiniCart.tsx:36 | the total exceeds the subtotal by the shipping fee |
| MiniCart.ItemCountOfWellFormed | src/components/MiniCart/MiniCart.tsx:53-59 | on a well-formed cart the count is the store's unit total, and the badge shows exactly when it is positive |
| MiniCart.AddRaisesItemCount | src/components/MiniCart/MiniCart.tsx:53 | adding raises the count by the incoming units |
| MiniCart.MinusAction | src/components/MiniCart/MiniCart.tsx:153-160 | '−' sends one less, never below 1, with the line's own id, colour and size |
| MiniCart.PlusAction | src/components/MiniCart/MiniCart.tsx:168-176 | '+' sends one more with the line's own id, colour and size |
| MiniCart.TrashAction | src/components/MiniCart/MiniCart.tsx:184 | the trash button removes by the line's own id, colour and size |
| MiniCart.MinusKeepsEveryLine | src/components/MiniCart/MiniCart.tsx:153-160 | '−' never removes a line and leaves it at max(1, q-1) |
| MiniCart.MatchesExactLine | src/store/useStore.ts:147-158 | with both colour and size given, the pattern matches exactly the line's own key |
| MiniCart.ControlsExactForFullVariant | src/components/MiniCart/MiniCart.tsx:168-184 | on a line with colour and size, '+' and trash act on that line only |
| MiniCart.BareLineControlsHitEveryVariant | src/components/MiniCart/MiniCart.tsx:168-184 | on a line without variant, trash and '+' also hit the product's other variants |
| MiniCart.TrashLine | src/components/MiniCart/MiniCart.tsx:184 | exactly the lines of other keys survive |
| MiniCart.PlusLine | src/components/MiniCart/MiniCart.tsx:168-176 | only the control's own line is raised by one |
| MiniCart.MinusLine | src/components/MiniCart/MiniCart.tsx:153-160 | only the control's own line is lowered, never below 1 |
| MiniCart.LineControlsWellFormed | src/components/MiniCart/MiniCart.tsx:153-184 | the per-line controls keep the cart well formed |
| MiniCart.DrawerControl | src/components/MiniCart/MiniCart.tsx:19-33 | with the prop given, the drawer follows it and open and close leave internal state alone; without it, open opens and close closes |
| ShoppingCart.Summarize | src/components/ShoppingCart/ShoppingCart.tsx:12-14 | tax is 10 percent; shipping is free exactly above 100, else 10; the total is the sum; the hint appears exactly below 100, for the missing amount |
| ShoppingCart.SubtotalAsWritten | src/components/ShoppingCart/ShoppingCart.tsx:8-11 | over the store's flat lines the page throws exactly when the cart is non-empty, and sums to 0 otherwise |
| ShoppingCart.AddedLineBreaksPage | src/components/ShoppingCart/ShoppingCart.tsx:8-11 | after any add to the cart the page's render throws |
| ShoppingCart.Subtotal | src/components/ShoppingCart/ShoppingCart.tsx:8-11 | the corrected subtotal over page lines: 0 for no lines (additivity and sign in the lemmas below) |
| ShoppingCart.SubtotalSplit | src/components/ShoppingCart/ShoppingCart.tsx:8-11 | the subtotal of a split list is the sum of the parts, and a line adds its price times its quantity |
| ShoppingCart.SubtotalNonNegative | src/components/ShoppingCart/ShoppingCart.tsx:8-11 | prices and quantities that are not negative give a subtotal that is not negative |
| ShoppingCart.PageSubtotalIsDrawerSubtotal | src/components/ShoppingCart/ShoppingCart.tsx:8-11 | store lines read as page lines give the drawer's subtotal on every well-formed cart |
| ShoppingCart.ReachablePageMatchesDrawer | src/components/ShoppingCart/ShoppingCart.tsx:8-11 | on every store the actions reach, the corrected page and the drawer agree |
| ShoppingCart.HintOrFreeShipping | src/components/ShoppingCart/ShoppingCart.tsx:165-168 | at exactly 100 there is neither free shipping nor a hint; otherwise exactly one of them |
| ShoppingCart.PageTotalIsDrawerTotalPlusTax | src/components/ShoppingCart/ShoppingCart.tsx:12-14 | the page total is the drawer's total plus tax |
| ShoppingCart.HeaderCount | src/components/ShoppingCart/ShoppingCart.tsx:49 | the header count is the number of lines, zero exactly for the empty state |
| ShoppingCart.HeaderCountsLines | src/components/ShoppingCart/ShoppingCart.tsx:49 | for lines of at least one unit the count is at most the units, and equal exactly when every line holds one |
| ShoppingCart.MinusAction | src/components/ShoppingCart/ShoppingCart.tsx:101-110 | '−' sends one less, never below 1, with no colour or size |
| ShoppingCart.PlusAction | src/components/ShoppingCart/ShoppingCart.tsx:111-119 | '+' sends one more with no colour or size |
| ShoppingCart.RemoveAction | src/components/ShoppingCart/ShoppingCart.tsx:130 | remove sends the product id alone |
| ShoppingCart.RemoveDropsEveryVariant | src/components/ShoppingCart/ShoppingCart.tsx:130 | for any page line, including a store line read through PageLine, remove deletes every variant of the product and keeps the other products |
| ShoppingCart.MinusSetsEveryVariant | src/components/ShoppingCart/ShoppingCart.tsx:101-110 | for any page line, including a store line read through PageLine, '−' sets every variant of the product and changes no other line |
| ProductCard.DiscountPercentage | src/components/ProductGrid/ProductCard.tsx:31-33 | 0 without a (non-zero) original price; otherwise the saving as a percentage of the original price, rounded to the nearest integer with halves up; so between 0 and 100 for a price up to the original and 0 at full price |
| ProductCard.ShowDiscountBadge | src/components/ProductGrid/ProductCard.tsx:47 | the badge shows exactly for a positive percentage |
| ProductCard.LowStockBadge | src/components/ProductGrid/ProductCard.tsx:52 | Low Stock for 1 to 9 units |
| ProductCard.OutOfStockOverlay | src/components/ProductGrid/ProductCard.tsx:57 | the overlay at zero stock |
| ProductCard.AddDisabled | src/components/ProductGrid/ProductCard.tsx:117 | the button is disabled at zero stock |
| ProductCard.TwentyPercentShare | src/components/ProductGrid/ProductCard.tsx:31-33 | a price within a cent of 80 percent rounds to a 20 percent discount |
| ProductCard.StockSignalsExclusive | src/components/ProductGrid/ProductCard.tsx:52-61 | Low Stock and Out of Stock never show together, and the button is disabled exactly when out of stock |
| ProductCard.AddAction | src/components/ProductGrid/ProductCard.tsx:18 | the button adds the product with no quantity or variant: one unit |
| ProductCard.AddAddsOneUnit | src/components/ProductGrid/ProductCard.tsx:18 | a click adds one unit to the cart |
| ProductCard.CatalogSaleIsTwentyPercent | src/components/ProductGrid/ProductCard.tsx:31-33 | every discounted catalog product shows a 20 percent badge |
| ProductCard.InWishlistAsWritten | src/components/ProductGrid/ProductCard.tsx:14 | the check throws exactly when the wishlist is non-empty, and never reports a listed product |
| ProductCard.WishlistedStoreBreaksEveryCard | src/components/ProductGrid/ProductCard.tsx:14 | after any wishlist add, every card's check throws |
| ProductCard.InWishlist | src/components/ProductGrid/ProductCard.tsx:14 | the corrected check: some wishlisted product has the card's id |
| ProductCard.InWishlistTracksStore | src/components/ProductGrid/ProductCard.tsx:14 | the corrected heart is filled after an add, empty after a remove, and unchanged for other products |
| InventoryIndicator.Classify | src/components/InventoryIndicator/InventoryIndicator.tsx:10-62 | exactly one of out of stock (stock 0), only N left (up to the threshold), low stock (up to 50), in stock |
| InventoryIndicator.OutOfStockFirst | src/components/InventoryIndicator/InventoryIndicator.tsx:12-22 | stock 0 is out of stock whatever the threshold |
| InventoryIndicator.BannerAgainstCard | src/components/InventoryIndicator/InventoryIndicator.tsx:24 | the card's Low Stock badge implies "only N left"; they disagree exactly at stock 10 or below 0 |
| Comparison.SpecKeys | src/components/Comparison/Comparison.tsx:37-41 | a product's keys in order |
| Comparison.AllSpecs | src/components/Comparison/Comparison.tsx:37-41 | the distinct keys of all compared products; stated by `AllSpecsUnion` and `AllSpecsInFirstOccurrenceOrder` |
| Comparison.AllSpecsUnion | src/components/Comparison/Comparison.tsx:37-41 | the rows are distinct and hold exactly the keys some product has |
| Comparison.AllSpecsInFirstOccurrenceOrder | src/components/Comparison/Comparison.tsx:37-41 | rows appear in first-occurrence order |
| Comparison.SpecValue | src/components/Comparison/Comparison.tsx:133 | the value is absent exactly when no pair has the key, and else is a listed value |
| Comparison.Cell | src/components/Comparison/Comparison.tsx:133 | a missing or empty value shows '-', else the value |
| Comparison.StockCell | src/components/Comparison/Comparison.tsx:122-123 | 'In Stock' exactly when stock is positive |
| Comparison.Row | src/components/Comparison/Comparison.tsx:130-135 | one cell per product, for the row's key |
| Comparison.Render | src/components/Comparison/Comparison.tsx:7-41 | the empty state exactly for an empty list; else one row per key and one stock cell per product |
| Comparison.EveryValueShown | src/components/Comparison/Comparison.tsx:128-135 | every non-empty value appears in its key's row, in its product's column |
| Carousel.VisibleItems | src/components/Carousel/ProductCarousel.tsx:45 | 2 on mobile, else the prop |
| Carousel.MaxIndex | src/components/Carousel/ProductCarousel.tsx:46 | 0 exactly when everything fits; otherwise the last full view starts there |
| Carousel.Next | src/components/Carousel/ProductCarousel.tsx:48-50 | one step forward, never past the last index |
| Carousel.Prev | src/components/Carousel/ProductCarousel.tsx:52-54 | one step back, never below 0 |
| Carousel.ArrowsStep | src/components/Carousel/ProductCarousel.tsx:156-171 | for an index in [0, maxIndex], an arrow is disabled exactly when its click would not move |
| Carousel.ClicksStayInRange | src/components/Carousel/ProductCarousel.tsx:48-54 | with the product and visible counts fixed, no sequence of clicks leaves [0, maxIndex] |
| Carousel.ResizeAsWritten | src/components/Carousel/ProductCarousel.tsx:35-43 | a resize sets the mobile flag from the 768-pixel breakpoint and keeps the index |
| Carousel.ResizeLeavesIndexPastEnd | src/components/Carousel/ProductCarousel.tsx:35-50 | six products at the last phone view, widened: the index passes maxIndex and the enabled "next" arrow scrolls back |
| Carousel.Resize | src/components/Carousel/ProductCarousel.tsx:35-46 | the corrected resize: same breakpoint, index pulled back into [0, maxIndex] and unchanged when already inside |
| Carousel.EventsStayInRange | src/components/Carousel/ProductCarousel.tsx:35-54 | with corrected resizes, any mix of resizes and clicks keeps the index in [0, maxIndex] for the current width |
| Carousel.ToggleWishlist | src/components/Carousel/ProductCarousel.tsx:22-28 | the heart removes a listed product and adds an unlisted one |
| Carousel.ToggleTwice | src/components/Carousel/ProductCarousel.tsx:22-28 | one toggle flips membership, two restore it, and from unlisted two restore the whole state |
| FrequentlyBoughtTogether.Items | src/components/FrequentlyBoughtTogether/FrequentlyBoughtTogether.tsx:16 | the main product first, then the first two companions: one to three items |
| FrequentlyBoughtTogether.TotalOfBundle | src/components/FrequentlyBoughtTogether/FrequentlyBoughtTogether.tsx:17 | the total is the main price plus the first two companions' prices |
| FrequentlyBoughtTogether.PageCompanionsAllShown | src/pages/ProductPage.tsx:173 | the at most two companions the page passes are all shown |
| FrequentlyBoughtTogether.AsLine | src/components/FrequentlyBoughtTogether/FrequentlyBoughtTogether.tsx:20 | each item is added as one unit with no variant |
| FrequentlyBoughtTogether.AddAll | src/components/FrequentlyBoughtTogether/FrequentlyBoughtTogether.tsx:19-21 | one add per item, in order |
| FrequentlyBoughtTogether.AddAllAddsOneUnitEach | src/components/FrequentlyBoughtTogether/FrequentlyBoughtTogether.tsx:19-21 | the cart gains one unit per item, stays well formed, and nothing else changes |
| OneClickReorder.MockOrdersConsistent | src/components/OneClickReorder/OneClickReorder.tsx:20-70 | each sample order's total is the sum of its items, and item ids are distinct |
| OneClickReorder.Visible | src/components/OneClickReorder/OneClickReorder.tsx:77 | the panel renders only for a signed-in user |
| OneClickReorder.ReorderProduct | src/components/OneClickReorder/OneClickReorder.tsx:82-97 | the stand-in product carries the item's id, name, price and image |
| OneClickReorder.ReorderLine | src/components/OneClickReorder/OneClickReorder.tsx:82-99 | each item is added with its own quantity and no variant |
| OneClickReorder.Reorder | src/components/OneClickReorder/OneClickReorder.tsx:79-101 | one add per item, in order |
| OneClickReorder.ReorderTwiceDoubles | src/components/OneClickReorder/OneClickReorder.tsx:79-101 | a second reorder adds to every line what the first added |
| OneClickReorder.ReorderIntoEmptyCart | src/components/OneClickReorder/OneClickReorder.tsx:79-101 | into an empty cart an item lands with its quantity, and a second reorder doubles it |
| OneClickReorder.DiffDays | src/components/OneClickReorder/OneClickReorder.tsx:107-108 | the ceiling of the distance in days |
| OneClickReorder.FormatDate | src/components/OneClickReorder/OneClickReorder.tsx:110-113 | Yesterday exactly at 1, days below 7, weeks below 30, else the locale date |
| OneClickReorder.LabelIsSymmetric | src/components/OneClickReorder/OneClickReorder.tsx:107-113 | past and future dates equally far get the same label; the present reads 0 days |
| ReviewsSection.Row | src/components/Reviews/ReviewsSection.tsx:42-45 | the count of reviews with that rating, and the percentage, 0 when there are no reviews |
| ReviewsSection.Distribution | src/components/Reviews/ReviewsSection.tsx:42-46 | five rows, for 5 down to 1 stars |
| ReviewsSection.Starred | src/components/Reviews/ReviewsSection.tsx:42-46 | the reviews rated 1 to 5 are at most all reviews |
| ReviewsSection.FiveCounts | src/components/Reviews/ReviewsSection.tsx:42-46 | the five counts add up to the reviews rated 1 to 5 |
| ReviewsSection.DistributionCountsReviews | src/components/Reviews/ReviewsSection.tsx:42-46 | the rows count at most every review, and exactly every review when all are rated 1 to 5 |
| ReviewsSection.Submit | src/components/Reviews/ReviewsSection.tsx:49-59 | a review is sent exactly with title, comment and callback, as the current user, verified; the form then resets |
| ReviewsSection.SubmitOnce | src/components/Reviews/ReviewsSection.tsx:49-59 | the reset form cannot be sent again |
| ProductPage.SeedCount | src/pages/ProductPage.tsx:33 | 4 to 6 seed reviews |
| ProductPage.SeedRating | src/pages/ProductPage.tsx:36 | the nudged rating, rounded and held to 3 to 5 |
| ProductPage.SeedReview | src/pages/ProductPage.tsx:34-47 | the seed review's id, user, rating, texts, helpful count below 17, and verified exactly at even positions |
| ProductPage.SeedReviews | src/pages/ProductPage.tsx:21-49 | one seed review per position, all rated 3 to 5 |
| ProductPage.SeedReviewIdInjective | src/pages/ProductPage.tsx:38 | different positions give different ids |
| ProductPage.SeedReviewIdsDistinct | src/pages/ProductPage.tsx:38 | seed review ids are pairwise distinct |
| ProductPage.DashSpaces | src/pages/ProductPage.tsx:104 | no white space is left, the text does not grow, and text without white space is unchanged |
| ProductPage.DashSpacesRun | src/pages/ProductPage.tsx:104 | a non-empty run of white space before text becomes exactly one dash |
| ProductPage.DashSpacesSplit | src/pages/ProductPage.tsx:104 | the replacement works piece by piece when the split does not cut a run of white space |
| ProductPage.FallbackSeller | src/pages/ProductPage.tsx:100-118 | the stand-in seller: rating in [3.8, 5], at least 120 and the product's reviews, response rate 94 to 99 |
| ProductPage.SellerOf | src/pages/ProductPage.tsx:100-118 | the product's own seller wins |
| ProductPage.FallbackJoinedYear | src/pages/ProductPage.tsx:100-118 | the stand-in joined in 2017 to 2022 |
| ProductPage.AverageRatingInRange | src/pages/ProductPage.tsx:120-125 | with no reviews the product's rating; else a mean in [1, 5] |
| ProductPage.AverageRating | src/pages/ProductPage.tsx:120-125 | the product's rating without reviews, else the mean review rating |
| ProductPage.SeedAverageInRange | src/pages/ProductPage.tsx:120-125 | the seed reviews average 3 to 5 |
| ProductPage.AddReview | src/pages/ProductPage.tsx:90-98 | the new review goes in front with no helpful votes |
| ProductPage.Persist | src/pages/ProductPage.tsx:78-82 | nothing for an empty list; else the first 100 reviews |
| ProductPage.ReloadKeepsFirstHundred | src/pages/ProductPage.tsx:63-82 | reading back what was stored gives the first 100 reviews, or the seeds when nothing was stored |
| ProductPage.AddedReviewIsStored | src/pages/ProductPage.tsx:78-98 | a new review is always stored first and the store holds at most 100 |
| ProductQA.AnsweredBy | src/components/ProductQA/ProductQA.tsx:48 | "name (Seller)", or "Seller" for a missing or empty name |
| ProductQA.SeedQuestion | src/components/ProductQA/ProductQA.tsx:35-50 | the seed question's id, asker, canned question and answer, and helpful count |
| ProductQA.SeedQuestions | src/components/ProductQA/ProductQA.tsx:35 | exactly two seed questions |
| ProductQA.SeedQuestionsDiffer | src/components/ProductQA/ProductQA.tsx:35-50 | the two are different questions with different ids, both answered |
| ProductQA.Ask | src/components/ProductQA/ProductQA.tsx:79-92 | a blank draft changes nothing; otherwise the trimmed question goes in front, the draft clears and the form closes |
| ProductQA.AskTrimsAndClears | src/components/ProductQA/ProductQA.tsx:79-92 | the asked question has no surrounding white space and asking again at once changes nothing |
| ProductQA.MarkHelpful | src/components/ProductQA/ProductQA.tsx:95-97 | only questions with the id gain a vote; order and length are kept |
| ProductQA.Vote | src/components/ProductQA/ProductQA.tsx:96 | a question with the id gains one helpful mark; others are unchanged |
| ProductQA.VotesAdded | src/components/ProductQA/ProductQA.tsx:95-97 | a vote adds one mark per question with the id |
| ProductQA.MarkHelpfulAddsOneVote | src/components/ProductQA/ProductQA.tsx:95-97 | with unique ids a vote adds exactly one mark |
| ProductQA.Persist | src/components/ProductQA/ProductQA.tsx:73-76 | nothing for an empty list; else the first 50 questions |
| ProductQA.ReloadKeepsFirstFifty | src/components/ProductQA/ProductQA.tsx:59-76 | reading back what was stored gives the first 50 questions, or the seeds when nothing was stored |
| Base.LoadStored | src/components/ProductQA/ProductQA.tsx:59-71 | a readable stored list replaces the seeds, here and in src/pages/ProductPage.tsx:63-76 |
| ProductQA.AskedQuestionIsStored | src/components/ProductQA/ProductQA.tsx:73-92 | an asked question is always stored first |
| BulkQuote.Initial | src/components/BulkQuote/BulkQuoteModal.tsx:18 | the quantity defaults to 10 and the texts are empty |
| BulkQuote.TypeQuantity | src/components/BulkQuote/BulkQuoteModal.tsx:86 | the typed quantity is at least 1 and nothing else changes |
| BulkQuote.OptionalText | src/components/BulkQuote/BulkQuoteModal.tsx:32-33 | blank text becomes absent; other text is trimmed |
| BulkQuote.Submit | src/components/BulkQuote/BulkQuoteModal.tsx:27-42 | an invalid form changes nothing; a valid one sends the request (when a callback exists), clears the texts, keeps the quantity and closes |
| BulkQuote.SentRequestsAreValid | src/components/BulkQuote/BulkQuoteModal.tsx:27-35 | every request sent has a quantity of at least 1 and an '@' in the email |
| BulkQuote.NoDoubleSend | src/components/BulkQuote/BulkQuoteModal.tsx:37-42 | the cleared form cannot be sent again |
| LoginModal.Submit | src/components/Auth/LoginModal.tsx:21-47 | the error clears and loading shows while submitting; empty fields give the error and no login; otherwise the user is made from the email and the dialog closes with cleared fields |
| LoginModal.NameIsLocalPart | src/components/Auth/LoginModal.tsx:33-37 | the user's name is the part before the '@' |
| LoginModal.SecondSubmitFails | src/components/Auth/LoginModal.tsx:39-44 | the cleared form cannot sign in again |
| Text.Before | src/components/Auth/LoginModal.tsx:35 | the prefix before the first separator, or the whole text |
| Text.BeforeOfJoin | src/components/Auth/LoginModal.tsx:35 | the prefix is recovered from prefix, separator and rest |
| Text.KeepDigits | src/components/WhatsAppChat/WhatsAppChat.tsx:31 | only digits are kept, and every digit is kept |
| Text.KeepDigitsIdempotent | src/components/WhatsAppChat/WhatsAppChat.tsx:31 | stripping twice is stripping once |
| Text.ToLower | src/hooks/useFilters.ts:12-18 | each character is mapped on its own: an ASCII capital becomes its small letter (32 code points on), every other character stays |
| Text.Trim | src/components/ProductQA/ProductQA.tsx:79-85 | the contiguous middle of the input after its leading white space, followed in the input only by white space; blank exactly when the input is all white space, otherwise neither starting nor ending with white space |
| Text.IsBlank | src/services/searchService.ts:25 | `!query.trim()`: empty or all white space |
| Text.Contains | src/hooks/useFilters.ts:15-18 | `includes`: the needle occurs as a contiguous block |
| Text.CharCodeSum | src/pages/ProductPage.tsx:22 | the sum of the character codes |
| Base.Round | src/components/ProductGrid/ProductCard.tsx:32 | `Math.round`: within half of the input, halves rounded up |
| Base.Dedup | src/components/FilterPanel/FilterPanel.tsx:11 | `Array.from(new Set(s))`: distinct, with exactly the input's elements |
| MiniCart.Open | src/components/MiniCart/MiniCart.tsx:21-27 | opening never changes the prop-controlled value |
| MiniCart.Close | src/components/MiniCart/MiniCart.tsx:28-33 | closing never changes the prop-controlled value |
| Comparison.HeadingWithinCap | src/components/Comparison/Comparison.tsx:46 | on any reachable store the heading's count never exceeds 4 |
| BottomNavProvider.HookInsideProvider | src/components/Navigation/BottomNavProvider.tsx:16-21 | inside the provider the hook returns the context; outside it throws |
| Breadcrumbs.LowerNamesSameTargets | src/components/Breadcrumbs/Breadcrumbs.tsx:48-49 | lower-casing the names first leaves the targets unchanged |
| BottomNavigation.Tabs | src/components/Navigation/BottomNavigation.tsx:21-53 | five tabs; only the cart tab has a badge, holding the count |
| BottomNavigation.ExactlyOneActive | src/components/Navigation/BottomNavigation.tsx:21-53 | tab ids are distinct and every tab value has a button, so exactly one is active |
| BottomNavigation.SyncFromPath | src/components/Navigation/BottomNavigation.tsx:13-18 | exactly "/" is home; then the first section contained in the path; otherwise the tab stays |
| BottomNavigation.Click | src/components/Navigation/BottomNavigation.tsx:55-59 | a tap sets the tab's own id and goes to its path |
| BottomNavigation.SyncOfTabPaths | src/components/Navigation/BottomNavigation.tsx:13-18 | each tab's own path selects that tab |
| BottomNavigation.ClickThenSyncAgrees | src/components/Navigation/BottomNavigation.tsx:13-18 | after a tap reloads the page, the bar picks the tapped tab again |
| BottomNavigation.BadgeAsWritten | src/components/Navigation/BottomNavigation.tsx:98 | as written: a count of 0 renders the text "0", a positive count the badge, anything else nothing |
| BottomNavigation.EmptyCartShowsZero | src/components/Navigation/BottomNavigation.tsx:98 | as written, the empty cart puts a "0" under the cart icon |
| BottomNavigation.Badge | src/components/Navigation/BottomNavigation.tsx:98 | the badge shows exactly for a positive count |
| BottomNavigation.BadgeTracksCart | src/components/Navigation/BottomNavigation.tsx:98 | the badge shows exactly for a non-empty well-formed cart, with its unit count |
| BottomNavProvider.RouteTab | src/components/Navigation/BottomNavProvider.tsx:44-54 | home, categories, search (or the open overlay), cart, profile (or login), in that priority; nothing when none matches |
| BottomNavProvider.Route | src/components/Navigation/BottomNavProvider.tsx:40-55 | the chosen tab is set, or the state is unchanged |
| BottomNavProvider.RouteIdempotent | src/components/Navigation/BottomNavProvider.tsx:57-59 | handling the same address again changes nothing |
| BottomNavProvider.RouteAgreesWithBar | src/components/Navigation/BottomNavProvider.tsx:44-54 | without hash, overlay or login the provider picks the bar's own tab; on a login page it picks profile where the bar keeps the tab |
| BottomNavProvider.OpeningSearchSelectsSearchTab | src/components/Navigation/BottomNavProvider.tsx:48-49 | opening the search overlay selects the search tab unless the address asks for home or categories |
| BottomNavProvider.Overflow | src/components/Navigation/BottomNavProvider.tsx:68-73 | the page scroll is locked exactly while an overlay is open |
| BottomNavProvider.OverlaysLockScroll | src/components/Navigation/BottomNavProvider.tsx:68-78 | opening either overlay locks the scroll and closing both unlocks it |
| BottomNavProvider.UseBottomNav | src/components/Navigation/BottomNavProvider.tsx:16-21 | the hook throws exactly outside a provider, with its message |
| Breadcrumbs.RenderItem | src/components/Breadcrumbs/Breadcrumbs.tsx:26-37 | an item is a link exactly when its target is non-empty |
| Breadcrumbs.Render | src/components/Breadcrumbs/Breadcrumbs.tsx:16-39 | the home link first, then one crumb per item in order |
| Breadcrumbs.ProductItems | src/components/Breadcrumbs/Breadcrumbs.tsx:46-52 | three items: category and subcategory with lower-cased targets, then the unlinked name |
| Breadcrumbs.ProductTrail | src/components/Breadcrumbs/Breadcrumbs.tsx:16-52 | home, two links, the plain name; the subcategory link extends the category link by one segment |
| Breadcrumbs.TargetsIgnoreCase | src/components/Breadcrumbs/Breadcrumbs.tsx:48-49 | names equal up to case give the same targets |
| WhatsAppChat.MessageOf | src/components/WhatsAppChat/WhatsAppChat.tsx:13 | an omitted message is the default greeting |
| WhatsAppChat.PositionOf | src/components/WhatsAppChat/WhatsAppChat.tsx:14 | an omitted position is bottom-right |
| WhatsAppChat.Url | src/components/WhatsAppChat/WhatsAppChat.tsx:30-31 | the wa.me link with the number's digits and the encoded message |
| WhatsAppChat.UrlParts | src/components/WhatsAppChat/WhatsAppChat.tsx:30-31 | the digits and the encoded message can be read back from the link |
| WhatsAppChat.FormattingIgnored | src/components/WhatsAppChat/WhatsAppChat.tsx:31 | punctuation in the number does not change the link |
| WhatsAppChat.KeepDigitsInOrder | src/components/WhatsAppChat/WhatsAppChat.tsx:31 | digits are kept in order |
| WhatsAppChat.OpenChat | src/components/WhatsAppChat/WhatsAppChat.tsx:33-37 | windows narrower than 768 navigate in place, wider ones open a new tab, with the same link |
| WhatsAppChat.Apply | src/components/WhatsAppChat/WhatsAppChat.tsx:128 | the round button toggles the window and the close button closes it |
| WhatsAppChat.ParityOfPresses | src/components/WhatsAppChat/WhatsAppChat.tsx:128 | after only round-button presses the window is open after an odd count, and the dot shows after an even count |
| WhatsAppChat.CloseShowsBadge | src/components/WhatsAppChat/WhatsAppChat.tsx:69 | after the close button the dot shows again |

## Left out

- I/O is not modelled. This covers localStorage reads and writes, `window.location` and `window.open`, and DOM overflow and class changes (only their boolean or string value is modelled).
- Rendering, animation, icons and styling are not modelled.
- Time is not modelled: timers, the one-second pause in the sign-in dialog, and the react-query delays.
- Header, the quick-view dialog, the mobile search overlay and category sheet, the floating search button, BNPLDisplay, ThreeDViewer and the other display-only components are left out; they repeat logic covered here or hold none.
- The server, `App.tsx`, the thin pages and the data hooks are wiring only.
- The authentication store's `login`, which the sign-in dialog calls, is not part of this model; the dialog's outcome only names the user it would pass.
- Fuse.js scoring, threshold and key weights are inside the library; search takes its hits as an ordered oracle.
- Floating point is not modelled: prices and scores are exact reals, so IEEE rounding and `toFixed` formatting are out.
- Recommendations.PriceRatio: when both prices are 0 the source divides 0 by 0 (NaN, which then poisons the score); the model gives 0 there.
- Text.ToLower: only ASCII letters are lower-cased; JavaScript's full Unicode case mapping is not modelled.
- Text.CharCodeSum: sums Dafny characters, which equal the source's UTF-16 code units only outside the astral planes; string lengths are counted the same way.
- ProductCard.AddAction: `addToCart(product, 1)` passes a second argument the store ignores; the action carries the product alone.
- Cart.AddToCart: the second argument some callers pass to `addToCart` is ignored by the store and is not modelled.
- MiniCart.PlusLine: a negative stored quantity is outside the corrected control's promise beyond "the line is removed", as the store treats any quantity of zero or less.
- FilterPanel.Apply: the panel's own render reads `filters.priceRange[1]` and `filters.categories.includes` (src/components/FilterPanel/FilterPanel.tsx:44-151), which throw on the initial empty filter object; render-time reads are not modelled, so panel clicks are reachable in the model but not from the initial store.
- Comparison.SpecKeys: specifications are a list of key and value pairs, so duplicate keys are not excluded and `Object.keys` putting integer-like keys first is not modelled; catalog keys are never integer-like.
- OneClickReorder.Visible: the panel reads the flag from `src/store/authStore`, which is not part of this model; the `useAuthStore` of `src/store/useStore.ts` stands in for it.
- ShoppingCart: the page reads `item.product.price`, `item.product.id` and `item.quantity` from the `{ product, quantity }` shape of src/types/index.ts:39-44, while the store's cart holds flat lines (src/store/useStore.ts:13, :143); as written the page throws on every non-empty cart (SubtotalAsWritten), and the other members model it as evidently intended, reading each store line through PageLine.
- ShoppingCart.Subtotal: promises the corrected sum over page lines; as written the sum throws on any non-empty store cart, as SubtotalAsWritten states.
- ShoppingCart.MinusAction: as written the button reads `item.product.id`, which a store line lacks, and is never rendered because the page throws first; the member is the control of the corrected page.
- ShoppingCart.PlusAction: the same gap as MinusAction; the member is the control of the corrected page.
- ShoppingCart.RemoveAction: the same gap as MinusAction; the member is the control of the corrected page.
- Recommendations.Complementary: the table lookup `complementaryMap[category] || []` finds an inherited function or object for an `Object.prototype` name; Complementary gives no list there, and BundleOutcome models the exception that follows. GetBundleRecommendations and GetRecommendations are the total functions that hold whenever BundleOutcome does not throw, which includes every catalog category.
- WhatsAppChat.Url: `encodeURIComponent` is a parameter, so nothing is stated about the encoded text beyond its place in the link.

## Findings

| source | as written | input that shows it | evidently intended | confidence | as-written member | corrected member |
|---|---|---|---|---|---|---|
| src/hooks/useFilters.ts:22 | reads `filters.categories.length` although the store starts with `filters: {}` (src/store/useStore.ts:115) and every filter panel action replaces the whole object with a single key | the initial store: HomePage's first render throws here; the filter panel's own first render also throws reading `filters.priceRange[1]` (src/components/FilterPanel/FilterPanel.tsx:78), so no panel click is reached | a missing list filter counts as an empty one | not executed | Filters.InitialSlotThrows, FilterPanel.ApplyThenFilterFails | Filters.UseFiltersExact, Filters.LenientOnEmptySlot |
| src/components/ProductDetail/ProductDetail.tsx:87-89 | selects the first tier whose threshold the quantity reaches, and every catalog product's first threshold is 1 | twenty units of any catalog product: the tier at 1 unit is chosen and the discount is 0 | the tier with the highest threshold reached (15 percent at twenty units) | not executed | ProductDetail.TwentyUnitsGetNoDiscount | ProductDetail.LastTier, ProductDetail.LastTierIsBest, ProductDetail.CatalogTierBands |
| src/components/MiniCart/MiniCart.tsx:168-184 | passes the line's undefined colour and size, which the store reads as "any variant" | a cart with a variant-less line and a red variant of the same product: the trash on the first line empties the cart | each control acts on its own line only | not executed | MiniCart.BareLineControlsHitEveryVariant | MiniCart.TrashLine, MiniCart.PlusLine, MiniCart.MinusLine, MiniCart.LineControlsWellFormed |
| src/components/Navigation/BottomNavigation.tsx:98 | `tab.badge && tab.badge > 0 && …` yields the number 0 for an empty cart, which React renders as text | an empty cart: "0" appears under the cart icon | nothing is shown for an empty cart | not executed | BottomNavigation.EmptyCartShowsZero | BottomNavigation.Badge, BottomNavigation.BadgeTracksCart |
| src/components/ProductGrid/ProductCard.tsx:14 | reads `item.product.id` from each wishlist entry, but the store's wishlist holds plain products (src/store/useStore.ts:14) | any product on the wishlist: every card's render throws a TypeError | the heart is filled exactly for a wishlisted product | not executed | ProductCard.InWishlistAsWritten, ProductCard.WishlistedStoreBreaksEveryCard | ProductCard.InWishlist, ProductCard.InWishlistTracksStore |
| src/components/ShoppingCart/ShoppingCart.tsx:8-11 | sums `item.product.price * item.quantity` over the declared `{ product, quantity }` shape, but the store's cart holds flat product lines (src/store/useStore.ts:13) | any product added to the cart, then the cart page opened: reading `item.product.price` throws a TypeError and the page renders nothing | the subtotal of each line's price times its units, as the drawer computes it | not executed | ShoppingCart.SubtotalAsWritten, ShoppingCart.AddedLineBreaksPage | ShoppingCart.PageSubtotalIsDrawerSubtotal, ShoppingCart.ReachablePageMatchesDrawer |
| src/components/Carousel/ProductCarousel.tsx:35-46 | the resize listener changes the visible count, and so `maxIndex`, without clamping `currentIndex` | six products scrolled to index 4 on a phone, then the window widened: maxIndex is 2, "next" stays enabled and scrolls back to 2 | the index is pulled back to the new last full view | not executed | Carousel.ResizeAsWritten, Carousel.ResizeLeavesIndexPastEnd | Carousel.Resize, Carousel.EventsStayInRange |

=== FILE: base.dfy ===
/** Building blocks shared by every part of the storefront model: optional
    values, order-preserving filters, first-occurrence de-duplication (what
    `Array.from(new Set(xs))` computes), sums and `slice(0, n)`. */
module Base {

  /** `undefined`/`null` versus a present value. */
  datatype Option<+T> = None | Some(value: T) {
    /** `x ?? d` */
    function GetOr(default: T): T {
      if Some? then value else default
    }
  }

  /** A list read back from storage: the stored list when one is present and
      readable, else the seeded one. */
  function LoadStored<T>(stored: Option<seq<T>>, seed: seq<T>): (r: seq<T>)
    ensures stored.Some? ==> r == stored.value
    ensures stored.None? ==> r == seed
  {
    stored.GetOr(seed)
  }

  function MaxInt(a: int, b: int): int { if a >= b then a else b }
  function MinInt(a: int, b: int): int { if a <= b then a else b }
  function MaxReal(a: real, b: real): real { if a >= b then a else b }
  function MinReal(a: real, b: real): real { if a <= b then a else b }

  /** JavaScript's `Math.round`: the nearest integer, halves rounded up. */
  function Round(x: real): (r: int)
    ensures x - 0.5 < r as real <= x + 0.5
  {
    (x + 0.5).Floor
  }

  /** `Math.round(x * 100) / 100`: rounding to cents. */
  function RoundCents(x: real): (r: real)
    ensures x - 0.005 < r <= x + 0.005
  {
    Round(x * 100.0) as real / 100.0
  }

  lemma MulNonNegative(a: real, b: real)
    requires a >= 0.0 && b >= 0.0
    ensures a * b >= 0.0
  {
  }

  lemma MulPositive(a: real, b: real)
    requires a > 0.0 && b > 0.0
    ensures a * b > 0.0
  {
  }

  /** `xs.slice(0, n)` for a non-negative `n`. */
  function Take<T>(s: seq<T>, n: nat): (r: seq<T>)
    ensures |r| == MinInt(n, |s|)
    ensures r <= s
  {
    if n < |s| then s[..n] else s
  }

  /** No element occurs twice. */
  predicate Distinct<T(==)>(s: seq<T>) {
    forall i, j :: 0 <= i < j < |s| ==> s[i] != s[j]
  }

  /** No two elements share a key. */
  predicate DistinctBy<T, K(==)>(s: seq<T>, key: T -> K) {
    forall i, j :: 0 <= i < j < |s| ==> key(s[i]) != key(s[j])
  }

  /** `xs.filter(f)`: the elements satisfying `f`, in their original order. */
  function Filter<T(==)>(s: seq<T>, f: T -> bool): (r: seq<T>)
    ensures |r| <= |s|
    ensures forall i :: 0 <= i < |r| ==> r[i] in s && f(r[i])
    ensures forall i :: 0 <= i < |s| && f(s[i]) ==> s[i] in r
  {
    if s == [] then []
    else
      assert s == [s[0]] + s[1..];
      (if f(s[0]) then [s[0]] else []) + Filter(s[1..], f)
  }

  /** Filtering a concatenation filters each part. */
  lemma {:induction false} FilterAppend<T>(a: seq<T>, b: seq<T>, f: T -> bool)
    ensures Filter(a + b, f) == Filter(a, f) + Filter(b, f)
    decreases |a|
  {
    if a == [] {
      assert a + b == b;
    } else {
      assert (a + b)[1..] == a[1..] + b;
      FilterAppend(a[1..], b, f);
    }
  }

  /** Two filters in a row are one filter by the conjunction. */
  lemma {:induction false} FilterFusion<T>(s: seq<T>, f: T -> bool, g: T -> bool, h: T -> bool)
    requires forall x :: h(x) == (f(x) && g(x))
    ensures Filter(Filter(s, f), g) == Filter(s, h)
    decreases |s|
  {
    if s != [] {
      FilterFusion(s[1..], f, g, h);
      FilterAppend(if f(s[0]) then [s[0]] else [], Filter(s[1..], f), g);
    }
  }

  /** A filter every element passes changes nothing. */
  lemma {:induction false} FilterKeepsAll<T>(s: seq<T>, f: T -> bool)
    requires forall x :: x in s ==> f(x)
    ensures Filter(s, f) == s
    decreases |s|
  {
    if s != [] {
      FilterKeepsAll(s[1..], f);
    }
  }

  /** A filter no element passes leaves nothing. */
  lemma {:induction false} FilterDropsAll<T>(s: seq<T>, f: T -> bool)
    requires forall x :: x in s ==> !f(x)
    ensures Filter(s, f) == []
    decreases |s|
  {
    if s != [] {
      FilterDropsAll(s[1..], f);
    }
  }

  /** `xs.filter(f).length` */
  function Count<T(==)>(s: seq<T>, f: T -> bool): nat {
    |Filter(s, f)|
  }

  /** `xs.reduce((acc, x) => acc + f(x), 0)` over reals. */
  function SumReal<T>(s: seq<T>, f: T -> real): real {
    if s == [] then 0.0 else f(s[0]) + SumReal(s[1..], f)
  }

  /** The same fold over integers. */
  function SumInt<T>(s: seq<T>, f: T -> int): int {
    if s == [] then 0 else f(s[0]) + SumInt(s[1..], f)
  }

  lemma {:induction false} SumRealAppend<T>(a: seq<T>, b: seq<T>, f: T -> real)
    ensures SumReal(a + b, f) == SumReal(a, f) + SumReal(b, f)
    decreases |a|
  {
    if a == [] {
      assert a + b == b;
    } else {
      assert (a + b)[1..] == a[1..] + b;
      SumRealAppend(a[1..], b, f);
    }
  }

  lemma {:induction false} SumIntAppend<T>(a: seq<T>, b: seq<T>, f: T -> int)
    ensures SumInt(a + b, f) == SumInt(a, f) + SumInt(b, f)
    decreases |a|
  {
    if a == [] {
      assert a + b == b;
    } else {
      assert (a + b)[1..] == a[1..] + b;
      SumIntAppend(a[1..], b, f);
    }
  }

  /** A sum of non-negative terms is non-negative. */
  lemma {:induction false} SumRealNonNegative<T>(s: seq<T>, f: T -> real)
    requires forall x :: x in s ==> f(x) >= 0.0
    ensures SumReal(s, f) >= 0.0
    decreases |s|
  {
    if s != [] {
      SumRealNonNegative(s[1..], f);
    }
  }

  /** Filtering by two predicates that agree on every element gives the
      same result. */
  lemma {:induction false} FilterCongruent<T>(s: seq<T>, f: T -> bool, g: T -> bool)
    requires forall i :: 0 <= i < |s| ==> f(s[i]) == g(s[i])
    ensures Filter(s, f) == Filter(s, g)
    decreases |s|
  {
    if s != [] {
      FilterCongruent(s[1..], f, g);
    }
  }

  /** Sums of two term functions that agree on every element agree. */
  lemma {:induction false} SumIntPointwise<T>(s: seq<T>, f: T -> int, g: T -> int)
    requires forall i :: 0 <= i < |s| ==> f(s[i]) == g(s[i])
    ensures SumInt(s, f) == SumInt(s, g)
    decreases |s|
  {
    if s != [] {
      SumIntPointwise(s[1..], f, g);
    }
  }

  /** A sum whose terms are all zero is zero. */
  lemma {:induction false} SumIntZero<T>(s: seq<T>, f: T -> int)
    requires forall j :: 0 <= j < |s| ==> f(s[j]) == 0
    ensures SumInt(s, f) == 0
    decreases |s|
  {
    if s != [] {
      SumIntZero(s[1..], f);
    }
  }

  /** A sum with a single non-zero term is that term. */
  lemma {:induction false} SumIntSingle<T>(s: seq<T>, f: T -> int, i: nat)
    requires i < |s|
    requires forall j :: 0 <= j < |s| && j != i ==> f(s[j]) == 0
    ensures SumInt(s, f) == f(s[i])
    decreases |s|
  {
    if i == 0 {
      SumIntZero(s[1..], f);
    } else {
      SumIntSingle(s[1..], f, i - 1);
    }
  }

  /** A sum of terms that are each at least one is at least the length. */
  lemma {:induction false} SumIntAtLeastLength<T>(s: seq<T>, f: T -> int)
    requires forall i :: 0 <= i < |s| ==> f(s[i]) >= 1
    ensures SumInt(s, f) >= |s|
    decreases |s|
  {
    if s != [] {
      SumIntAtLeastLength(s[1..], f);
    }
  }

  /** Position of the first occurrence of `x`. */
  function FirstIndex<T(==)>(s: seq<T>, x: T): (k: nat)
    requires x in s
    ensures k < |s| && s[k] == x
    ensures forall j :: 0 <= j < k ==> s[j] != x
  {
    if s[0] == x then 0 else 1 + FirstIndex(s[1..], x)
  }

  /** Inserting into a JavaScript `Set` in the order of `s` and reading it
      back: the distinct elements of `s` in first-occurrence order. */
  function Dedup<T(==)>(s: seq<T>): (r: seq<T>)
    ensures Distinct(r)
    ensures forall i :: 0 <= i < |r| ==> r[i] in s
    ensures forall i :: 0 <= i < |s| ==> s[i] in r
    ensures |r| <= |s|
    decreases |s|
  {
    if s == [] then []
    else
      var init := s[..|s| - 1];
      var d := Dedup(init);
      assert s == init + [s[|s| - 1]];
      if s[|s| - 1] in d then d else d + [s[|s| - 1]]
  }

  lemma FirstIndexOfPrefix<T>(s: seq<T>, m: nat, x: T)
    requires m <= |s| && x in s[..m]
    ensures FirstIndex(s, x) == FirstIndex(s[..m], x)
  {
    var k := FirstIndex(s[..m], x);
    var k' := FirstIndex(s, x);
    assert s[k] == x;
    assert k' <= k;
    assert s[..m][k'] == s[k'];
  }

  /** The de-duplicated sequence lists its elements in the order of their
      first occurrence in the input. */
  lemma {:induction false} DedupFirstOccurrenceOrder<T>(s: seq<T>)
    ensures forall i, j :: 0 <= i < j < |Dedup(s)| ==>
      FirstIndex(s, Dedup(s)[i]) < FirstIndex(s, Dedup(s)[j])
    decreases |s|
  {
    if s != [] {
      var n := |s| - 1;
      var d := Dedup(s[..n]);
      DedupFirstOccurrenceOrder(s[..n]);
      OrderInPrefix(s, n, d);
      if s[n] in d {
        assert Dedup(s) == d;
      } else {
        assert Dedup(s) == d + [s[n]];
        OrderAfterAppend(s, n, d);
      }
    }
  }

  /** First indices inside a prefix are first indices in the whole. */
  lemma OrderInPrefix<T>(s: seq<T>, n: nat, d: seq<T>)
    requires n <= |s|
    requires forall i :: 0 <= i < |d| ==> d[i] in s[..n]
    requires forall i, j :: 0 <= i < j < |d| ==> FirstIndex(s[..n], d[i]) < FirstIndex(s[..n], d[j])
    ensures forall i :: 0 <= i < |d| ==> FirstIndex(s, d[i]) < n
    ensures forall i, j :: 0 <= i < j < |d| ==> FirstIndex(s, d[i]) < FirstIndex(s, d[j])
  {
    forall i | 0 <= i < |d|
      ensures FirstIndex(s, d[i]) == FirstIndex(s[..n], d[i]) < n
    {
      FirstIndexOfPrefix(s, n, d[i]);
    }
  }

  /** An element first met at the last position goes after every earlier
      one. */
  lemma OrderAfterAppend<T>(s: seq<T>, n: nat, d: seq<T>)
    requires n == |s| - 1 && s[n] !in s[..n]
    requires forall i :: 0 <= i < |d| ==> d[i] in s && FirstIndex(s, d[i]) < n
    requires forall i, j :: 0 <= i < j < |d| ==> FirstIndex(s, d[i]) < FirstIndex(s, d[j])
    ensures forall i, j :: 0 <= i < j < |d + [s[n]]| ==>
      FirstIndex(s, (d + [s[n]])[i]) < FirstIndex(s, (d + [s[n]])[j])
  {
    var r := d + [s[n]];
    assert FirstIndex(s, s[n]) == n;
    forall i, j | 0 <= i < j < |r|
      ensures FirstIndex(s, r[i]) < FirstIndex(s, r[j])
    {
      assert r[i] == d[i];
      if j < |d| {
        assert r[j] == d[j];
      }
    }
  }

  /** Filtering keeps elements in order, so it keeps keys distinct. */
  lemma {:induction false} FilterDistinctBy<T, K>(s: seq<T>, f: T -> bool, key: T -> K)
    requires DistinctBy(s, key)
    ensures DistinctBy(Filter(s, f), key)
    decreases |s|
  {
    if s != [] {
      FilterDistinctBy(s[1..], f, key);
      var rest := Filter(s[1..], f);
      forall i | 0 <= i < |rest|
        ensures key(rest[i]) != key(s[0])
      {
        var j :| 0 <= j < |s[1..]| && s[1..][j] == rest[i];
        assert s[j + 1] == rest[i];
      }
    }
  }

  /** Keys of the filtered elements are keys of the input. */
  lemma FilterKeys<T, K>(s: seq<T>, f: T -> bool, key: T -> K, k: K)
    requires forall i :: 0 <= i < |s| ==> key(s[i]) != k
    ensures forall i :: 0 <= i < |Filter(s, f)| ==> key(Filter(s, f)[i]) != k
  {
  }

  /** Whether `x` passes every predicate of `preds`. */
  predicate AllOf<T>(preds: seq<T -> bool>, x: T) {
    forall i :: 0 <= i < |preds| ==> preds[i](x)
  }

  function AllPred<T>(preds: seq<T -> bool>): T -> bool {
    x => AllOf(preds, x)
  }

  /** Filters applied one after another, in list order. */
  function Pipeline<T(==)>(s: seq<T>, preds: seq<T -> bool>): seq<T>
    decreases |preds|
  {
    if preds == [] then s else Pipeline(Filter(s, preds[0]), preds[1..])
  }

  /** A chain of filters is a single filter by the conjunction, so the order
      of the stages does not matter. */
  lemma {:induction false} PipelineIsConjunction<T>(s: seq<T>, preds: seq<T -> bool>)
    ensures Pipeline(s, preds) == Filter(s, AllPred(preds))
    decreases |preds|
  {
    if preds == [] {
      FilterKeepsAll(s, AllPred(preds));
    } else {
      var rest := preds[1..];
      PipelineIsConjunction(Filter(s, preds[0]), rest);
      forall x
        ensures AllPred(preds)(x) == (preds[0](x) && AllPred(rest)(x))
      {
        if preds[0](x) && AllOf(rest, x) {
          forall i | 0 <= i < |preds|
            ensures preds[i](x)
          {
            if i > 0 {
              assert preds[i] == rest[i - 1];
            }
          }
        }
      }
      FilterFusion(s, preds[0], AllPred(rest), AllPred(preds));
    }
  }

  /** `xs.map(f)` */
  function Map<T, U>(s: seq<T>, f: T -> U): (r: seq<U>)
    ensures |r| == |s|
    ensures forall i :: 0 <= i < |s| ==> r[i] == f(s[i])
  {
    seq(|s|, i requires 0 <= i < |s| => f(s[i]))
  }

  /** `xs.flat()` */
  function Flatten<T>(ss: seq<seq<T>>): seq<T> {
    if ss == [] then [] else ss[0] + Flatten(ss[1..])
  }

  lemma {:induction false} FlattenMember<T>(ss: seq<seq<T>>, x: T)
    ensures x in Flatten(ss) <==> exists i :: 0 <= i < |ss| && x in ss[i]
    decreases |ss|
  {
    if ss != [] {
      FlattenMember(ss[1..], x);
      if exists i :: 0 <= i < |ss[1..]| && x in ss[1..][i] {
        var i :| 0 <= i < |ss[1..]| && x in ss[1..][i];
        assert x in ss[i + 1];
      }
      if exists i :: 0 <= i < |ss| && x in ss[i] {
        var i :| 0 <= i < |ss| && x in ss[i];
        if i > 0 {
          assert x in ss[1..][i - 1];
        }
      }
    }
  }
}

=== FILE: bottom_nav_provider.dfy ===
/** The provider around the mobile navigation
    (`src/components/Navigation/BottomNavProvider.tsx`): the tab it picks
    from the address on every route change, the body scroll lock while an
    overlay is open, and the hook that refuses to run outside it. The
    address (path and hash) is a parameter. */
module BottomNavProvider {
  import opened Base
  import opened Types
  import opened Text
  import Store
  import BottomNavigation

  /** `handleRouteChange`: the tab for an address, or `None` when no branch
      matches and `setActiveTab` is not called. Home wins over everything,
      then categories, then search (also chosen while the search overlay is
      open), then cart, then profile (also for the login page). */
  function RouteTab(path: string, hash: string, searchOpen: bool): (r: Option<Tab>)
    ensures (path == "/" || hash == "#home") ==> r == Some(HomeTab)
    ensures (path != "/" && hash != "#home" && (Contains(path, "/categories") || hash == "#categories"))
      ==> r == Some(CategoriesTab)
    ensures (path != "/" && hash != "#home" && !Contains(path, "/categories") && hash != "#categories" &&
             (Contains(path, "/search") || hash == "#search" || searchOpen)) ==> r == Some(SearchTab)
    ensures (path != "/" && hash != "#home" && !Contains(path, "/categories") && hash != "#categories" &&
             !Contains(path, "/search") && hash != "#search" && !searchOpen &&
             (Contains(path, "/cart") || hash == "#cart")) ==> r == Some(CartTab)
    ensures (path != "/" && hash != "#home" && !Contains(path, "/categories") && hash != "#categories" &&
             !Contains(path, "/search") && hash != "#search" && !searchOpen &&
             !Contains(path, "/cart") && hash != "#cart" &&
             (Contains(path, "/profile") || Contains(path, "/login") || hash == "#profile")) ==> r == Some(ProfileTab)
    ensures r.None? <==>
      (path != "/" && hash != "#home" && !Contains(path, "/categories") && hash != "#categories" &&
       !Contains(path, "/search") && hash != "#search" && !searchOpen &&
       !Contains(path, "/cart") && hash != "#cart" &&
       !Contains(path, "/profile") && !Contains(path, "/login") && hash != "#profile")
  {
    if path == "/" || hash == "#home" then Some(HomeTab)
    else if Contains(path, "/categories") || hash == "#categories" then Some(CategoriesTab)
    else if Contains(path, "/search") || hash == "#search" || searchOpen then Some(SearchTab)
    else if Contains(path, "/cart") || hash == "#cart" then Some(CartTab)
    else if Contains(path, "/profile") || Contains(path, "/login") || hash == "#profile" then Some(ProfileTab)
    else None
  }

  /** The store after a route change: the chosen tab is set, or nothing
      changes. */
  function Route(s: Store.State, path: string, hash: string): (t: Store.State)
    ensures RouteTab(path, hash, s.mobileSearchOpen).Some? ==>
      t == s.(activeTab := RouteTab(path, hash, s.mobileSearchOpen).value)
    ensures RouteTab(path, hash, s.mobileSearchOpen).None? ==> t == s
  {
    var r := RouteTab(path, hash, s.mobileSearchOpen);
    if r.Some? then Store.Step(s, Store.SetActiveTab(r.value)) else s
  }

  /** Handling the same route twice (the effect runs on mount and again on
      every `popstate` or `hashchange`) is the same as handling it once. */
  lemma RouteIdempotent(s: Store.State, path: string, hash: string)
    ensures Route(Route(s, path, hash), path, hash) == Route(s, path, hash)
  {
  }

  /** With no hash, the search overlay closed and no "/login" in the path,
      the provider picks exactly the tab the bar itself picks when it mounts;
      on a login page the provider picks the profile tab where the bar keeps
      the current one. */
  lemma RouteAgreesWithBar(path: string, current: Tab)
    ensures !Contains(path, "/login") ==>
      RouteTab(path, "", false).GetOr(current) == BottomNavigation.SyncFromPath(path, current)
    ensures (Contains(path, "/login") && path != "/" && !Contains(path, "/categories") &&
             !Contains(path, "/search") && !Contains(path, "/cart") && !Contains(path, "/profile")) ==>
      RouteTab(path, "", false) == Some(ProfileTab) && BottomNavigation.SyncFromPath(path, current) == current
  {
  }

  /** Opening the search overlay re-runs the route handler (it depends on
      the overlay flag), which then selects the search tab unless the
      address asks for home or categories. */
  lemma OpeningSearchSelectsSearchTab(s: Store.State, path: string, hash: string)
    requires path != "/" && hash != "#home" && !Contains(path, "/categories") && hash != "#categories"
    ensures var t := Route(Store.Step(s, Store.SetMobileSearchOpen(true)), path, hash);
      t.activeTab == SearchTab && t.mobileSearchOpen
  {
  }

  // ---------------------------------------------------------------------
  // Body scroll lock

  /** `document.body.style.overflow` while the provider is mounted. */
  function Overflow(searchOpen: bool, categoryOpen: bool): (r: string)
    ensures r == "hidden" <==> searchOpen || categoryOpen
    ensures r != "hidden" ==> r == ""
  {
    if searchOpen || categoryOpen then "hidden" else ""
  }

  function BodyOverflow(s: Store.State): string {
    Overflow(s.mobileSearchOpen, s.mobileCategoryOpen)
  }

  /** Opening either overlay locks the page scroll; closing both unlocks it,
      whatever the state before. */
  lemma OverlaysLockScroll(s: Store.State)
    ensures BodyOverflow(Store.Step(s, Store.SetMobileSearchOpen(true))) == "hidden"
    ensures BodyOverflow(Store.Step(s, Store.SetMobileCategoryOpen(true))) == "hidden"
    ensures BodyOverflow(Store.Step(Store.Step(s, Store.SetMobileSearchOpen(false)),
      Store.SetMobileCategoryOpen(false))) == ""
  {
  }

  // ---------------------------------------------------------------------
  // The context hook

  datatype NavContext = NavContext(isBottomNavVisible: bool)

  /** What a hook call gives: the context, or the error it throws. */
  datatype Guarded = Ok(context: NavContext) | Thrown(message: string)

  const OutsideProvider: string := "useBottomNav must be used within a BottomNavProvider"

  /** The value every provider hands down; the bar is always visible. */
  const Provided: NavContext := NavContext(true)

  /** `useBottomNav()`, given the nearest provider's value if any. */
  function UseBottomNav(context: Option<NavContext>): (r: Guarded)
    ensures r.Thrown? <==> context.None?
    ensures r.Thrown? ==> r.message == OutsideProvider
    ensures r.Ok? ==> r.context == context.value
  {
    if context.None? then Thrown(OutsideProvider) else Ok(context.value)
  }

  /** Inside a provider the hook never throws and reports the bar visible. */
  lemma HookInsideProvider()
    ensures UseBottomNav(Some(Provided)) == Ok(NavContext(true))
    ensures UseBottomNav(None).Thrown?
  {
  }
}

=== FILE: bottom_navigation.dfy ===
/** The mobile tab bar (`src/components/Navigation/BottomNavigation.tsx`):
    the tabs, the tab chosen from the page's path when the bar mounts, and
    the unit count on the cart tab. */
module BottomNavigation {
  import opened Base
  import opened Types
  import opened Text
  import MiniCart
  import Store
  import Cart

  datatype NavTab = NavTab(id: Tab, name: string, path: string, badge: Option<int>)

  /** The five tabs; only the cart tab carries a badge value. */
  function Tabs(cartCount: int): (r: seq<NavTab>)
    ensures |r| == 5
    ensures forall i :: 0 <= i < 5 ==> (r[i].badge.Some? <==> r[i].id == CartTab)
    ensures forall i :: 0 <= i < 5 ==> r[i].badge.Some? ==> r[i].badge.value == cartCount
  {
    [NavTab(HomeTab, "Home", "/", None),
     NavTab(CategoriesTab, "Categories", "/categories", None),
     NavTab(SearchTab, "Search", "/search", None),
     NavTab(CartTab, "Cart", "/cart", Some(cartCount)),
     NavTab(ProfileTab, "Profile", "/profile", None)]
  }

  /** Tab ids are distinct and every tab value has its button, so exactly
      one button is marked active. */
  lemma ExactlyOneActive(cartCount: int, active: Tab)
    ensures DistinctBy(Tabs(cartCount), (n: NavTab) => n.id)
    ensures exists i :: 0 <= i < 5 && Tabs(cartCount)[i].id == active
  {
    var tabs := Tabs(cartCount);
    var i := match active
      case HomeTab => 0 case CategoriesTab => 1 case SearchTab => 2 case CartTab => 3 case ProfileTab => 4;
    assert tabs[i].id == active;
  }

  /** `cart.reduce((sum, item) => sum + (item.quantity || 1), 0)`, the
      drawer's count. */
  function CartCount(cart: seq<CartProduct>): int {
    MiniCart.ItemCount(cart)
  }

  /** The tab chosen from the path when the bar mounts: exactly "/" is home,
      then the first of the four section paths the path contains; otherwise
      the tab stays. */
  function SyncFromPath(path: string, current: Tab): (t: Tab)
    ensures path == "/" ==> t == HomeTab
    ensures path != "/" && Contains(path, "/categories") ==> t == CategoriesTab
    ensures (path != "/" && !Contains(path, "/categories") && Contains(path, "/search")) ==> t == SearchTab
    ensures (path != "/" && !Contains(path, "/categories") && !Contains(path, "/search") &&
             Contains(path, "/cart")) ==> t == CartTab
    ensures (path != "/" && !Contains(path, "/categories") && !Contains(path, "/search") &&
             !Contains(path, "/cart") && Contains(path, "/profile")) ==> t == ProfileTab
    ensures (path != "/" && !Contains(path, "/categories") && !Contains(path, "/search") &&
             !Contains(path, "/cart") && !Contains(path, "/profile")) ==> t == current
  {
    if path == "/" then HomeTab
    else if Contains(path, "/categories") then CategoriesTab
    else if Contains(path, "/search") then SearchTab
    else if Contains(path, "/cart") then CartTab
    else if Contains(path, "/profile") then ProfileTab
    else current
  }

  /** A tap sets the active tab to the button's own id and navigates to its
      path. */
  function Click(tab: NavTab): (r: (Store.Action, string))
    ensures r.0 == Store.SetActiveTab(tab.id) && r.1 == tab.path
  {
    (Store.SetActiveTab(tab.id), tab.path)
  }

  lemma NotContained(s: string, t: string)
    requires |s| < |t|
    ensures !Contains(s, t)
  {
  }

  lemma ProfileHasNoOtherSection()
    ensures !Contains("/profile", "/categories") && !Contains("/profile", "/search") && !Contains("/profile", "/cart")
  {
    NotContained("/profile", "/categories");
    forall k | 0 <= k <= |"/profile"|
      ensures !("/search" <= "/profile"[k..]) && !("/cart" <= "/profile"[k..])
    {
      if k <= 3 {
        assert "/profile"[k..][0] != '/' || "/profile"[k..][1] == 'p';
      }
    }
  }

  /** Each tab's own path selects that tab. */
  lemma SyncOfTabPaths(current: Tab)
    ensures SyncFromPath("/", current) == HomeTab
    ensures SyncFromPath("/categories", current) == CategoriesTab
    ensures SyncFromPath("/search", current) == SearchTab
    ensures SyncFromPath("/cart", current) == CartTab
    ensures SyncFromPath("/profile", current) == ProfileTab
  {
    ContainsTrivial("/categories");
    ContainsTrivial("/search");
    ContainsTrivial("/cart");
    ContainsTrivial("/profile");
    NotContained("/search", "/categories");
    NotContained("/cart", "/categories");
    NotContained("/cart", "/search");
    ProfileHasNoOtherSection();
  }

  /** After a tap reloads the page at the tab's path, the bar picks the same
      tab again, whatever was active before. */
  lemma ClickThenSyncAgrees(cartCount: int, i: nat, current: Tab)
    requires i < 5
    ensures SyncFromPath(Click(Tabs(cartCount)[i]).1, current) == Tabs(cartCount)[i].id
  {
    SyncOfTabPaths(current);
    var tab := Tabs(cartCount)[i];
    assert Click(tab).1 == tab.path;
    if i == 0 {
      assert tab.path == "/" && tab.id == HomeTab;
    } else if i == 1 {
      assert tab.path == "/categories" && tab.id == CategoriesTab;
    } else if i == 2 {
      assert tab.path == "/search" && tab.id == SearchTab;
    } else if i == 3 {
      assert tab.path == "/cart" && tab.id == CartTab;
    } else {
      assert tab.path == "/profile" && tab.id == ProfileTab;
    }
  }

  // ---------------------------------------------------------------------
  // The cart badge

  /** What React draws for a `{...}` child: nothing, a bare text node, or
      the badge. */
  datatype Child = Nothing | TextNode(text: string) | BadgeNode(count: int)

  /** `{tab.badge && tab.badge > 0 && <span>{tab.badge}</span>}`, as
      written. `&&` yields its first falsy operand, and React prints the
      number 0 but not `undefined` or `false`. */
  function BadgeAsWritten(badge: Option<int>): (c: Child)
    ensures badge.None? ==> c == Nothing
    ensures badge == Some(0) ==> c == TextNode("0")
    ensures badge.Some? && badge.value > 0 ==> c == BadgeNode(badge.value)
    ensures badge.Some? && badge.value < 0 ==> c == Nothing
  {
    if badge.None? then Nothing
    else if badge.value == 0 then TextNode("0")
    else if badge.value > 0 then BadgeNode(badge.value)
    else Nothing
  }

  /** With an empty cart the cart tab shows a stray "0" next to its icon. */
  lemma EmptyCartShowsZero()
    ensures BadgeAsWritten(Tabs(CartCount([]))[3].badge) == TextNode("0")
  {
    assert CartCount([]) == 0;
  }

  /** The badge as intended: shown with the count exactly when the count is
      positive, and nothing otherwise. */
  function Badge(badge: Option<int>): (c: Child)
    ensures c.BadgeNode? <==> badge.Some? && badge.value > 0
    ensures c.BadgeNode? ==> c.count == badge.value
    ensures !c.BadgeNode? ==> c == Nothing
  {
    if badge.Some? && badge.value > 0 then BadgeNode(badge.value) else Nothing
  }

  /** On a cart that keeps the store's invariant, the intended badge shows
      exactly when the cart has lines, and then shows its unit count. */
  lemma BadgeTracksCart(cart: seq<CartProduct>)
    requires Cart.WellFormed(cart)
    ensures Badge(Tabs(CartCount(cart))[3].badge).BadgeNode? <==> |cart| > 0
    ensures |cart| > 0 ==> Badge(Tabs(CartCount(cart))[3].badge) == BadgeNode(Cart.TotalUnits(cart))
  {
    MiniCart.ItemCountOfWellFormed(cart);
  }
}

=== FILE: breadcrumbs.dfy ===
/** The trail above a product (`src/components/Breadcrumbs/Breadcrumbs.tsx`):
    a home link, then one crumb per item, linked when the item has a
    non-empty target; the product page passes category, subcategory and
    product name. */
module Breadcrumbs {
  import opened Base
  import opened Text

  datatype Item = Item(text: string, href: Option<string>)

  /** What each position of the trail renders. */
  datatype Crumb = HomeLink | LinkCrumb(to: string, text: string) | PlainCrumb(text: string)

  /** `item.href ? <Link …> : <span …>`: an empty target is falsy. */
  function RenderItem(item: Item): (c: Crumb)
    ensures c.LinkCrumb? <==> item.href.Some? && item.href.value != ""
    ensures c.LinkCrumb? ==> c.to == item.href.value
    ensures !c.HomeLink? && c.text == item.text
  {
    if item.href.Some? && item.href.value != "" then LinkCrumb(item.href.value, item.text)
    else PlainCrumb(item.text)
  }

  /** `Breadcrumbs({ items })`: the home link comes first, then each item in
      order. */
  function Render(items: seq<Item>): (r: seq<Crumb>)
    ensures |r| == |items| + 1 && r[0] == HomeLink
    ensures forall i :: 0 <= i < |items| ==> r[i + 1] == RenderItem(items[i])
    ensures forall i :: 1 <= i < |r| ==> !r[i].HomeLink?
  {
    [HomeLink] + Map(items, RenderItem)
  }

  const CategoryRoot: string := "/category/"

  /** `ProductBreadcrumbs({ product })`: category and subcategory with their
      lower-cased paths, no URL encoding, and the product name unlinked. */
  function ProductItems(category: string, subcategory: string, name: string): (r: seq<Item>)
    ensures |r| == 3
    ensures r[0].text == category && r[1].text == subcategory && r[2].text == name
    ensures r[0].href == Some(CategoryRoot + ToLower(category))
    ensures r[1].href == Some(r[0].href.value + "/" + ToLower(subcategory))
    ensures r[2].href.None?
  {
    [Item(category, Some(CategoryRoot + ToLower(category))),
     Item(subcategory, Some(CategoryRoot + ToLower(category) + "/" + ToLower(subcategory))),
     Item(name, None)]
  }

  /** A product's trail is home, two links, and the product name as plain
      text; the subcategory link extends the category link by one path
      segment. */
  lemma ProductTrail(category: string, subcategory: string, name: string)
    ensures var r := Render(ProductItems(category, subcategory, name));
      |r| == 4 && r[0] == HomeLink &&
      r[1] == LinkCrumb(CategoryRoot + ToLower(category), category) &&
      r[2].LinkCrumb? && r[2].text == subcategory &&
      r[2].to == r[1].to + "/" + ToLower(subcategory) && CategoryRoot <= r[2].to &&
      r[3] == PlainCrumb(name)
  {
    var r := Render(ProductItems(category, subcategory, name));
    assert r[2].to == CategoryRoot + (ToLower(category) + "/" + ToLower(subcategory));
  }

  /** Targets depend on the names only up to letter case: names that agree
      once lower-cased link to the same pages. */
  lemma TargetsIgnoreCase(category: string, subcategory: string, name: string,
                          category2: string, subcategory2: string, name2: string)
    requires ToLower(category) == ToLower(category2) && ToLower(subcategory) == ToLower(subcategory2)
    ensures var a := ProductItems(category, subcategory, name);
      var b := ProductItems(category2, subcategory2, name2);
      forall i :: 0 <= i < 3 ==> a[i].href == b[i].href
  {
  }

  /** Already lower-case names produce the same targets as their upper-case
      spellings. */
  lemma LowerNamesSameTargets(category: string, subcategory: string, name: string)
    ensures var a := ProductItems(category, subcategory, name);
      var b := ProductItems(ToLower(category), ToLower(subcategory), name);
      a[0].href == b[0].href && a[1].href == b[1].href
  {
    ToLowerIdempotent(category);
    ToLowerIdempotent(subcategory);
  }
}

=== FILE: bulk_quote.dfy ===
/** The bulk-quote dialog (`src/components/BulkQuote/BulkQuoteModal.tsx`):
    its quantity field, the checks on submit and the request it sends. */
module BulkQuote {
  import opened Base
  import opened Types
  import opened Text
  import ProductDetail

  const DefaultQuantity: int := 10

  datatype Form = Form(quantity: int, email: string, company: string, message: string)

  /** The dialog as it mounts: the given quantity, or 10, and empty fields;
      a later change of the quantity prop does not reach the form. */
  function Initial(initialQuantity: Option<int>): (f: Form)
    ensures f.quantity == initialQuantity.GetOr(DefaultQuantity)
    ensures f.email == "" && f.company == "" && f.message == ""
  {
    Form(initialQuantity.GetOr(DefaultQuantity), "", "", "")
  }

  /** Typing in the quantity field: `Math.max(1, parseInt(value) || 1)`,
      the same rule as the product page's quantity box. */
  function TypeQuantity(f: Form, parsed: Option<int>): (r: Form)
    ensures r.quantity >= 1 && r == f.(quantity := r.quantity)
    ensures parsed.Some? && parsed.value >= 1 ==> r.quantity == parsed.value
  {
    f.(quantity := ProductDetail.ParseQuantity(parsed))
  }

  /** `s.trim() || undefined` */
  function OptionalText(s: string): (r: Option<string>)
    ensures r.None? <==> IsBlank(s)
    ensures r.Some? ==> r.value == Trim(s) && r.value != []
  {
    if IsBlank(s) then None else Some(Trim(s))
  }

  predicate Valid(f: Form) { '@' in f.email && f.quantity >= 1 }

  /** What one click on "Send request" does: the form afterwards, the
      request handed to `onSubmit` (when one is given), and whether `onClose`
      ran. */
  datatype Outcome = Outcome(form: Form, request: Option<BulkQuoteRequest>, closed: bool)

  /** `handleSubmit` */
  function Submit(f: Form, productId: string, hasCallback: bool): (o: Outcome)
    ensures !Valid(f) ==> o == Outcome(f, None, false)
    ensures Valid(f) ==> o.closed && o.form == Form(f.quantity, "", "", "")
    ensures o.request.Some? <==> Valid(f) && hasCallback
    ensures o.request.Some? ==>
      o.request.value == BulkQuoteRequest(productId, f.quantity, f.email, OptionalText(f.company), OptionalText(f.message))
  {
    if !Valid(f) then Outcome(f, None, false)
    else
      var request := BulkQuoteRequest(productId, f.quantity, f.email, OptionalText(f.company), OptionalText(f.message));
      Outcome(Form(f.quantity, "", "", ""), if hasCallback then Some(request) else None, true)
  }

  /** Every request sent has a quantity of at least one and an email with
      an '@', and its optional texts are trimmed and non-blank. */
  lemma SentRequestsAreValid(f: Form, productId: string)
    ensures var o := Submit(f, productId, true);
      o.request.Some? ==>
        o.request.value.quantity >= 1 && '@' in o.request.value.email &&
        (o.request.value.company.Some? ==> !IsBlank(f.company)) &&
        (o.request.value.message.Some? ==> !IsBlank(f.message))
  {
  }

  /** After a request is sent the email is cleared, so clicking again sends
      nothing until a new address is typed; the quantity stays. */
  lemma NoDoubleSend(f: Form, productId: string, hasCallback: bool)
    requires Valid(f)
    ensures Submit(f, productId, hasCallback).form.quantity == f.quantity
    ensures Submit(Submit(f, productId, hasCallback).form, productId, hasCallback).request.None?
  {
  }
}

=== FILE: bundle.dfy ===
/** The "Frequently bought together" box
    (`src/components/FrequentlyBoughtTogether/FrequentlyBoughtTogether.tsx`):
    the main product followed by its companions, cut to three, their total
    price, and the button that adds them all. */
module FrequentlyBoughtTogether {
  import opened Base
  import opened Types
  import Cart
  import Store

  const BundleSize: nat := 3

  /** `[mainProduct, ...products].slice(0, 3)` */
  function Items(main: Product, products: seq<Product>): (r: seq<Product>)
    ensures 1 <= |r| <= BundleSize
    ensures r[0] == main
    ensures r[1..] == Take(products, BundleSize - 1)
  {
    var all := [main] + products;
    assert all[1..] == products;
    Take(all, BundleSize)
  }

  function Price(p: Product): real { p.price }

  /** `items.reduce((sum, p) => sum + p.price, 0)` */
  function Total(items: seq<Product>): real {
    SumReal(items, Price)
  }

  /** The bundle costs the main product plus its first two companions. */
  lemma TotalOfBundle(main: Product, products: seq<Product>)
    ensures Total(Items(main, products)) == main.price + Total(Take(products, BundleSize - 1))
  {
    var items := Items(main, products);
    assert items == [main] + items[1..];
  }

  /** The product page hands over at most two companions, which the box
      shows unchanged. */
  lemma PageCompanionsAllShown(main: Product, companions: seq<Product>)
    ensures Items(main, Take(companions, 2)) == [main] + Take(companions, 2)
  {
  }

  /** `addToCart(p)` with a plain product: no quantity, no variant. */
  function AsLine(p: Product): (c: CartProduct)
    ensures c.product == p && Cart.Incoming(c) == 1
    ensures Cart.Key(c) == Cart.LineKey(p.id, None, None)
  {
    CartProduct(p, None, None, None)
  }

  /** `items.forEach(p => addToCart(p))` */
  function AddAll(items: seq<Product>): (r: seq<Store.Action>)
    ensures |r| == |items|
    ensures forall i :: 0 <= i < |items| ==> r[i] == Store.AddToCart(AsLine(items[i]))
  {
    Store.AddActions(Map(items, AsLine))
  }

  lemma {:induction false} OneUnitEach(items: seq<Product>)
    ensures SumInt(Map(items, AsLine), Cart.Incoming) == |items|
    decreases |items|
  {
    if items != [] {
      assert Map(items, AsLine)[1..] == Map(items[1..], AsLine);
      OneUnitEach(items[1..]);
    }
  }

  /** "Add all to cart" adds one unit per shown item, keeps the cart
      invariant, and changes nothing but the cart. */
  lemma AddAllAddsOneUnitEach(s: Store.State, main: Product, products: seq<Product>)
    requires Cart.WellFormed(s.cart)
    ensures var t := Store.Run(s, AddAll(Items(main, products)));
      Cart.WellFormed(t.cart) &&
      Cart.TotalUnits(t.cart) == Cart.TotalUnits(s.cart) + |Items(main, products)| &&
      t.(cart := s.cart) == s
  {
    var lines := Map(Items(main, products), AsLine);
    Store.RunAddActions(s, lines);
    Cart.AddEachUnits(s.cart, lines, Cart.LineKey(main.id, None, None));
    OneUnitEach(Items(main, products));
  }
}

=== FILE: carousel.dfy ===
/** The horizontal product strip (`src/components/Carousel/ProductCarousel.tsx`):
    the scroll index and its arrows, and the heart button that toggles the
    wishlist. */
module Carousel {
  import opened Base
  import opened Types
  import Lists
  import Store

  const MobileItems: int := 2
  const DefaultItemsPerView: int := 4

  /** `isMobile ? 2 : itemsPerView` */
  function VisibleItems(isMobile: bool, itemsPerView: int): (v: int)
    ensures isMobile ==> v == MobileItems
    ensures !isMobile ==> v == itemsPerView
  {
    if isMobile then MobileItems else itemsPerView
  }

  /** `Math.max(0, products.length - visibleItems)`: the last index from
      which a full view still fits. */
  function MaxIndex(n: nat, visible: int): (m: nat)
    ensures m == 0 <==> n <= visible
    ensures m > 0 ==> m + visible == n
  {
    if n - visible > 0 then n - visible else 0
  }

  /** `setCurrentIndex(prev => Math.min(prev + 1, maxIndex))` */
  function Next(i: int, maxIndex: nat): (r: int)
    ensures r <= maxIndex
    ensures i < maxIndex ==> r == i + 1
    ensures i >= maxIndex ==> r == maxIndex
  {
    MinInt(i + 1, maxIndex)
  }

  /** `setCurrentIndex(prev => Math.max(prev - 1, 0))` */
  function Prev(i: int): (r: int)
    ensures r >= 0
    ensures i > 0 ==> r == i - 1
    ensures i <= 0 ==> r == 0
  {
    MaxInt(i - 1, 0)
  }

  /** Arrows appear only when the products overflow the view. */
  predicate ShowArrows(n: nat, visible: int) { n > visible }

  predicate PrevDisabled(i: int) { i == 0 }

  predicate NextDisabled(i: int, maxIndex: nat) { i == maxIndex }

  /** While the arrows are shown, an enabled arrow moves one step and a
      disabled one would leave the index where it is; '>' then '<' comes
      back. */
  lemma ArrowsStep(n: nat, visible: int, i: int)
    requires ShowArrows(n, visible) && 0 <= i <= MaxIndex(n, visible)
    ensures MaxIndex(n, visible) > 0
    ensures !NextDisabled(i, MaxIndex(n, visible)) <==> Next(i, MaxIndex(n, visible)) == i + 1
    ensures NextDisabled(i, MaxIndex(n, visible)) <==> Next(i, MaxIndex(n, visible)) == i
    ensures !PrevDisabled(i) <==> Prev(i) == i - 1
    ensures PrevDisabled(i) <==> Prev(i) == i
    ensures !NextDisabled(i, MaxIndex(n, visible)) ==> Prev(Next(i, MaxIndex(n, visible))) == i
  {
  }

  datatype Click = NextClick | PrevClick

  function Apply(i: int, maxIndex: nat, c: Click): int {
    match c
    case NextClick => Next(i, maxIndex)
    case PrevClick => Prev(i)
  }

  /** The index after a sequence of arrow clicks. */
  function ApplyAll(i: int, maxIndex: nat, clicks: seq<Click>): int
    decreases |clicks|
  {
    if clicks == [] then i else ApplyAll(Apply(i, maxIndex, clicks[0]), maxIndex, clicks[1..])
  }

  /** With the product count and the visible count fixed, no sequence of
      clicks moves an index in range outside [0, maxIndex]. A resize can
      still leave the index out of range (see `ResizeLeavesIndexPastEnd`). */
  lemma {:induction false} ClicksStayInRange(i: int, maxIndex: nat, clicks: seq<Click>)
    requires 0 <= i <= maxIndex
    ensures 0 <= ApplyAll(i, maxIndex, clicks) <= maxIndex
    decreases |clicks|
  {
    if clicks != [] {
      ClicksStayInRange(Apply(i, maxIndex, clicks[0]), maxIndex, clicks[1..]);
    }
  }

  // ---------------------------------------------------------------------
  // Resizing

  /** The strip's state: the scroll index and the mobile flag that the
      resize listener keeps. */
  datatype View = View(index: int, isMobile: bool)

  function ViewMax(n: nat, itemsPerView: int, v: View): nat {
    MaxIndex(n, VisibleItems(v.isMobile, itemsPerView))
  }

  /** The resize listener as written: it sets `isMobile` and leaves
      `currentIndex` alone. */
  function ResizeAsWritten(v: View, width: int): (r: View)
    ensures r.index == v.index
    ensures r.isMobile <==> width < 768
  {
    v.(isMobile := width < 768)
  }

  /** Six products scrolled to the last view on a phone (index 4 of 4), then
      the window widens to four per view: `maxIndex` drops to 2, the index
      stays 4, the "next" arrow is enabled, and clicking it scrolls back. */
  lemma ResizeLeavesIndexPastEnd()
    ensures var v := View(4, true);
      0 <= v.index <= ViewMax(6, DefaultItemsPerView, v) &&
      var w := ResizeAsWritten(v, 1024);
      w.index > ViewMax(6, DefaultItemsPerView, w) &&
      !NextDisabled(w.index, ViewMax(6, DefaultItemsPerView, w)) &&
      Next(w.index, ViewMax(6, DefaultItemsPerView, w)) < w.index
  {
    assert ViewMax(6, DefaultItemsPerView, View(4, true)) == 4;
    assert ViewMax(6, DefaultItemsPerView, View(4, false)) == 2;
  }

  /** A resize that also pulls the index back to the new last full view. */
  function Resize(v: View, width: int, n: nat, itemsPerView: int): (r: View)
    ensures r.isMobile <==> width < 768
    ensures v.index >= 0 ==> 0 <= r.index <= ViewMax(n, itemsPerView, r)
    ensures r.index <= v.index
    ensures v.index <= ViewMax(n, itemsPerView, r) ==> r.index == v.index
  {
    var m := MaxIndex(n, VisibleItems(width < 768, itemsPerView));
    View(MinInt(v.index, m), width < 768)
  }

  datatype StripEvent = Resized(width: int) | Clicked(click: Click)

  function Event(v: View, e: StripEvent, n: nat, itemsPerView: int): View {
    match e
    case Resized(width) => Resize(v, width, n, itemsPerView)
    case Clicked(c) => v.(index := Apply(v.index, ViewMax(n, itemsPerView, v), c))
  }

  /** The strip after a sequence of resizes and clicks. */
  function Events(v: View, es: seq<StripEvent>, n: nat, itemsPerView: int): View
    decreases |es|
  {
    if es == [] then v else Events(Event(v, es[0], n, itemsPerView), es[1..], n, itemsPerView)
  }

  /** With clamping resizes, any mix of resizes and clicks keeps the index
      in [0, maxIndex] for the current width, so `ArrowsStep` holds at
      every point. */
  lemma {:induction false} EventsStayInRange(v: View, es: seq<StripEvent>, n: nat, itemsPerView: int)
    requires 0 <= v.index <= ViewMax(n, itemsPerView, v)
    ensures var w := Events(v, es, n, itemsPerView);
      0 <= w.index <= ViewMax(n, itemsPerView, w)
    decreases |es|
  {
    if es != [] {
      var u := Event(v, es[0], n, itemsPerView);
      if es[0].Clicked? {
        ClicksStayInRange(v.index, ViewMax(n, itemsPerView, v), [es[0].click]);
      }
      EventsStayInRange(u, es[1..], n, itemsPerView);
    }
  }

  /** `products.length === 0` renders nothing. */
  predicate Renders(products: seq<Product>) { |products| > 0 }

  /** The heart button: remove when the id is in the wishlist, add otherwise. */
  function ToggleWishlist(wishlist: seq<Product>, p: Product): (a: Store.Action)
    ensures Lists.HasKey(wishlist, ProductId, p.id) ==> a == Store.RemoveFromWishlist(p.id)
    ensures !Lists.HasKey(wishlist, ProductId, p.id) ==> a == Store.AddToWishlist(p)
  {
    if Lists.HasKey(wishlist, ProductId, p.id) then Store.RemoveFromWishlist(p.id)
    else Store.AddToWishlist(p)
  }

  function Toggle(s: Store.State, p: Product): Store.State {
    Store.Step(s, ToggleWishlist(s.wishlist, p))
  }

  /** One toggle flips whether the product is wishlisted; two restore it,
      and from "not wishlisted" two toggles restore the whole list. */
  lemma ToggleTwice(s: Store.State, p: Product)
    ensures Lists.HasKey(Toggle(s, p).wishlist, ProductId, p.id) <==> !Lists.HasKey(s.wishlist, ProductId, p.id)
    ensures Lists.HasKey(Toggle(Toggle(s, p), p).wishlist, ProductId, p.id) <==> Lists.HasKey(s.wishlist, ProductId, p.id)
    ensures !Lists.HasKey(s.wishlist, ProductId, p.id) ==> Toggle(Toggle(s, p), p) == s
  {
    if !Lists.HasKey(s.wishlist, ProductId, p.id) {
      Lists.RemoveKeyUndoesAppend(s.wishlist, p, ProductId);
    }
  }
}

=== FILE: cart.dfy ===
/** The cart operations of the client store (`src/store/useStore.ts`).
    A cart line is identified by its product id together with the chosen
    colour and size; `addToCart` merges into the line with the same
    identity, while `removeFromCart` and `updateCartQuantity` read an
    omitted colour or size as "any". */
module Cart {
  import opened Base
  import opened Types

  /** What identifies a cart line: (id, selectedColor, selectedSize), where
      `None` is `undefined` and compares equal only to `undefined`. */
  datatype LineKey = LineKey(id: string, color: Option<string>, size: Option<string>)

  function Key(c: CartProduct): LineKey {
    LineKey(c.id(), c.selectedColor, c.selectedSize)
  }

  /** `Math.max(1, product.quantity ?? 1)`: the units an add contributes. */
  function Incoming(p: CartProduct): (q: int)
    ensures q >= 1
    ensures p.quantity.Some? && p.quantity.value >= 1 ==> q == p.quantity.value
    ensures p.quantity.None? ==> q == 1
  {
    MaxInt(1, p.quantity.GetOr(1))
  }

  /** `item.quantity ?? 1` */
  function Units(c: CartProduct): int {
    c.quantity.GetOr(1)
  }

  /** Units over all lines. */
  function TotalUnits(cart: seq<CartProduct>): int {
    SumInt(cart, Units)
  }

  /** The store's cart invariant: line identities are unique and every line
      carries an explicit quantity of at least one. */
  predicate WellFormed(cart: seq<CartProduct>) {
    DistinctBy(cart, Key) &&
    forall i :: 0 <= i < |cart| ==> cart[i].quantity.Some? && cart[i].quantity.value >= 1
  }

  predicate HasLine(cart: seq<CartProduct>, k: LineKey) {
    exists i :: 0 <= i < |cart| && Key(cart[i]) == k
  }

  /** The line `c` after `inc` more units were merged into it, if it is the
      line `k`. */
  function Bump(c: CartProduct, k: LineKey, inc: int): CartProduct {
    if Key(c) == k then c.(quantity := Some(Units(c) + inc)) else c
  }

  /** `cart.map(item => sameLine ? { ...item, quantity: (item.quantity ?? 1) + inc } : item)` */
  function BumpLines(cart: seq<CartProduct>, k: LineKey, inc: int): (r: seq<CartProduct>)
    ensures |r| == |cart|
    ensures forall i :: 0 <= i < |cart| ==> r[i] == Bump(cart[i], k, inc)
  {
    if cart == [] then [] else [Bump(cart[0], k, inc)] + BumpLines(cart[1..], k, inc)
  }

  /** `addToCart(product)` */
  function AddToCart(cart: seq<CartProduct>, p: CartProduct): (r: seq<CartProduct>)
    // a line with the same identity absorbs the incoming units ...
    ensures HasLine(cart, Key(p)) ==>
      |r| == |cart| &&
      forall i :: 0 <= i < |cart| ==>
        Key(r[i]) == Key(cart[i]) && r[i].product == cart[i].product &&
        (Key(cart[i]) == Key(p) ==> r[i].quantity == Some(Units(cart[i]) + Incoming(p))) &&
        (Key(cart[i]) != Key(p) ==> r[i] == cart[i])
    // ... otherwise exactly one new line is appended after the unchanged cart
    ensures !HasLine(cart, Key(p)) ==>
      |r| == |cart| + 1 && r[..|cart|] == cart &&
      r[|cart|].product == p.product && Key(r[|cart|]) == Key(p) &&
      r[|cart|].quantity == Some(Incoming(p))
  {
    if HasLine(cart, Key(p)) then BumpLines(cart, Key(p), Incoming(p))
    else cart + [p.(quantity := Some(Incoming(p)))]
  }

  /** Whether `item` is selected by `(productId, selectedColor, selectedSize)`
      where an omitted colour or size matches any. */
  predicate Matches(c: CartProduct, id: string, color: Option<string>, size: Option<string>) {
    c.id() == id &&
    (color.None? || c.selectedColor == color) &&
    (size.None? || c.selectedSize == size)
  }

  function Unmatched(id: string, color: Option<string>, size: Option<string>): CartProduct -> bool {
    c => !Matches(c, id, color, size)
  }

  /** `removeFromCart(productId, selectedColor?, selectedSize?)` */
  function RemoveFromCart(cart: seq<CartProduct>, id: string, color: Option<string>, size: Option<string>)
    : (r: seq<CartProduct>)
    ensures forall i :: 0 <= i < |r| ==> !Matches(r[i], id, color, size) && r[i] in cart
    ensures forall i :: 0 <= i < |cart| && !Matches(cart[i], id, color, size) ==> cart[i] in r
    ensures |r| <= |cart|
  {
    Filter(cart, Unmatched(id, color, size))
  }

  /** Removal keeps the surviving lines in their order: it works piece by
      piece over a split cart, and a single line either stays or goes. */
  lemma RemoveFromCartKeepsOrder(a: seq<CartProduct>, b: seq<CartProduct>, c: CartProduct,
                                 id: string, color: Option<string>, size: Option<string>)
    ensures RemoveFromCart(a + b, id, color, size) == RemoveFromCart(a, id, color, size) + RemoveFromCart(b, id, color, size)
    ensures RemoveFromCart([c], id, color, size) == if Matches(c, id, color, size) then [] else [c]
  {
    FilterAppend(a, b, Unmatched(id, color, size));
    assert [c][1..] == [];
  }

  /** The line `c` after a quantity overwrite, if the selector picks it. */
  function SetQuantity(c: CartProduct, id: string, color: Option<string>, size: Option<string>, q: int)
    : CartProduct
  {
    if Matches(c, id, color, size) then c.(quantity := Some(q)) else c
  }

  function SetLines(cart: seq<CartProduct>, id: string, color: Option<string>, size: Option<string>, q: int)
    : (r: seq<CartProduct>)
    ensures |r| == |cart|
    ensures forall i :: 0 <= i < |cart| ==> r[i] == SetQuantity(cart[i], id, color, size, q)
  {
    if cart == [] then []
    else [SetQuantity(cart[0], id, color, size, q)] + SetLines(cart[1..], id, color, size, q)
  }

  /** `updateCartQuantity(productId, quantity, selectedColor?, selectedSize?)` */
  function UpdateCartQuantity(cart: seq<CartProduct>, id: string, q: int, color: Option<string>, size: Option<string>)
    : (r: seq<CartProduct>)
    // a non-positive quantity is a removal with the same selector
    ensures q <= 0 ==> r == RemoveFromCart(cart, id, color, size)
    // a positive one overwrites exactly the selected lines and nothing else
    ensures q > 0 ==>
      |r| == |cart| &&
      forall i :: 0 <= i < |cart| ==>
        Key(r[i]) == Key(cart[i]) && r[i].product == cart[i].product &&
        (Matches(cart[i], id, color, size) ==> r[i].quantity == Some(q)) &&
        (!Matches(cart[i], id, color, size) ==> r[i] == cart[i])
  {
    if q <= 0 then RemoveFromCart(cart, id, color, size)
    else SetLines(cart, id, color, size, q)
  }

  /** The line identity exactly: what a per-line control means to act on. */
  function WithoutLine(k: LineKey): CartProduct -> bool {
    c => Key(c) != k
  }

  /** Removes exactly the line `k`. */
  function RemoveLine(cart: seq<CartProduct>, k: LineKey): (r: seq<CartProduct>)
    ensures forall i :: 0 <= i < |r| ==> Key(r[i]) != k && r[i] in cart
    ensures forall i :: 0 <= i < |cart| && Key(cart[i]) != k ==> cart[i] in r
  {
    Filter(cart, WithoutLine(k))
  }

  /** The line `c` with quantity `q`, if it is the line `k`. */
  function SetExact(c: CartProduct, k: LineKey, q: int): CartProduct {
    if Key(c) == k then c.(quantity := Some(q)) else c
  }

  /** Sets the quantity of exactly the line `k`; a non-positive quantity
      removes that line. */
  function SetLineQuantity(cart: seq<CartProduct>, k: LineKey, q: int): (r: seq<CartProduct>)
    ensures q <= 0 ==> r == RemoveLine(cart, k)
    ensures q > 0 ==>
      |r| == |cart| &&
      forall i :: 0 <= i < |cart| ==>
        Key(r[i]) == Key(cart[i]) && r[i].product == cart[i].product &&
        (Key(cart[i]) == k ==> r[i].quantity == Some(q)) &&
        (Key(cart[i]) != k ==> r[i] == cart[i])
  {
    if q <= 0 then RemoveLine(cart, k)
    else seq(|cart|, i requires 0 <= i < |cart| => SetExact(cart[i], k, q))
  }

  // ---------------------------------------------------------------------
  // Properties

  lemma HasLineCons(cart: seq<CartProduct>, k: LineKey)
    requires cart != []
    ensures HasLine(cart, k) <==> Key(cart[0]) == k || HasLine(cart[1..], k)
  {
    if HasLine(cart[1..], k) {
      var i :| 0 <= i < |cart[1..]| && Key(cart[1..][i]) == k;
      assert Key(cart[i + 1]) == k;
    }
    if HasLine(cart, k) && Key(cart[0]) != k {
      var i :| 0 <= i < |cart| && Key(cart[i]) == k;
      assert Key(cart[1..][i - 1]) == k;
    }
  }

  /** Merging into a cart with unique line identities adds the incoming
      units once, or not at all when the line is absent. */
  lemma {:induction false} BumpLinesUnits(cart: seq<CartProduct>, k: LineKey, inc: int)
    requires DistinctBy(cart, Key)
    ensures TotalUnits(BumpLines(cart, k, inc)) == TotalUnits(cart) + (if HasLine(cart, k) then inc else 0)
    decreases |cart|
  {
    if cart != [] {
      BumpLinesUnits(cart[1..], k, inc);
      HasLineCons(cart, k);
      assert BumpLines(cart, k, inc)[1..] == BumpLines(cart[1..], k, inc);
      if Key(cart[0]) == k {
        assert !HasLine(cart[1..], k) by {
          forall i | 0 <= i < |cart[1..]|
            ensures Key(cart[1..][i]) != k
          {
            assert cart[1..][i] == cart[i + 1];
          }
        }
      }
    }
  }

  /** `addToCart` grows the cart's unit count by exactly the incoming units. */
  lemma AddToCartUnits(cart: seq<CartProduct>, p: CartProduct)
    requires WellFormed(cart)
    ensures TotalUnits(AddToCart(cart, p)) == TotalUnits(cart) + Incoming(p)
  {
    if HasLine(cart, Key(p)) {
      BumpLinesUnits(cart, Key(p), Incoming(p));
    } else {
      SumIntAppend(cart, [p.(quantity := Some(Incoming(p)))], Units);
    }
  }

  /** Adding the same product twice leaves one line, not two. */
  lemma AddToCartTwiceMerges(cart: seq<CartProduct>, p: CartProduct)
    ensures HasLine(AddToCart(cart, p), Key(p))
    ensures |AddToCart(AddToCart(cart, p), p)| == |AddToCart(cart, p)|
  {
    var once := AddToCart(cart, p);
    if HasLine(cart, Key(p)) {
      var i :| 0 <= i < |cart| && Key(cart[i]) == Key(p);
      assert Key(once[i]) == Key(p);
    } else {
      assert Key(once[|cart|]) == Key(p);
    }
  }

  lemma AddToCartWellFormed(cart: seq<CartProduct>, p: CartProduct)
    requires WellFormed(cart)
    ensures WellFormed(AddToCart(cart, p))
  {
    var r := AddToCart(cart, p);
    if !HasLine(cart, Key(p)) {
      forall i, j | 0 <= i < j < |r|
        ensures Key(r[i]) != Key(r[j])
      {
        if j == |cart| {
          assert Key(r[i]) == Key(cart[i]);
        } else {
          assert r[i] == cart[i] && r[j] == cart[j];
        }
      }
    }
  }

  lemma RemoveFromCartWellFormed(cart: seq<CartProduct>, id: string, color: Option<string>, size: Option<string>)
    requires WellFormed(cart)
    ensures WellFormed(RemoveFromCart(cart, id, color, size))
  {
    FilterDistinctBy(cart, Unmatched(id, color, size), Key);
  }

  lemma UpdateCartQuantityWellFormed(cart: seq<CartProduct>, id: string, q: int, color: Option<string>, size: Option<string>)
    requires WellFormed(cart)
    ensures WellFormed(UpdateCartQuantity(cart, id, q, color, size))
  {
    if q <= 0 {
      RemoveFromCartWellFormed(cart, id, color, size);
    } else {
      var r := UpdateCartQuantity(cart, id, q, color, size);
      assert forall i :: 0 <= i < |r| ==> Key(r[i]) == Key(cart[i]);
    }
  }

  /** Removing an id no line has changes nothing. */
  lemma RemoveAbsentIsNoop(cart: seq<CartProduct>, id: string, color: Option<string>, size: Option<string>)
    requires forall i :: 0 <= i < |cart| ==> cart[i].id() != id
    ensures RemoveFromCart(cart, id, color, size) == cart
  {
    FilterKeepsAll(cart, Unmatched(id, color, size));
  }

  /** With colour and size omitted, every variant of the product goes, and
      every line of another product stays. */
  lemma RemoveWithoutVariantRemovesAllVariants(cart: seq<CartProduct>, id: string)
    ensures forall i :: 0 <= i < |RemoveFromCart(cart, id, None, None)| ==>
      RemoveFromCart(cart, id, None, None)[i].id() != id
    ensures forall i :: 0 <= i < |cart| && cart[i].id() != id ==>
      cart[i] in RemoveFromCart(cart, id, None, None)
  {
  }

  /** Adding a line that was not in the cart and then removing exactly that
      line gives back the cart. */
  lemma RemoveLineUndoesAdd(cart: seq<CartProduct>, p: CartProduct)
    requires !HasLine(cart, Key(p))
    ensures RemoveLine(AddToCart(cart, p), Key(p)) == cart
  {
    var line := p.(quantity := Some(Incoming(p)));
    FilterAppend(cart, [line], WithoutLine(Key(p)));
    FilterKeepsAll(cart, WithoutLine(Key(p)));
  }

  lemma RemoveLineWellFormed(cart: seq<CartProduct>, k: LineKey)
    requires WellFormed(cart)
    ensures WellFormed(RemoveLine(cart, k))
  {
    FilterDistinctBy(cart, WithoutLine(k), Key);
  }

  /** Exact removal spares every other line of the same product. */
  lemma RemoveLineKeepsOtherVariants(cart: seq<CartProduct>, k: LineKey, i: nat)
    requires i < |cart| && Key(cart[i]) != k
    ensures cart[i] in RemoveLine(cart, k)
  {
  }

  // ---------------------------------------------------------------------
  // Several adds in a row, as the bundle and reorder buttons issue them

  function UnitsOn(k: LineKey): CartProduct -> int {
    c => if Key(c) == k then Units(c) else 0
  }

  /** The units on line `k`, or 0 when the cart has no such line. */
  function LineUnits(cart: seq<CartProduct>, k: LineKey): int {
    SumInt(cart, UnitsOn(k))
  }

  lemma {:induction false} NoLineNoUnits(cart: seq<CartProduct>, k: LineKey)
    requires !HasLine(cart, k)
    ensures LineUnits(cart, k) == 0
    decreases |cart|
  {
    if cart != [] {
      HasLineCons(cart, k);
      NoLineNoUnits(cart[1..], k);
    }
  }

  lemma {:induction false} BumpLinesLineUnits(cart: seq<CartProduct>, k: LineKey, inc: int, j: LineKey)
    requires DistinctBy(cart, Key)
    ensures LineUnits(BumpLines(cart, k, inc), j) ==
      LineUnits(cart, j) + (if k == j && HasLine(cart, k) then inc else 0)
    decreases |cart|
  {
    if cart != [] {
      BumpLinesLineUnits(cart[1..], k, inc, j);
      HasLineCons(cart, k);
      assert BumpLines(cart, k, inc)[1..] == BumpLines(cart[1..], k, inc);
      if Key(cart[0]) == k {
        assert !HasLine(cart[1..], k) by {
          forall i | 0 <= i < |cart[1..]|
            ensures Key(cart[1..][i]) != k
          {
            assert cart[1..][i] == cart[i + 1];
          }
        }
      }
    }
  }

  /** `addToCart` puts the incoming units on the line with the product's
      identity and on no other line. */
  lemma AddToCartLineUnits(cart: seq<CartProduct>, p: CartProduct, k: LineKey)
    requires WellFormed(cart)
    ensures LineUnits(AddToCart(cart, p), k) == LineUnits(cart, k) + (if Key(p) == k then Incoming(p) else 0)
  {
    if HasLine(cart, Key(p)) {
      BumpLinesLineUnits(cart, Key(p), Incoming(p), k);
    } else {
      SumIntAppend(cart, [p.(quantity := Some(Incoming(p)))], UnitsOn(k));
    }
  }

  /** `ps.forEach(p => addToCart(p))` */
  function AddEach(cart: seq<CartProduct>, ps: seq<CartProduct>): seq<CartProduct>
    decreases |ps|
  {
    if ps == [] then cart else AddEach(AddToCart(cart, ps[0]), ps[1..])
  }

  function IncomingOn(k: LineKey): CartProduct -> int {
    p => if Key(p) == k then Incoming(p) else 0
  }

  /** A batch of adds keeps the cart invariant, grows the unit count by the
      units of the batch, and puts on each line exactly the units of the
      batch's products with that line's identity. */
  lemma {:induction false} AddEachUnits(cart: seq<CartProduct>, ps: seq<CartProduct>, k: LineKey)
    requires WellFormed(cart)
    ensures WellFormed(AddEach(cart, ps))
    ensures TotalUnits(AddEach(cart, ps)) == TotalUnits(cart) + SumInt(ps, Incoming)
    ensures LineUnits(AddEach(cart, ps), k) == LineUnits(cart, k) + SumInt(ps, IncomingOn(k))
    decreases |ps|
  {
    if ps != [] {
      AddToCartWellFormed(cart, ps[0]);
      AddToCartUnits(cart, ps[0]);
      AddToCartLineUnits(cart, ps[0], k);
      AddEachUnits(AddToCart(cart, ps[0]), ps[1..], k);
    }
  }
}

=== FILE: catalog.dfy ===
/** The generated demo catalogue of `src/data/mockProducts.ts`. Every call
    of `Math.random()` becomes one field of `Draws`, a number in [0, 1), so
    the invariants below hold for every run of the generator. */
module MockProducts {
  import opened Base
  import opened Types
  import opened Text

  const Categories: seq<string> := ["Electronics", "Fashion", "Home & Garden", "Sports", "Books", "Toys"]
  const Brands: seq<string> := ["TechPro", "StyleHub", "HomeEssentials", "FitGear", "ReadMore", "PlayTime", "LuxeBrand", "EcoChoice"]
  const Colors: seq<ProductColor> := [
    ProductColor("Black", "#000000"), ProductColor("White", "#FFFFFF"),
    ProductColor("Red", "#EF4444"), ProductColor("Blue", "#3B82F6"),
    ProductColor("Green", "#10B981"), ProductColor("Gray", "#6B7280"),
    ProductColor("Navy", "#1E3A8A"), ProductColor("Pink", "#EC4899")]
  const Sizes: seq<string> := ["XS", "S", "M", "L", "XL", "XXL"]
  const TagPool: seq<string> := ["Bestseller", "New Arrival", "Eco-Friendly", "Premium", "Limited Edition"]
  const FeaturePool: seq<string> := [
    "High-quality materials", "Durable construction", "Modern design",
    "Easy to use", "Warranty included", "Fast shipping"]
  const Materials: seq<string> := ["Cotton", "Polyester", "Metal", "Plastic", "Wood"]
  const Origins: seq<string> := ["USA", "Germany", "Japan", "Italy", "China"]

  const CatalogSize: nat := 120
  const SliceSize: nat := 8

  /** The random numbers one product consumes, in the order the generator
      draws them. */
  datatype Draws = Draws(
    price: real, discount: real, rating: real, reviews: real,
    colors: real, sizes: real, stock: real, tags: real, features: real,
    weight: real, width: real, height: real, depth: real)

  predicate Unit(x: real) { 0.0 <= x < 1.0 }

  predicate ValidDraws(d: Draws) {
    Unit(d.price) && Unit(d.discount) && Unit(d.rating) && Unit(d.reviews) &&
    Unit(d.colors) && Unit(d.sizes) && Unit(d.stock) && Unit(d.tags) &&
    Unit(d.features) && Unit(d.weight) && Unit(d.width) && Unit(d.height) && Unit(d.depth)
  }

  lemma ScaleUnit(r: real, k: real)
    requires Unit(r) && k > 0.0
    ensures 0.0 <= r * k < k
  {
    assert (1.0 - r) * k > 0.0;
  }

  /** `Math.floor(r * n) + base` for a draw `r`: one of `base .. base + n - 1`. */
  function Pick(r: real, n: nat, base: nat): (k: nat)
    requires Unit(r) && n > 0
    ensures base <= k < base + n
  {
    ScaleUnit(r, n as real);
    (r * n as real).Floor + base
  }

  /** `Math.floor(r * span + low)`: one of `low .. low + span - 1`. */
  function FloorSpan(r: real, span: nat, low: nat): (k: int)
    requires Unit(r) && span > 0
    ensures low <= k < low + span
  {
    ScaleUnit(r, span as real);
    (r * span as real + low as real).Floor
  }

  /** `Math.round` never decreases as its argument grows. */
  lemma RoundMonotone(x: real, y: real)
    requires x <= y
    ensures Round(x) <= Round(y)
  {
  }

  /** `Math.round` of a whole number is that number. */
  lemma RoundWhole(n: int)
    ensures Round(n as real) == n
  {
  }

  /** `Math.round(x)` of a non-negative number, as a natural number. */
  function RoundNat(x: real): (k: nat)
    requires x >= 0.0
    ensures x - 0.5 < k as real <= x + 0.5
  {
    Round(x)
  }

  /** `Math.round((r * 500 + 20) * 100) / 100`, the undiscounted price. */
  function BasePrice(d: Draws): (b: real)
    requires ValidDraws(d)
    ensures 20.0 <= b <= 520.0
  {
    ScaleUnit(d.price, 500.0);
    var n := Round((d.price * 500.0 + 20.0) * 100.0);
    assert 2000 <= n <= 52000;
    n as real / 100.0
  }

  /** `Math.round(base * f * 100) / 100` for a cut factor `f` below one: never
      above the base price, and strictly below it for a positive price. */
  function Cut(base: real, f: real): (r: real)
    requires base >= 20.0
    requires 0.5 <= f <= 0.95
    ensures 0.0 < r < base
    ensures base * f - 0.005 < r <= base * f + 0.005
  {
    var n := Round(base * f * 100.0);
    MulNonNegative(base - 20.0, f);
    MulNonNegative(base - 20.0, 1.0 - f);
    n as real / 100.0
  }

  function Rating(d: Draws): (r: real)
    requires ValidDraws(d)
    ensures 3.0 <= r <= 5.0
  {
    ScaleUnit(d.rating, 2.0);
    var n := Round((d.rating * 2.0 + 3.0) * 10.0);
    assert 30 <= n <= 50;
    n as real / 10.0
  }

  /** The four volume tiers: thresholds 1, 5, 10, 20 with the base price
      cut by 0, 5, 10 and 15 percent and rounded to cents. */
  function Tiers(base: real): (t: seq<VolumePrice>)
    requires base >= 20.0
    ensures |t| == 4
    ensures t[0].quantity == 1 && t[1].quantity == 5 && t[2].quantity == 10 && t[3].quantity == 20
    ensures t[0].discount == 0.0 && t[1].discount == 5.0 && t[2].discount == 10.0 && t[3].discount == 15.0
    ensures t[0].price == base
    ensures forall i, j :: 0 <= i < j < |t| ==> t[i].quantity < t[j].quantity && t[i].price >= t[j].price
  {
    RoundMonotone(base * 0.9 * 100.0, base * 0.95 * 100.0);
    RoundMonotone(base * 0.85 * 100.0, base * 0.9 * 100.0);
    [ VolumePrice(1, base, 0.0),
      VolumePrice(5, Cut(base, 0.95), 5.0),
      VolumePrice(10, Cut(base, 0.9), 10.0),
      VolumePrice(20, Cut(base, 0.85), 15.0) ]
  }

  function Specifications(id: nat, d: Draws): seq<(string, string)>
    requires ValidDraws(d)
  {
    [ ("Material", Materials[id % 5]),
      ("Weight", NatToString(RoundNat(d.weight * 5.0 + 0.5)) + "kg"),
      ("Dimensions", NatToString(RoundNat(d.width * 50.0 + 10.0)) + "x" +
                     NatToString(RoundNat(d.height * 50.0 + 10.0)) + "x" +
                     NatToString(RoundNat(d.depth * 30.0 + 5.0)) + "cm"),
      ("Origin", Origins[id % 5]) ]
  }

  function Images(id: nat): seq<string> {
    var stem := "https://picsum.photos/seed/" + NatToString(id);
    [stem + "-1/800/800", stem + "-2/800/800", stem + "-3/800/800", stem + "-4/800/800"]
  }

  function ProductKey(id: nat): string { "prod-" + NatToString(id) }

  /** The category with index `k`; only index 1 is "Fashion". */
  lemma FashionIndex(k: nat)
    requires k < |Categories|
    ensures Categories[k] == "Fashion" <==> k == 1
  {
  }

  /** `price` and `originalPrice`: a discounted product sells at 80 percent
      of its base price, rounded to cents, and keeps the base price as its
      original price. */
  function Pricing(d: Draws): (r: (real, Option<real>))
    requires ValidDraws(d)
    ensures r.1.Some? <==> d.discount > 0.7
    ensures r.1.Some? ==> 0.0 < r.0 < r.1.value && r.1.value == BasePrice(d)
    ensures r.1.None? ==> r.0 == BasePrice(d)
  {
    var base := BasePrice(d);
    if d.discount > 0.7 then (Cut(base, 0.8), Some(base)) else (base, None)
  }

  function ColorChoice(d: Draws): (r: seq<ProductColor>)
    requires ValidDraws(d)
    ensures r <= Colors && 2 <= |r| <= 5
  {
    Take(Colors, Pick(d.colors, 4, 2))
  }

  /** Only fashion items come in sizes. */
  function SizeChoice(category: string, d: Draws): (r: seq<string>)
    requires ValidDraws(d)
    ensures r <= Sizes
    ensures |r| > 0 <==> category == "Fashion"
    ensures category == "Fashion" ==> 3 <= |r| <= 6
  {
    if category == "Fashion" then Take(Sizes, Pick(d.sizes, 4, 3)) else []
  }

  function TagChoice(d: Draws): (r: seq<string>)
    requires ValidDraws(d)
    ensures r <= TagPool && 1 <= |r| <= 3
  {
    Take(TagPool, Pick(d.tags, 3, 1))
  }

  function FeatureChoice(d: Draws): (r: seq<string>)
    requires ValidDraws(d)
    ensures r <= FeaturePool && 2 <= |r| <= 5
  {
    Take(FeaturePool, Pick(d.features, 4, 2))
  }

  function ProductName(brand: string, category: string, id: nat): string {
    brand + " " + category + " Item " + NatToString(id)
  }

  function Description(category: string): string {
    "Premium " + ToLower(category) + " product with exceptional quality and design. " +
    "Features advanced technology and sustainable materials. Perfect for everyday use and special occasions."
  }

  /** `generateProduct(id)` */
  function GenerateProduct(id: nat, d: Draws): (p: Product)
    requires ValidDraws(d)
    ensures p.id == ProductKey(id)
    ensures p.category == Categories[id % 6] && p.brand == Brands[id % 8]
    ensures p.originalPrice.Some? <==> d.discount > 0.7
    ensures p.originalPrice.Some? ==> 0.0 < p.price < p.originalPrice.value
    ensures 20.0 <= p.originalPrice.GetOr(p.price) <= 520.0
    ensures 3.0 <= p.rating <= 5.0
    ensures 10 <= p.reviewCount <= 509
    ensures 10 <= p.stock <= 109
    ensures p.colors <= Colors && 2 <= |p.colors| <= 5
    ensures p.sizes <= Sizes
    ensures |p.sizes| > 0 <==> id % 6 == 1
    ensures id % 6 == 1 ==> 3 <= |p.sizes| <= 6
    ensures p.tags <= TagPool && 1 <= |p.tags| <= 3
    ensures p.features <= FeaturePool && 2 <= |p.features| <= 5
    ensures p.volumePricing.Some? && |p.volumePricing.value| == 4
    ensures p.volumePricing.value[0].price == p.originalPrice.GetOr(p.price)
  {
    var category := Categories[id % 6];
    var brand := Brands[id % 8];
    var prices := Pricing(d);
    FashionIndex(id % 6);
    Product(
      ProductKey(id),
      ProductName(brand, category, id),
      Description(category),
      prices.0,
      prices.1,
      category,
      category + " Sub " + NatToString(id % 3 + 1),
      brand,
      Rating(d),
      FloorSpan(d.reviews, 500, 10),
      Images(id),
      ColorChoice(d),
      SizeChoice(category, d),
      FloorSpan(d.stock, 100, 10),
      TagChoice(d),
      FeatureChoice(d),
      Specifications(id, d),
      Some(Tiers(BasePrice(d))),
      None,
      None,
      None)
  }

  /** Distinct numbers give distinct product ids. */
  lemma ProductKeyInjective(m: nat, n: nat)
    ensures ProductKey(m) == ProductKey(n) ==> m == n
  {
    if ProductKey(m) == ProductKey(n) {
      assert ProductKey(m)[5..] == NatToString(m);
      assert ProductKey(n)[5..] == NatToString(n);
      NatToStringInjective(m, n);
    }
  }

  /** `mockProducts`: products 1 to 120, one set of draws each. */
  function Catalog(draws: seq<Draws>): (c: seq<Product>)
    requires |draws| == CatalogSize
    requires forall i :: 0 <= i < |draws| ==> ValidDraws(draws[i])
    ensures |c| == CatalogSize
    ensures forall i :: 0 <= i < |c| ==> c[i].id == ProductKey(i + 1)
    ensures forall i :: 0 <= i < |c| ==> c[i].category == Categories[(i + 1) % 6] && c[i].brand == Brands[(i + 1) % 8]
    ensures forall i :: 0 <= i < |c| ==> c[i].stock > 0
  {
    var c := seq(CatalogSize, i requires 0 <= i < CatalogSize => GenerateProduct(i + 1, draws[i]));
    forall i | 0 <= i < |c|
      ensures c[i].id == ProductKey(i + 1) && c[i].stock > 0
      ensures c[i].category == Categories[(i + 1) % 6] && c[i].brand == Brands[(i + 1) % 8]
    {
      var p := GenerateProduct(i + 1, draws[i]);
      assert c[i] == p;
    }
    c
  }

  /** The catalogue ids "prod-1" to "prod-120" are pairwise distinct. */
  lemma CatalogIdsDistinct(draws: seq<Draws>)
    requires |draws| == CatalogSize
    requires forall i :: 0 <= i < |draws| ==> ValidDraws(draws[i])
    ensures forall i, j :: 0 <= i < j < CatalogSize ==> Catalog(draws)[i].id != Catalog(draws)[j].id
  {
    var c := Catalog(draws);
    forall i, j | 0 <= i < j < CatalogSize
      ensures c[i].id != c[j].id
    {
      KeysDiffer(i + 1, j + 1);
    }
  }

  /** `featuredProducts`, `trendingProducts` and `newArrivals`: the three
      consecutive eight-product slices at the head of the catalogue, which
      hold products 1-8, 9-16 and 17-24. */
  function Slice(draws: seq<Draws>, k: nat): (r: seq<Product>)
    requires |draws| == CatalogSize && forall i :: 0 <= i < |draws| ==> ValidDraws(draws[i])
    requires k < 3
    ensures |r| == SliceSize
    ensures forall i :: 0 <= i < |r| ==> r[i].id == ProductKey(k * SliceSize + i + 1)
  {
    Catalog(draws)[k * SliceSize..(k + 1) * SliceSize]
  }

  function Featured(draws: seq<Draws>): (r: seq<Product>)
    requires |draws| == CatalogSize && forall i :: 0 <= i < |draws| ==> ValidDraws(draws[i])
    ensures |r| == SliceSize
    ensures forall i :: 0 <= i < |r| ==> r[i].id == ProductKey(i + 1)
  {
    Slice(draws, 0)
  }

  function Trending(draws: seq<Draws>): (r: seq<Product>)
    requires |draws| == CatalogSize && forall i :: 0 <= i < |draws| ==> ValidDraws(draws[i])
    ensures |r| == SliceSize
    ensures forall i :: 0 <= i < |r| ==> r[i].id == ProductKey(SliceSize + i + 1)
  {
    Slice(draws, 1)
  }

  function NewArrivals(draws: seq<Draws>): (r: seq<Product>)
    requires |draws| == CatalogSize && forall i :: 0 <= i < |draws| ==> ValidDraws(draws[i])
    ensures |r| == SliceSize
    ensures forall i :: 0 <= i < |r| ==> r[i].id == ProductKey(2 * SliceSize + i + 1)
  {
    Slice(draws, 2)
  }

  /** No product id appears in two of the three home-page slices. */
  lemma SlicesDisjoint(draws: seq<Draws>, a: nat, b: nat)
    requires |draws| == CatalogSize && forall i :: 0 <= i < |draws| ==> ValidDraws(draws[i])
    requires a < b < 3
    ensures forall i, j :: 0 <= i < SliceSize && 0 <= j < SliceSize ==>
      Slice(draws, a)[i].id != Slice(draws, b)[j].id
  {
    var x, y := Slice(draws, a), Slice(draws, b);
    forall i, j | 0 <= i < SliceSize && 0 <= j < SliceSize
      ensures x[i].id != y[j].id
    {
      SlotsDiffer(a, b, i, j);
    }
  }

  lemma KeysDiffer(m: nat, n: nat)
    requires m != n
    ensures ProductKey(m) != ProductKey(n)
  {
    ProductKeyInjective(m, n);
  }

  lemma SlotsDiffer(a: nat, b: nat, i: nat, j: nat)
    requires a < b && i < SliceSize && j < SliceSize
    ensures ProductKey(a * SliceSize + i + 1) != ProductKey(b * SliceSize + j + 1)
  {
    assert a * SliceSize + SliceSize <= b * SliceSize;
    ProductKeyInjective(a * SliceSize + i + 1, b * SliceSize + j + 1);
  }
}

=== FILE: comparison.dfy ===
/** The comparison page (`src/components/Comparison/Comparison.tsx`): the
    union of specification keys over the compared products, the cell shown
    for each key, and the stock row. A product's `specifications` object is
    its ordered list of (key, value) entries. */
module Comparison {
  import opened Base
  import opened Types
  import Store

  /** `Object.keys(p.specifications)` */
  function SpecKeys(p: Product): (r: seq<string>)
    ensures |r| == |p.specifications|
    ensures forall i :: 0 <= i < |r| ==> r[i] == p.specifications[i].0
  {
    Map(p.specifications, (e: (string, string)) => e.0)
  }

  /** `Array.from(new Set(list.flatMap(p => Object.keys(p.specifications))))` */
  function AllSpecs(list: seq<Product>): seq<string> {
    Dedup(Flatten(Map(list, SpecKeys)))
  }

  /** A specification key names a row exactly when some compared product
      has it, and no key names two rows. */
  lemma AllSpecsUnion(list: seq<Product>, k: string)
    ensures Distinct(AllSpecs(list))
    ensures k in AllSpecs(list) <==>
      exists i, j :: 0 <= i < |list| && 0 <= j < |list[i].specifications| && list[i].specifications[j].0 == k
  {
    var keys := Map(list, SpecKeys);
    FlattenMember(keys, k);
    if k in Flatten(keys) {
      var i :| 0 <= i < |keys| && k in keys[i];
      var j :| 0 <= j < |keys[i]| && keys[i][j] == k;
      assert list[i].specifications[j].0 == k;
    }
    if exists i, j :: 0 <= i < |list| && 0 <= j < |list[i].specifications| && list[i].specifications[j].0 == k {
      var i, j :| 0 <= i < |list| && 0 <= j < |list[i].specifications| && list[i].specifications[j].0 == k;
      assert keys[i][j] == k;
    }
  }

  /** The rows follow the order in which the keys first appear, product by
      product and key by key. */
  lemma AllSpecsInFirstOccurrenceOrder(list: seq<Product>)
    ensures var keys := Flatten(Map(list, SpecKeys));
      forall a, b :: 0 <= a < b < |AllSpecs(list)| ==>
        FirstIndex(keys, AllSpecs(list)[a]) < FirstIndex(keys, AllSpecs(list)[b])
  {
    DedupFirstOccurrenceOrder(Flatten(Map(list, SpecKeys)));
  }

  /** `p.specifications[key]`: the value stored under `key`, if any. */
  function SpecValue(specs: seq<(string, string)>, key: string): (r: Option<string>)
    ensures r.None? <==> forall j :: 0 <= j < |specs| ==> specs[j].0 != key
    ensures r.Some? ==> exists j :: 0 <= j < |specs| && specs[j] == (key, r.value)
  {
    if specs == [] then None
    else if specs[0].0 == key then Some(specs[0].1)
    else
      var r := SpecValue(specs[1..], key);
      assert r.Some? ==> exists j :: 0 <= j < |specs[1..]| && specs[1..][j] == (key, r.value);
      r
  }

  /** `p.specifications[key] || '-'`: a missing or empty value shows a dash. */
  function Cell(p: Product, key: string): (r: string)
    ensures SpecValue(p.specifications, key).Some? && SpecValue(p.specifications, key).value != "" ==>
      r == SpecValue(p.specifications, key).value
    ensures SpecValue(p.specifications, key).None? || SpecValue(p.specifications, key).value == "" ==>
      r == "-"
    ensures r != ""
  {
    match SpecValue(p.specifications, key)
    case Some(v) => if v != "" then v else "-"
    case None => "-"
  }

  /** `stock > 0 ? 'In Stock' : 'Out of Stock'` */
  function StockCell(p: Product): (r: string)
    ensures r == "In Stock" <==> p.stock > 0
    ensures r == "Out of Stock" <==> p.stock <= 0
  {
    if p.stock > 0 then "In Stock" else "Out of Stock"
  }

  /** One specification row: its key and one cell per compared product. */
  datatype SpecRow = SpecRow(key: string, cells: seq<string>)

  /** What the page renders: the empty state, or the table. */
  datatype View =
    | EmptyState
    | Table(count: nat, stock: seq<string>, rows: seq<SpecRow>)

  function Row(list: seq<Product>, key: string): (r: SpecRow)
    ensures r.key == key && |r.cells| == |list|
    ensures forall i :: 0 <= i < |list| ==> r.cells[i] == Cell(list[i], key)
  {
    SpecRow(key, Map(list, (p: Product) => Cell(p, key)))
  }

  /** The page for the store's comparison list. */
  function Render(list: seq<Product>): (v: View)
    ensures v.EmptyState? <==> |list| == 0
    ensures v.Table? ==> v.count == |list| && |v.stock| == |list| && |v.rows| == |AllSpecs(list)|
    ensures v.Table? ==> forall i :: 0 <= i < |list| ==> v.stock[i] == StockCell(list[i])
    ensures v.Table? ==> forall r :: 0 <= r < |v.rows| ==>
      v.rows[r].key == AllSpecs(list)[r] && |v.rows[r].cells| == |list|
  {
    if |list| == 0 then EmptyState
    else
      Table(|list|, Map(list, StockCell), Map(AllSpecs(list), (k: string) => Row(list, k)))
  }

  /** Every non-empty value a compared product stores under a key shows up in
      that key's row, in that product's column. */
  lemma EveryValueShown(list: seq<Product>, i: nat, j: nat)
    requires i < |list| && j < |list[i].specifications|
    requires forall a, b :: 0 <= a < b < |list[i].specifications| ==>
      list[i].specifications[a].0 != list[i].specifications[b].0
    requires list[i].specifications[j].1 != ""
    ensures var v := Render(list); var k := list[i].specifications[j].0;
      v.Table? && exists r :: 0 <= r < |v.rows| && v.rows[r].key == k && v.rows[r].cells[i] == list[i].specifications[j].1
  {
    var specs := list[i].specifications;
    var k := specs[j].0;
    AllSpecsUnion(list, k);
    var v := Render(list);
    var r := FirstIndex(AllSpecs(list), k);
    var w := SpecValue(specs, k);
    var j' :| 0 <= j' < |specs| && specs[j'] == (k, w.value);
    assert j' == j;
    assert v.rows[r].cells[i] == Cell(list[i], k);
  }

  /** The store never holds more than four products to compare, so the
      heading reads at most "(4/4)". */
  lemma HeadingWithinCap(s: Store.State)
    requires Store.Inv(s)
    ensures Render(s.comparisonList).Table? ==> Render(s.comparisonList).count <= Store.ComparisonCap
  {
  }
}

=== FILE: filter_panel.dfy ===
/** The facet panel of `src/components/FilterPanel/FilterPanel.tsx`: the
    option lists it derives from the catalogue and the patches it hands to
    the store's `setFilters`, which replaces the whole `filters` slot. */
module FilterPanel {
  import opened Base
  import opened Types
  import Store
  import Filters

  function Category(p: Product): string { p.category }
  function Brand(p: Product): string { p.brand }
  function ColorName(c: ProductColor): string { c.name }
  function ColorNames(p: Product): seq<string> { Map(p.colors, ColorName) }
  function Sizes(p: Product): seq<string> { p.sizes }

  /** `Array.from(new Set(xs))` over `products.map(key)`. */
  function Options(products: seq<Product>, key: Product -> string): (r: seq<string>)
    ensures Distinct(r)
    ensures forall i :: 0 <= i < |r| ==> exists j :: 0 <= j < |products| && key(products[j]) == r[i]
    ensures forall j :: 0 <= j < |products| ==> key(products[j]) in r
  {
    var keys := Map(products, key);
    var r := Dedup(keys);
    assert forall i :: 0 <= i < |r| ==> r[i] in keys;
    r
  }

  /** `Array.from(new Set(products.flatMap(values)))` */
  function FlatOptions(products: seq<Product>, values: Product -> seq<string>): (r: seq<string>)
    ensures Distinct(r)
    ensures forall x :: x in r <==> exists j :: 0 <= j < |products| && x in values(products[j])
  {
    var all := Flatten(Map(products, values));
    var r := Dedup(all);
    forall x
      ensures x in r <==> exists j :: 0 <= j < |products| && x in values(products[j])
    {
      FlattenMember(Map(products, values), x);
      assert x in r <==> x in all;
    }
    r
  }

  /** Options are listed in the order in which they first occur. */
  lemma OptionsFirstOccurrence(products: seq<Product>, key: Product -> string)
    ensures forall i, j :: 0 <= i < j < |Options(products, key)| ==>
      FirstIndex(Map(products, key), Options(products, key)[i]) <
      FirstIndex(Map(products, key), Options(products, key)[j])
  {
    DedupFirstOccurrenceOrder(Map(products, key));
  }

  /** `current.includes(value) ? current.filter(v => v !== value) : [...current, value]` */
  function Toggle(current: seq<string>, value: string): (r: seq<string>)
    ensures value in r <==> value !in current
    ensures forall x :: x != value ==> (x in r <==> x in current)
  {
    if value in current then Filter(current, v => v != value) else current + [value]
  }

  /** Toggling a value that was not selected, twice, restores the list. */
  lemma ToggleTwice(current: seq<string>, value: string)
    requires value !in current
    ensures Toggle(Toggle(current, value), value) == current
  {
    var f := (v: string) => v != value;
    FilterAppend(current, [value], f);
    FilterKeepsAll(current, f);
  }

  /** The rating radios offer these floors, highest first. */
  const RatingChoices: seq<real> := [4.0, 3.0, 2.0, 1.0]

  /** At most eight colour swatches are offered. */
  function OfferedColors(products: seq<Product>): (r: seq<string>)
    ensures |r| <= 8 && Distinct(r)
    ensures forall i :: 0 <= i < |r| ==> r[i] in FlatOptions(products, ColorNames)
  {
    Take(FlatOptions(products, ColorNames), 8)
  }

  datatype PanelAction =
    | ToggleCategory(category: string)
    | ToggleBrand(brand: string)
    | SetMaxPrice(max: int)
    | SetRating(choice: nat)
    | ToggleColor(color: string)
    | ToggleSize(size: string)
    | SetInStock(checked: bool)
    | ResetAll

  const Empty := Store.NoFilters

  /** The slot after a panel control is used, or `None` where a toggle reads
      a list key the slot lacks. Every control but Reset passes an object
      with a single key to `setFilters`. */
  function Apply(slot: Store.FilterPatch, a: PanelAction): (r: Option<Store.FilterPatch>)
    requires a.SetRating? ==> a.choice < |RatingChoices|
    ensures a.ToggleCategory? ==> (r.None? <==> slot.categories.None?)
    ensures r.Some? && a.ToggleCategory? ==>
      r.value == Empty.(categories := Some(Toggle(slot.categories.value, a.category)))
    ensures a.SetMaxPrice? ==> r == Some(Empty.(priceRange := Some((0.0, a.max as real))))
    ensures a.SetRating? ==> r == Some(Empty.(rating := Some(RatingChoices[a.choice])))
    ensures a.SetInStock? ==> r == Some(Empty.(inStock := Some(a.checked)))
    ensures a.ResetAll? ==> r == Some(Empty)
  {
    match a
    case ToggleCategory(v) =>
      if slot.categories.None? then None
      else Some(Empty.(categories := Some(Toggle(slot.categories.value, v))))
    case ToggleBrand(v) =>
      if slot.brands.None? then None
      else Some(Empty.(brands := Some(Toggle(slot.brands.value, v))))
    case SetMaxPrice(m) => Some(Empty.(priceRange := Some((0.0, m as real))))
    case SetRating(i) => Some(Empty.(rating := Some(RatingChoices[i])))
    case ToggleColor(v) =>
      if slot.colors.None? then None
      else Some(Empty.(colors := Some(Toggle(slot.colors.value, v))))
    case ToggleSize(v) =>
      if slot.sizes.None? then None
      else Some(Empty.(sizes := Some(Toggle(slot.sizes.value, v))))
    case SetInStock(b) => Some(Empty.(inStock := Some(b)))
    case ResetAll => Some(Empty)
  }

  /** How many of the four list keys the catalogue filter needs are set. */
  function ListKeys(slot: Store.FilterPatch): nat {
    (if slot.categories.Some? then 1 else 0) + (if slot.brands.Some? then 1 else 0) +
    (if slot.colors.Some? then 1 else 0) + (if slot.sizes.Some? then 1 else 0)
  }

  /** Whatever the panel does, at most one list key is left in the slot. */
  lemma ApplyLeavesAtMostOneList(slot: Store.FilterPatch, a: PanelAction)
    requires a.SetRating? ==> a.choice < |RatingChoices|
    ensures Apply(slot, a).Some? ==> ListKeys(Apply(slot, a).value) <= 1
  {
  }

  /** Hence after any use of the panel the catalogue filter of the home page
      fails, as it does on the initial slot. */
  lemma ApplyThenFilterFails(products: seq<Product>, slot: Store.FilterPatch, a: PanelAction, sortBy: string, q: string)
    requires a.SetRating? ==> a.choice < |RatingChoices|
    requires Apply(slot, a).Some?
    ensures Filters.UseFilters(products, Apply(slot, a).value, sortBy, q).None?
  {
    ApplyLeavesAtMostOneList(slot, a);
  }
}

=== FILE: filters.dfy ===
/** The catalogue filter of `src/hooks/useFilters.ts`: a chain of filters,
    each applied only when its facet is active, followed by one ordering
    step. The hook reads the store's untyped `filters` slot, so the model
    takes that slot (`Store.FilterPatch`) and reports `None` where the hook
    would throw because a list-valued key is missing. */
module Filters {
  import opened Base
  import opened Types
  import opened Text
  import opened StableSort
  import Store

  /** The text query matches, case-insensitively, a substring of the name,
      description, category or brand; an empty query matches everything. */
  predicate QueryOk(q: string, p: Product) {
    q == [] ||
    var ql := ToLower(q);
    Contains(ToLower(p.name), ql) || Contains(ToLower(p.description), ql) ||
    Contains(ToLower(p.category), ql) || Contains(ToLower(p.brand), ql)
  }

  predicate CategoryOk(categories: seq<string>, p: Product) {
    |categories| == 0 || p.category in categories
  }

  predicate BrandOk(brands: seq<string>, p: Product) {
    |brands| == 0 || p.brand in brands
  }

  /** Both ends of the range are inclusive; no range means no restriction. */
  predicate PriceOk(range: Option<(real, real)>, p: Product) {
    range.None? || (range.value.0 <= p.price && p.price <= range.value.1)
  }

  /** A rating floor of 0 (or below) is no restriction. */
  predicate RatingOk(rating: real, p: Product) {
    !(rating > 0.0) || p.rating >= rating
  }

  predicate StockOk(inStock: bool, p: Product) {
    !inStock || p.stock > 0
  }

  /** Some colour of the product is among the selected ones. */
  predicate ColorOk(colors: seq<string>, p: Product) {
    |colors| == 0 || exists i :: 0 <= i < |p.colors| && p.colors[i].name in colors
  }

  /** Some size of the product is among the selected ones. */
  predicate SizeOk(sizes: seq<string>, p: Product) {
    |sizes| == 0 || exists i :: 0 <= i < |p.sizes| && p.sizes[i] in sizes
  }

  /** The values the hook filters by, once every key it dereferences has
      been read. */
  datatype Criteria = Criteria(
    query: string,
    categories: seq<string>,
    brands: seq<string>,
    priceRange: Option<(real, real)>,
    rating: real,
    inStock: bool,
    colors: seq<string>,
    sizes: seq<string>)

  /** The product passes every active facet. */
  predicate Admits(c: Criteria, p: Product) {
    QueryOk(c.query, p) && CategoryOk(c.categories, p) && BrandOk(c.brands, p) &&
    PriceOk(c.priceRange, p) && RatingOk(c.rating, p) && StockOk(c.inStock, p) &&
    ColorOk(c.colors, p) && SizeOk(c.sizes, p)
  }

  /** The eight facet tests, in the order the hook applies them. */
  function Facets(c: Criteria): (fs: seq<Product -> bool>)
    ensures |fs| == 8
  {
    [p => QueryOk(c.query, p), p => CategoryOk(c.categories, p), p => BrandOk(c.brands, p),
     p => PriceOk(c.priceRange, p), p => RatingOk(c.rating, p), p => StockOk(c.inStock, p),
     p => ColorOk(c.colors, p), p => SizeOk(c.sizes, p)]
  }

  /** Which facets are active, in the order of `Facets`. */
  function Actives(c: Criteria): (a: seq<bool>)
    ensures |a| == 8
  {
    [c.query != [], |c.categories| > 0, |c.brands| > 0, c.priceRange.Some?,
     c.rating > 0.0, c.inStock, |c.colors| > 0, |c.sizes| > 0]
  }

  /** `if (active) filtered = filtered.filter(f)`, facet after facet. */
  function Stages(s: seq<Product>, actives: seq<bool>, fs: seq<Product -> bool>): seq<Product>
    requires |actives| == |fs|
    decreases |fs|
  {
    if fs == [] then s
    else Stages(if actives[0] then Filter(s, fs[0]) else s, actives[1..], fs[1..])
  }

  /** The filtering half of the hook. */
  function Staged(products: seq<Product>, c: Criteria): seq<Product> {
    Stages(products, Actives(c), Facets(c))
  }

  function Price(p: Product): real { p.price }
  function NegPrice(p: Product): real { -p.price }
  function Rating(p: Product): real { p.rating }
  function Popularity(p: Product): real { p.reviewCount as real }

  /** `s.reverse()` */
  function Reverse<T>(s: seq<T>): (r: seq<T>)
    ensures |r| == |s|
    ensures forall i :: 0 <= i < |s| ==> r[i] == s[|s| - 1 - i]
  {
    if s == [] then [] else Reverse(s[1..]) + [s[0]]
  }

  predicate IsKnownSort(sortBy: string) {
    sortBy in ["price-asc", "price-desc", "rating", "newest", "popular"]
  }

  /** The `switch (sortBy)` of the hook. */
  function SortBy(s: seq<Product>, sortBy: string): (r: seq<Product>)
    ensures multiset(r) == multiset(s) && |r| == |s|
    ensures sortBy == "price-asc" ==>
      (forall i, j :: 0 <= i < j < |r| ==> r[i].price <= r[j].price) && SameTies(r, s, NegPrice)
    ensures sortBy == "price-desc" ==> NonIncreasing(r, Price) && SameTies(r, s, Price)
    ensures sortBy == "rating" ==> NonIncreasing(r, Rating) && SameTies(r, s, Rating)
    ensures sortBy == "popular" ==>
      (forall i, j :: 0 <= i < j < |r| ==> r[i].reviewCount >= r[j].reviewCount) && SameTies(r, s, Popularity)
    ensures sortBy == "newest" ==> forall i :: 0 <= i < |s| ==> r[i] == s[|s| - 1 - i]
    ensures !IsKnownSort(sortBy) ==> r == s
  {
    if sortBy == "price-asc" then
      var r := SortDesc(s, NegPrice);
      assert forall i, j :: 0 <= i < j < |r| ==> NegPrice(r[i]) >= NegPrice(r[j]);
      r
    else if sortBy == "price-desc" then SortDesc(s, Price)
    else if sortBy == "rating" then SortDesc(s, Rating)
    else if sortBy == "newest" then
      var r := Reverse(s);
      assert multiset(r) == multiset(s) by { ReverseMultiset(s); }
      r
    else if sortBy == "popular" then
      var r := SortDesc(s, Popularity);
      assert forall i, j :: 0 <= i < j < |r| ==> Popularity(r[i]) >= Popularity(r[j]);
      r
    else s
  }

  lemma {:induction false} ReverseMultiset<T>(s: seq<T>)
    ensures multiset(Reverse(s)) == multiset(s)
    decreases |s|
  {
    if s != [] {
      ReverseMultiset(s[1..]);
      assert s == [s[0]] + s[1..];
    }
  }

  /** What the hook computes from the store's slot, or `None` where reading
      `.length` of a missing list key throws. A missing rating or in-stock
      flag is falsy and a missing price range is skipped. */
  function UseFilters(products: seq<Product>, slot: Store.FilterPatch, sortBy: string, searchQuery: string)
    : (r: Option<seq<Product>>)
    ensures r.None? <==>
      slot.categories.None? || slot.brands.None? || slot.colors.None? || slot.sizes.None?
    ensures r.Some? ==> r.value == UseFiltersLenient(products, slot, sortBy, searchQuery)
  {
    if slot.categories.None? || slot.brands.None? || slot.colors.None? || slot.sizes.None? then None
    else Some(SortBy(Staged(products, SlotCriteria(slot, searchQuery)), sortBy))
  }

  /** The criteria read from the slot, missing keys taken as inactive. */
  function SlotCriteria(slot: Store.FilterPatch, searchQuery: string): (c: Criteria)
    ensures slot.categories.Some? ==> c.categories == slot.categories.value
    ensures slot.categories.None? ==> c.categories == []
    ensures c.priceRange == slot.priceRange && c.query == searchQuery
  {
    Criteria(
      searchQuery,
      slot.categories.GetOr([]),
      slot.brands.GetOr([]),
      slot.priceRange,
      slot.rating.GetOr(0.0),
      slot.inStock.GetOr(false),
      slot.colors.GetOr([]),
      slot.sizes.GetOr([]))
  }

  /** A complete `FilterOptions` object as a slot value. */
  function OptionsSlot(f: FilterOptions): (slot: Store.FilterPatch)
    ensures slot.categories.Some? && slot.brands.Some? && slot.colors.Some? && slot.sizes.Some?
  {
    Store.FilterPatch(Some(f.categories), Some(f.brands), Some(f.priceRange), Some(f.rating),
                      Some(f.inStock), Some(f.colors), Some(f.sizes))
  }

  /** The filter that tolerates missing keys: every absent facet is
      inactive. */
  function UseFiltersLenient(products: seq<Product>, slot: Store.FilterPatch, sortBy: string, searchQuery: string)
    : (r: seq<Product>)
  {
    SortBy(Staged(products, SlotCriteria(slot, searchQuery)), sortBy)
  }

  lemma SortByMembers(s: seq<Product>, sortBy: string, x: Product)
    ensures x in SortBy(s, sortBy) <==> x in s
  {
    assert x in SortBy(s, sortBy) <==> x in multiset(SortBy(s, sortBy));
    assert x in s <==> x in multiset(s);
  }

  // ---------------------------------------------------------------------
  // Properties

  /** A facet that is not active passes every product. */
  lemma InactiveFacetsPass(c: Criteria, i: nat, p: Product)
    requires i < 8 && !Actives(c)[i]
    ensures Facets(c)[i](p)
  {
  }

  /** Skipping the inactive stages is the same as filtering by every facet
      in turn. */
  lemma {:induction false} StagesArePipeline(s: seq<Product>, actives: seq<bool>, fs: seq<Product -> bool>)
    requires |actives| == |fs|
    requires forall i, p :: 0 <= i < |fs| && !actives[i] ==> fs[i](p)
    ensures Stages(s, actives, fs) == Pipeline(s, fs)
    decreases |fs|
  {
    if fs != [] {
      if !actives[0] {
        FilterKeepsAll(s, fs[0]);
      }
      var s' := if actives[0] then Filter(s, fs[0]) else s;
      forall i, p | 0 <= i < |fs[1..]| && !actives[1..][i]
        ensures fs[1..][i](p)
      {
        assert !actives[i + 1];
      }
      StagesArePipeline(s', actives[1..], fs[1..]);
    }
  }

  lemma FacetsAreAdmits(c: Criteria, p: Product)
    ensures AllPred(Facets(c))(p) == Admits(c, p)
  {
    var fs := Facets(c);
    assert AllOf(fs, p) ==> fs[0](p) && fs[1](p) && fs[2](p) && fs[3](p) &&
                            fs[4](p) && fs[5](p) && fs[6](p) && fs[7](p);
  }

  /** The staged filter is one filter by the conjunction of the facets, so
      stage order does not matter. */
  lemma StagedIsFilter(products: seq<Product>, c: Criteria)
    ensures Staged(products, c) == Filter(products, AllPred(Facets(c)))
  {
    forall i, p | 0 <= i < 8 && !Actives(c)[i]
      ensures Facets(c)[i](p)
    {
      InactiveFacetsPass(c, i, p);
    }
    StagesArePipeline(products, Actives(c), Facets(c));
    PipelineIsConjunction(products, Facets(c));
  }

  /** Soundness and completeness: the products shown are exactly the input
      products that pass every active facet. */
  lemma UseFiltersExact(products: seq<Product>, slot: Store.FilterPatch, sortBy: string, q: string, x: Product)
    ensures x in UseFiltersLenient(products, slot, sortBy, q) <==>
      x in products && Admits(SlotCriteria(slot, q), x)
  {
    var c := SlotCriteria(slot, q);
    StagedIsFilter(products, c);
    SortByMembers(Staged(products, c), sortBy, x);
    FacetsAreAdmits(c, x);
    if x in products && Admits(c, x) {
      var i :| 0 <= i < |products| && products[i] == x;
    }
  }

  /** A complete filter object never makes the hook throw. */
  lemma CompleteOptionsNeverFail(products: seq<Product>, f: FilterOptions, sortBy: string, q: string)
    ensures UseFilters(products, OptionsSlot(f), sortBy, q).Some?
  {
  }

  /** Inactive facets filter nothing: with an empty query, empty lists, no
      price range, rating 0 and the in-stock box off, the hook only orders. */
  lemma InactiveFacetsKeepAll(products: seq<Product>, sortBy: string)
    ensures UseFilters(products, Store.FilterPatch(Some([]), Some([]), None, Some(0.0), Some(false), Some([]), Some([])), sortBy, "")
      == Some(SortBy(products, sortBy))
  {
    var slot := Store.FilterPatch(Some([]), Some([]), None, Some(0.0), Some(false), Some([]), Some([]));
    var c := SlotCriteria(slot, "");
    assert c == Criteria("", [], [], None, 0.0, false, [], []);
    InactiveCriteriaKeepAll(products);
  }

  lemma InactiveCriteriaKeepAll(products: seq<Product>)
    ensures Staged(products, Criteria("", [], [], None, 0.0, false, [], [])) == products
  {
    var c := Criteria("", [], [], None, 0.0, false, [], []);
    forall p | p in products
      ensures AllPred(Facets(c))(p)
    {
      FacetsAreAdmits(c, p);
    }
    StagedIsFilter(products, c);
    FilterKeepsAll(products, AllPred(Facets(c)));
  }

  /** The store's initial `filters` slot is `{}`, and the hook dereferences
      `filters.categories.length`: the home page's filter throws until every
      list key has been set. */
  lemma InitialSlotThrows(products: seq<Product>, sortBy: string, q: string)
    ensures UseFilters(products, Store.Initial.filters, sortBy, q).None?
  {
  }

  /** From the initial (empty) slot the tolerant filter applies only the
      text query, then orders. */
  lemma LenientOnEmptySlot(products: seq<Product>, sortBy: string, q: string, x: Product)
    ensures x in UseFiltersLenient(products, Store.Initial.filters, sortBy, q) <==>
      x in products && QueryOk(q, x)
  {
    assert Store.Initial.filters == Store.NoFilters;
    UseFiltersExact(products, Store.NoFilters, sortBy, q, x);
    NoFiltersAdmitByQuery(q, x);
  }

  lemma NoFiltersAdmitByQuery(q: string, x: Product)
    ensures Admits(SlotCriteria(Store.NoFilters, q), x) == QueryOk(q, x)
  {
    assert SlotCriteria(Store.NoFilters, q) == Criteria(q, [], [], None, 0.0, false, [], []);
  }

  /** The text query does not look at tags: two products that differ only in
      their tags are both kept or both dropped. */
  lemma QueryIgnoresTags(q: string, p: Product, tags: seq<string>)
    ensures QueryOk(q, p) == QueryOk(q, p.(tags := tags))
  {
  }

  /** A product is kept whatever the letter case of the query. */
  lemma QueryCaseInsensitive(q: string, p: Product)
    ensures QueryOk(ToLower(q), p) == QueryOk(q, p)
  {
    ToLowerIdempotent(q);
    if q != [] {
      assert ToLower(q) != [];
    }
  }
}

=== FILE: inventory.dfy ===
/** The stock banner (`src/components/InventoryIndicator/InventoryIndicator.tsx`). */
module InventoryIndicator {
  import ProductCard
  import opened Types

  const DefaultLowStockThreshold: int := 10
  const LowStockCeiling: int := 50

  /** The four banners: out of stock, "Only N left", "Low stock - N
      remaining" and "In Stock". */
  datatype StockState = OutOfStock | OnlyLeft(n: int) | LowStock(n: int) | InStock

  /** The banner for `stock`, tested in source order. */
  function Classify(stock: int, threshold: int): (r: StockState)
    ensures r.OutOfStock? <==> stock == 0
    ensures r.OnlyLeft? <==> stock != 0 && stock <= threshold
    ensures r.LowStock? <==> stock != 0 && threshold < stock <= LowStockCeiling
    ensures r.InStock? <==> stock != 0 && stock > threshold && stock > LowStockCeiling
    ensures r.OnlyLeft? || r.LowStock? ==> r.n == stock
  {
    if stock == 0 then OutOfStock
    else if stock <= threshold then OnlyLeft(stock)
    else if stock <= LowStockCeiling then LowStock(stock)
    else InStock
  }

  /** Zero stock is out of stock whatever the threshold, even one below
      zero. */
  lemma OutOfStockFirst(threshold: int)
    ensures Classify(0, threshold) == OutOfStock
  {
  }

  /** With the default threshold the banner urges "Only N left" exactly
      where the card shows "Low Stock", except at exactly ten units (and
      for negative counts). */
  lemma BannerAgainstCard(p: Product)
    ensures ProductCard.LowStockBadge(p) ==> Classify(p.stock, DefaultLowStockThreshold).OnlyLeft?
    ensures Classify(p.stock, DefaultLowStockThreshold).OnlyLeft? && !ProductCard.LowStockBadge(p) <==>
      p.stock == 10 || p.stock < 0
  {
  }
}

=== FILE: lists.dfy ===
/** The list updates the client store performs on its collections: append
    unless an element with the same key is present (wishlist, saved for
    later), append while below a cap (comparison), delete by key, and
    move-to-front with truncation (recent searches, recently viewed). */
module Lists {
  import opened Base

  predicate HasKey<T, K(==)>(s: seq<T>, key: T -> K, k: K) {
    exists i :: 0 <= i < |s| && key(s[i]) == k
  }

  /** `if (!s.find(y => key(y) === key(x))) s = [...s, x]` */
  function AppendIfAbsent<T, K(==)>(s: seq<T>, x: T, key: T -> K): (r: seq<T>)
    ensures HasKey(r, key, key(x))
    ensures s <= r && |r| <= |s| + 1
    ensures |r| == |s| + 1 <==> !HasKey(s, key, key(x))
    ensures |r| == |s| + 1 ==> r[|s|] == x
  {
    if HasKey(s, key, key(x)) then s
    else
      assert key((s + [x])[|s|]) == key(x);
      s + [x]
  }

  /** `if (s.length < cap && !s.find(y => key(y) === key(x))) s = [...s, x]` */
  function AppendIfRoom<T, K(==)>(s: seq<T>, x: T, key: T -> K, cap: nat): (r: seq<T>)
    ensures s <= r && |r| <= |s| + 1
    ensures |r| == |s| + 1 <==> |s| < cap && !HasKey(s, key, key(x))
    ensures |r| == |s| + 1 ==> r[|s|] == x
  {
    if |s| < cap && !HasKey(s, key, key(x)) then s + [x] else s
  }

  function OtherKey<T, K(==)>(key: T -> K, k: K): T -> bool {
    y => key(y) != k
  }

  /** `s.filter(y => key(y) !== k)` */
  function RemoveKey<T(==), K(==)>(s: seq<T>, key: T -> K, k: K): (r: seq<T>)
    ensures !HasKey(r, key, k)
    ensures forall i :: 0 <= i < |r| ==> r[i] in s
    ensures forall i :: 0 <= i < |s| && key(s[i]) != k ==> s[i] in r
  {
    Filter(s, OtherKey(key, k))
  }

  /** Removal keeps the survivors in their order: it works piece by piece
      over a split list, and a single item either stays or goes. */
  lemma RemoveKeyKeepsOrder<T, K>(a: seq<T>, b: seq<T>, x: T, key: T -> K, k: K)
    ensures RemoveKey(a + b, key, k) == RemoveKey(a, key, k) + RemoveKey(b, key, k)
    ensures RemoveKey([x], key, k) == if key(x) == k then [] else [x]
  {
    FilterAppend(a, b, OtherKey(key, k));
    assert [x][1..] == [];
  }

  /** `[x, ...s.filter(y => key(y) !== key(x))].slice(0, cap)` */
  function PushRecent<T(==), K(==)>(s: seq<T>, x: T, key: T -> K, cap: nat): (r: seq<T>)
    ensures |r| <= cap && |r| <= |s| + 1
    ensures |r| == MinInt(cap, 1 + |RemoveKey(s, key, key(x))|)
    ensures cap > 0 ==> r[0] == x
    ensures cap > 0 ==> r[1..] <= RemoveKey(s, key, key(x))
    ensures cap > 0 && |RemoveKey(s, key, key(x))| < cap ==> r[1..] == RemoveKey(s, key, key(x))
  {
    var rest := RemoveKey(s, key, key(x));
    assert ([x] + rest)[1..] == rest;
    Take([x] + rest, cap)
  }

  // ---------------------------------------------------------------------
  // Properties

  lemma AppendIfAbsentIdempotent<T, K>(s: seq<T>, x: T, key: T -> K)
    ensures AppendIfAbsent(AppendIfAbsent(s, x, key), x, key) == AppendIfAbsent(s, x, key)
  {
  }

  lemma AppendIfAbsentDistinct<T, K>(s: seq<T>, x: T, key: T -> K)
    requires DistinctBy(s, key)
    ensures DistinctBy(AppendIfAbsent(s, x, key), key)
  {
  }

  lemma AppendIfRoomDistinct<T, K>(s: seq<T>, x: T, key: T -> K, cap: nat)
    requires DistinctBy(s, key) && |s| <= cap
    ensures DistinctBy(AppendIfRoom(s, x, key, cap), key)
    ensures |AppendIfRoom(s, x, key, cap)| <= cap
  {
  }

  lemma RemoveKeyDistinct<T, K>(s: seq<T>, key: T -> K, k: K)
    requires DistinctBy(s, key)
    ensures DistinctBy(RemoveKey(s, key, k), key)
  {
    FilterDistinctBy(s, OtherKey(key, k), key);
  }

  /** Deleting the key of an element just appended to a list that lacked
      it gives back the list. */
  lemma RemoveKeyUndoesAppend<T, K>(s: seq<T>, x: T, key: T -> K)
    requires !HasKey(s, key, key(x))
    ensures RemoveKey(AppendIfAbsent(s, x, key), key, key(x)) == s
  {
    FilterAppend(s, [x], OtherKey(key, key(x)));
    FilterKeepsAll(s, OtherKey(key, key(x)));
  }

  /** The recent list keeps keys distinct. */
  lemma PushRecentDistinct<T, K>(s: seq<T>, x: T, key: T -> K, cap: nat)
    requires DistinctBy(s, key)
    ensures DistinctBy(PushRecent(s, x, key, cap), key)
  {
    var rest := RemoveKey(s, key, key(x));
    RemoveKeyDistinct(s, key, key(x));
    var l := [x] + rest;
    forall i, j | 0 <= i < j < |l|
      ensures key(l[i]) != key(l[j])
    {
      if i == 0 {
        assert l[j] == rest[j - 1];
        assert !HasKey(rest, key, key(x));
      } else {
        assert l[i] == rest[i - 1] && l[j] == rest[j - 1];
      }
    }
  }

  /** Pushing the element at the front again changes nothing. */
  lemma PushRecentIdempotent<T, K>(s: seq<T>, x: T, key: T -> K, cap: nat)
    ensures PushRecent(PushRecent(s, x, key, cap), x, key, cap) == PushRecent(s, x, key, cap)
  {
    var r := PushRecent(s, x, key, cap);
    if cap > 0 {
      var rest := RemoveKey(s, key, key(x));
      var tail := r[1..];
      assert r == [x] + tail;
      assert tail <= rest;
      assert forall i :: 0 <= i < |tail| ==> key(tail[i]) != key(x) by {
        forall i | 0 <= i < |tail|
          ensures key(tail[i]) != key(x)
        {
          assert tail[i] == rest[i];
          assert !HasKey(rest, key, key(x));
        }
      }
      assert RemoveKey(r, key, key(x)) == tail by {
        FilterAppend([x], tail, OtherKey(key, key(x)));
        FilterKeepsAll(tail, OtherKey(key, key(x)));
        assert Filter([x], OtherKey(key, key(x))) == [];
      }
      assert ([x] + tail) == r;
    }
  }
}

=== FILE: login_modal.dfy ===
/** The sign-in dialog (`src/components/Auth/LoginModal.tsx`). The demo
    accepts any non-empty email and password and makes up a user from the
    email; the authentication store's `login` is left abstract, and the
    one-second pause before the check is not modelled. */
module LoginModal {
  import opened Base
  import opened Text

  datatype LoginUser = LoginUser(id: string, name: string, email: string)

  datatype Form = Form(email: string, password: string, isLoading: bool, error: string)

  const MissingFields: string := "Please fill in all fields"

  /** What one submission does: the form while waiting, the form after, the
      user passed to `login` (if any), and whether the dialog closed. */
  datatype Outcome = Outcome(during: Form, after: Form, login: Option<LoginUser>, closed: bool)

  /** `handleSubmit` */
  function Submit(f: Form): (o: Outcome)
    ensures o.during == f.(isLoading := true, error := "")
    ensures !o.after.isLoading
    ensures o.login.Some? <==> f.email != "" && f.password != ""
    ensures o.login.None? ==> o.after == f.(isLoading := false, error := MissingFields) && !o.closed
    ensures o.login.Some? ==>
      o.login.value == LoginUser("1", Before(f.email, '@'), f.email) &&
      o.closed && o.after == Form("", "", false, "")
  {
    var during := f.(isLoading := true, error := "");
    if f.email == "" || f.password == "" then
      Outcome(during, during.(isLoading := false, error := MissingFields), None, false)
    else
      Outcome(during, Form("", "", false, ""), Some(LoginUser("1", Before(f.email, '@'), f.email)), true)
  }

  /** The made-up user's name is the part of the address before its '@':
      "ann@example.com" signs in as "ann". */
  lemma NameIsLocalPart(local: string, domain: string, password: string)
    requires password != "" && '@' !in local
    ensures Submit(Form(local + "@" + domain, password, false, "")).login.value.name == local
  {
    BeforeOfJoin(local, '@', domain);
  }

  /** After a sign-in the fields are empty, so submitting again only shows
      the error and signs nobody in. */
  lemma SecondSubmitFails(f: Form)
    requires f.email != "" && f.password != ""
    ensures Submit(Submit(f).after).login.None?
    ensures Submit(Submit(f).after).after.error == MissingFields
  {
  }
}

=== FILE: mini_cart.dfy ===
/** The cart drawer (`src/components/MiniCart/MiniCart.tsx`): its totals,
    the unit count on its badge, the per-line controls, which act through
    the store's `updateCartQuantity` and `removeFromCart`, and its
    controlled or internal open state. */
module MiniCart {
  import opened Base
  import opened Types
  import Cart
  import Store

  const FreeShippingAbove: real := 100.0
  const FlatShipping: real := 10.0

  /** `item.quantity || 1`: a missing or zero quantity counts as one unit. */
  function Units(c: CartProduct): (n: int)
    ensures c.quantity.Some? && c.quantity.value != 0 ==> n == c.quantity.value
    ensures c.quantity.None? || c.quantity.value == 0 ==> n == 1
  {
    if c.quantity.Some? && c.quantity.value != 0 then c.quantity.value else 1
  }

  function LineTotal(c: CartProduct): real {
    c.product.price * Units(c) as real
  }

  /** `cart.reduce((sum, item) => sum + item.price * (item.quantity || 1), 0)` */
  function Subtotal(cart: seq<CartProduct>): real {
    SumReal(cart, LineTotal)
  }

  /** Shipping is free strictly above 100 and a flat 10 otherwise. */
  function ShippingFee(subtotal: real): (r: real)
    ensures r == 0.0 <==> subtotal > FreeShippingAbove
    ensures r == 0.0 || r == FlatShipping
  {
    if subtotal > FreeShippingAbove then 0.0 else FlatShipping
  }

  function Total(cart: seq<CartProduct>): (r: real)
    ensures r - Subtotal(cart) == ShippingFee(Subtotal(cart))
  {
    Subtotal(cart) + ShippingFee(Subtotal(cart))
  }

  /** `cart.reduce((sum, item) => sum + (item.quantity || 1), 0)` */
  function ItemCount(cart: seq<CartProduct>): int {
    SumInt(cart, Units)
  }

  /** The badge on the cart button appears when the cart has lines. */
  predicate ShowBadge(cart: seq<CartProduct>) { |cart| > 0 }

  /** On a cart that keeps the store's invariant the drawer's count is the
      store's unit count, and the badge shows exactly when that count is
      positive. */
  lemma ItemCountOfWellFormed(cart: seq<CartProduct>)
    requires Cart.WellFormed(cart)
    ensures ItemCount(cart) == Cart.TotalUnits(cart)
    ensures ShowBadge(cart) <==> ItemCount(cart) > 0
  {
    SumIntPointwise(cart, Units, Cart.Units);
    SumIntAtLeastLength(cart, Units);
  }

  /** Adding a product through the store raises the drawer's count by the
      units added. */
  lemma AddRaisesItemCount(cart: seq<CartProduct>, p: CartProduct)
    requires Cart.WellFormed(cart)
    ensures ItemCount(Cart.AddToCart(cart, p)) == ItemCount(cart) + Cart.Incoming(p)
  {
    Cart.AddToCartWellFormed(cart, p);
    ItemCountOfWellFormed(cart);
    ItemCountOfWellFormed(Cart.AddToCart(cart, p));
    Cart.AddToCartUnits(cart, p);
  }

  // ---------------------------------------------------------------------
  // Line controls, as written: each passes the line's own colour and size,
  // which the store reads as "any" when they are undefined.

  /** '−': `updateCartQuantity(id, Math.max(1, (quantity || 1) - 1), colour, size)` */
  function MinusAction(c: CartProduct): (a: Store.Action)
    ensures a.UpdateCartQuantity? && a.productId == c.id()
    ensures a.color == c.selectedColor && a.size == c.selectedSize
    ensures Units(c) >= 2 ==> a.quantity == Units(c) - 1
    ensures Units(c) < 2 ==> a.quantity == 1
  {
    Store.UpdateCartQuantity(c.id(), MaxInt(1, Units(c) - 1), c.selectedColor, c.selectedSize)
  }

  /** '+': `updateCartQuantity(id, (quantity || 1) + 1, colour, size)` */
  function PlusAction(c: CartProduct): (a: Store.Action)
    ensures a.UpdateCartQuantity? && a.productId == c.id() && a.quantity == Units(c) + 1
    ensures a.color == c.selectedColor && a.size == c.selectedSize
  {
    Store.UpdateCartQuantity(c.id(), Units(c) + 1, c.selectedColor, c.selectedSize)
  }

  /** The trash button: `removeFromCart(id, colour, size)` */
  function TrashAction(c: CartProduct): (a: Store.Action)
    ensures a.RemoveFromCart? && a.productId == c.id()
    ensures a.color == c.selectedColor && a.size == c.selectedSize
  {
    Store.RemoveFromCart(c.id(), c.selectedColor, c.selectedSize)
  }

  /** '−' never removes a line: it keeps every line and leaves the one it
      acts on with at least one unit. */
  lemma MinusKeepsEveryLine(s: Store.State, i: nat)
    requires Cart.WellFormed(s.cart) && i < |s.cart|
    ensures |Store.Step(s, MinusAction(s.cart[i])).cart| == |s.cart|
    ensures Store.Step(s, MinusAction(s.cart[i])).cart[i].quantity == Some(MaxInt(1, Units(s.cart[i]) - 1))
  {
    var c := s.cart[i];
    assert Cart.Matches(c, c.id(), c.selectedColor, c.selectedSize);
  }

  /** When the line names both its colour and its size, the store's
      selector picks exactly that line. */
  lemma MatchesExactLine(c: CartProduct, x: CartProduct)
    requires c.selectedColor.Some? && c.selectedSize.Some?
    ensures Cart.Matches(x, c.id(), c.selectedColor, c.selectedSize) <==> Cart.Key(x) == Cart.Key(c)
  {
  }

  /** For a line with both colour and size chosen, '+' and trash act on
      that line alone. */
  lemma ControlsExactForFullVariant(s: Store.State, c: CartProduct)
    requires c.selectedColor.Some? && c.selectedSize.Some?
    ensures Store.Step(s, PlusAction(c)).cart == Cart.SetLineQuantity(s.cart, Cart.Key(c), Units(c) + 1)
    ensures Store.Step(s, TrashAction(c)).cart == Cart.RemoveLine(s.cart, Cart.Key(c))
  {
    forall i | 0 <= i < |s.cart|
      ensures Cart.Matches(s.cart[i], c.id(), c.selectedColor, c.selectedSize) <==> Cart.Key(s.cart[i]) == Cart.Key(c)
    {
      MatchesExactLine(c, s.cart[i]);
    }
    FilterCongruent(s.cart, Cart.Unmatched(c.id(), c.selectedColor, c.selectedSize), Cart.WithoutLine(Cart.Key(c)));
    var plus := Store.Step(s, PlusAction(c)).cart;
    var exact := Cart.SetLineQuantity(s.cart, Cart.Key(c), Units(c) + 1);
    if Units(c) + 1 > 0 {
      assert forall i :: 0 <= i < |s.cart| ==> plus[i] == exact[i];
    }
  }

  /** A product in the cart twice, once without a variant (as the product
      card adds it) and once in red (as the detail page adds it). Trash on
      the bare line empties the cart, and '+' on it overwrites the red
      line's quantity too. */
  lemma BareLineControlsHitEveryVariant(s: Store.State, p: Product)
    requires s.cart == [CartProduct(p, Some(1), None, None), CartProduct(p, Some(3), Some("Red"), None)]
    ensures Cart.WellFormed(s.cart)
    ensures Store.Step(s, TrashAction(s.cart[0])).cart == []
    ensures Store.Step(s, PlusAction(s.cart[0])).cart[1].quantity == Some(2)
    ensures TrashLine(s.cart, s.cart[0]) == [s.cart[1]]
    ensures PlusLine(s.cart, s.cart[0])[1] == s.cart[1]
  {
    var bare := s.cart[0];
    var red := s.cart[1];
    assert Cart.Key(bare) != Cart.Key(red);
    assert Cart.Matches(red, bare.id(), None, None);
    var f := Cart.Unmatched(bare.id(), None, None);
    assert Filter([red], f) == [];
    assert s.cart == [bare] + [red];
    FilterAppend([bare], [red], f);
    var g := Cart.WithoutLine(Cart.Key(bare));
    assert Filter([red], g) == [red];
    FilterAppend([bare], [red], g);
  }

  // ---------------------------------------------------------------------
  // Line controls as evidently intended: each acts on its own line only.

  /** Trash removes exactly the line it sits on. */
  function TrashLine(cart: seq<CartProduct>, c: CartProduct): (r: seq<CartProduct>)
    ensures forall i :: 0 <= i < |r| ==> Cart.Key(r[i]) != Cart.Key(c) && r[i] in cart
    ensures forall i :: 0 <= i < |cart| && Cart.Key(cart[i]) != Cart.Key(c) ==> cart[i] in r
  {
    Cart.RemoveLine(cart, Cart.Key(c))
  }

  /** '+' raises exactly the line it sits on by one unit. */
  function PlusLine(cart: seq<CartProduct>, c: CartProduct): (r: seq<CartProduct>)
    ensures Units(c) >= 0 ==> |r| == |cart|
    ensures Units(c) >= 0 ==> forall i :: 0 <= i < |cart| ==>
      (Cart.Key(cart[i]) == Cart.Key(c) ==> r[i].quantity == Some(Units(c) + 1)) &&
      (Cart.Key(cart[i]) != Cart.Key(c) ==> r[i] == cart[i])
    ensures Units(c) < 0 ==> r == TrashLine(cart, c)
  {
    Cart.SetLineQuantity(cart, Cart.Key(c), Units(c) + 1)
  }

  /** '−' lowers exactly the line it sits on, never below one unit. */
  function MinusLine(cart: seq<CartProduct>, c: CartProduct): (r: seq<CartProduct>)
    ensures |r| == |cart|
    ensures forall i :: 0 <= i < |cart| ==>
      (Cart.Key(cart[i]) == Cart.Key(c) ==> r[i].quantity == Some(MaxInt(1, Units(c) - 1))) &&
      (Cart.Key(cart[i]) != Cart.Key(c) ==> r[i] == cart[i])
  {
    Cart.SetLineQuantity(cart, Cart.Key(c), MaxInt(1, Units(c) - 1))
  }

  lemma SetLineWellFormed(cart: seq<CartProduct>, k: Cart.LineKey, q: int)
    requires Cart.WellFormed(cart)
    ensures Cart.WellFormed(Cart.SetLineQuantity(cart, k, q))
  {
    if q <= 0 {
      Cart.RemoveLineWellFormed(cart, k);
    } else {
      var r := Cart.SetLineQuantity(cart, k, q);
      assert forall i :: 0 <= i < |cart| ==> Cart.Key(r[i]) == Cart.Key(cart[i]);
    }
  }

  /** The intended controls keep the store's cart invariant. */
  lemma LineControlsWellFormed(cart: seq<CartProduct>, c: CartProduct)
    requires Cart.WellFormed(cart)
    ensures Cart.WellFormed(TrashLine(cart, c))
    ensures Cart.WellFormed(PlusLine(cart, c))
    ensures Cart.WellFormed(MinusLine(cart, c))
  {
    Cart.RemoveLineWellFormed(cart, Cart.Key(c));
    SetLineWellFormed(cart, Cart.Key(c), Units(c) + 1);
    SetLineWellFormed(cart, Cart.Key(c), MaxInt(1, Units(c) - 1));
  }

  // ---------------------------------------------------------------------
  // Open state

  /** The `isOpen` prop when supplied, and the drawer's own flag. */
  datatype Drawer = Drawer(controlled: Option<bool>, internal: bool)

  /** `controlledOpen ?? internalOpen` */
  function IsOpen(d: Drawer): bool { d.controlled.GetOr(d.internal) }

  /** `openCart`: sets the own flag only when no prop is supplied. */
  function Open(d: Drawer): (r: Drawer)
    ensures r.controlled == d.controlled
  {
    if d.controlled.None? then d.(internal := true) else d
  }

  /** `closeCart` */
  function Close(d: Drawer): (r: Drawer)
    ensures r.controlled == d.controlled
  {
    if d.controlled.None? then d.(internal := false) else d
  }

  /** With the prop supplied the drawer shows exactly the prop, and opening
      or closing leaves the own flag alone; without it they open and close
      the drawer. */
  lemma DrawerControl(d: Drawer)
    ensures d.controlled.Some? ==>
      IsOpen(d) == d.controlled.value &&
      Open(d).internal == d.internal && Close(d).internal == d.internal &&
      IsOpen(Open(d)) == d.controlled.value && IsOpen(Close(d)) == d.controlled.value
    ensures d.controlled.None? ==> IsOpen(Open(d)) && !IsOpen(Close(d))
  {
  }
}

=== FILE: product_card.dfy ===
/** The catalogue tile (`src/components/ProductGrid/ProductCard.tsx`): the
    discount percentage, the stock badges and the add-to-cart button. */
module ProductCard {
  import opened Base
  import opened Types
  import Cart
  import Lists
  import Store
  import MockProducts

  /** `originalPrice ? Math.round((originalPrice - price) / originalPrice * 100) : 0`,
      where a zero original price is falsy. */
  function DiscountPercentage(p: Product): (r: int)
    ensures p.originalPrice.None? || p.originalPrice.value == 0.0 ==> r == 0
    ensures p.originalPrice.Some? && 0.0 < p.price <= p.originalPrice.value ==> 0 <= r <= 100
    ensures p.originalPrice.Some? && p.originalPrice.value == p.price && p.price != 0.0 ==> r == 0
    ensures p.originalPrice.Some? && p.originalPrice.value != 0.0 ==>
      var x := (p.originalPrice.value - p.price) / p.originalPrice.value * 100.0;
      x - 0.5 < r as real <= x + 0.5
  {
    if p.originalPrice.Some? && p.originalPrice.value != 0.0 then
      var o := p.originalPrice.value;
      var x := (o - p.price) / o * 100.0;
      Fraction(o - p.price, o);
      Round(x)
    else 0
  }

  /** A cut of `d` from `o`, as a share of `o`, lies in [0, 1). */
  lemma Fraction(d: real, o: real)
    requires o != 0.0
    ensures o > 0.0 && 0.0 <= d < o ==> 0.0 <= d / o < 1.0
  {
    if o > 0.0 && 0.0 <= d < o {
      var q := d / o;
      assert q * o == d;
      if q >= 1.0 {
        MulNonNegative(q - 1.0, o);
      }
      if q < 0.0 {
        MulPositive(-q, o);
      }
    }
  }

  /** A sale price within half a cent of 80 percent of an original price of
      at least 20 rounds to a 20 percent discount. */
  lemma TwentyPercentShare(o: real, c: real)
    requires o >= 20.0 && 0.8 * o - 0.005 < c <= 0.8 * o + 0.005
    ensures Round((o - c) / o * 100.0) == 20
  {
    var y := (o - c) / o;
    assert y * o == o - c;
    assert (y - 0.2) * o == 0.8 * o - c;
    assert (y - 0.2 - 0.00025) * o == (y - 0.2) * o - 0.00025 * o;
    assert (0.2 - y - 0.00025) * o == -((y - 0.2) * o) - 0.00025 * o;
    if y - 0.2 >= 0.00025 {
      MulNonNegative(y - 0.2 - 0.00025, o);
      assert false;
    }
    if 0.2 - y > 0.00025 {
      MulPositive(0.2 - y - 0.00025, o);
      assert false;
    }
    assert 19.975 <= y * 100.0 < 20.025;
  }

  predicate ShowDiscountBadge(p: Product) { DiscountPercentage(p) > 0 }

  // ---------------------------------------------------------------------
  // The heart icon

  /** `wishlist.some(item => item.product.id === product.id)` as written. The
      store's wishlist holds plain products, so `item.product` is undefined
      and reading its `id` throws on the first entry; `None` is that throw. */
  function InWishlistAsWritten(wishlist: seq<Product>, p: Product): (r: Option<bool>)
    ensures r.None? <==> wishlist != []
    ensures r.Some? ==> !r.value
  {
    if wishlist == [] then Some(false) else None
  }

  /** Once anything is on the wishlist, every card's render throws. */
  lemma WishlistedStoreBreaksEveryCard(s: Store.State, q: Product, p: Product)
    ensures InWishlistAsWritten(Store.Step(s, Store.AddToWishlist(q)).wishlist, p).None?
  {
    assert Lists.HasKey(Store.Step(s, Store.AddToWishlist(q)).wishlist, ProductId, q.id);
  }

  /** The evidently intended check: some wishlisted product has the card's
      id. */
  function InWishlist(wishlist: seq<Product>, p: Product): (r: bool)
    ensures r <==> exists i :: 0 <= i < |wishlist| && wishlist[i].id == p.id
  {
    Lists.HasKey(wishlist, ProductId, p.id)
  }

  /** The corrected heart follows the store: filled after the product is
      added, empty after it is removed, and other products' hearts keep
      their state. */
  lemma InWishlistTracksStore(s: Store.State, p: Product, q: Product)
    ensures InWishlist(Store.Step(s, Store.AddToWishlist(p)).wishlist, p)
    ensures !InWishlist(Store.Step(s, Store.RemoveFromWishlist(p.id)).wishlist, p)
    ensures q.id != p.id ==>
      (InWishlist(Store.Step(s, Store.AddToWishlist(p)).wishlist, q) <==> InWishlist(s.wishlist, q))
    ensures q.id != p.id ==>
      (InWishlist(Store.Step(s, Store.RemoveFromWishlist(p.id)).wishlist, q) <==> InWishlist(s.wishlist, q))
  {
    var added := Store.Step(s, Store.AddToWishlist(p)).wishlist;
    if q.id != p.id && InWishlist(added, q) {
      var i :| 0 <= i < |added| && added[i].id == q.id;
      assert i < |s.wishlist|;
      assert s.wishlist[i] == added[i];
    }
  }

  /** "Low Stock": `stock < 10 && stock > 0`. */
  predicate LowStockBadge(p: Product) { p.stock < 10 && p.stock > 0 }

  /** "Out of Stock" overlay: `stock === 0`. */
  predicate OutOfStockOverlay(p: Product) { p.stock == 0 }

  /** The Add to Cart button's `disabled`. */
  predicate AddDisabled(p: Product) { p.stock == 0 }

  /** The card never shows both stock signals, and its button is disabled
      exactly under the overlay. */
  lemma StockSignalsExclusive(p: Product)
    ensures !(LowStockBadge(p) && OutOfStockOverlay(p))
    ensures AddDisabled(p) <==> OutOfStockOverlay(p)
  {
  }

  /** `addToCart(product, 1)`: the store takes one argument, so the product
      goes in as it is, without quantity or variant. */
  function AddAction(p: Product): (a: Store.Action)
    ensures a.AddToCart? && a.product.product == p
    ensures Cart.Incoming(a.product) == 1
    ensures Cart.Key(a.product) == Cart.LineKey(p.id, None, None)
  {
    Store.AddToCart(CartProduct(p, None, None, None))
  }

  /** A click adds one unit to a well-formed cart. */
  lemma AddAddsOneUnit(s: Store.State, p: Product)
    requires Cart.WellFormed(s.cart)
    ensures Cart.TotalUnits(Store.Step(s, AddAction(p)).cart) == Cart.TotalUnits(s.cart) + 1
  {
    Cart.AddToCartUnits(s.cart, AddAction(p).product);
  }

  /** Every sale product of the generated catalogue shows "-20%": the sale
      price is 80 percent of the original, rounded to cents. */
  lemma CatalogSaleIsTwentyPercent(id: nat, d: MockProducts.Draws)
    requires MockProducts.ValidDraws(d) && d.discount > 0.7
    ensures DiscountPercentage(MockProducts.GenerateProduct(id, d)) == 20
  {
    var p := MockProducts.GenerateProduct(id, d);
    assert p.originalPrice.value == MockProducts.BasePrice(d);
    assert p.price == MockProducts.Cut(p.originalPrice.value, 0.8);
    TwentyPercentShare(p.originalPrice.value, p.price);
  }
}

=== FILE: product_detail.dfy ===
/** The rules of the product detail view
    (`src/components/ProductDetail/ProductDetail.tsx`): derived badges, the
    default shipping offer, volume-tier pricing, the quantity stepper, the
    button guards and the add-to-cart payload. */
module ProductDetail {
  import opened Base
  import opened Types
  import Cart
  import Lists
  import MockProducts

  // ---------------------------------------------------------------------
  // Badges

  /** `originalPrice && originalPrice > price`: a zero original price is
      falsy and earns nothing. */
  predicate OnSale(p: Product) {
    p.originalPrice.Some? && p.originalPrice.value != 0.0 && p.originalPrice.value > p.price
  }

  /** Whether the product's own data earns badge `b`. */
  predicate Earned(p: Product, b: Badge) {
    match b
    case FeaturedBadge => "featured" in p.tags
    case Sale => OnSale(p)
    case BestSeller => p.rating >= 4.6 && p.reviewCount >= 250
    case LimitedStock => 0 < p.stock < 10
    case _ => false
  }

  /** The badges added after the product's own, in the order they are
      added to the set. */
  function Earnings(p: Product): seq<Badge> {
    (if "featured" in p.tags then [FeaturedBadge] else []) +
    (if OnSale(p) then [Sale] else []) +
    (if p.rating >= 4.6 && p.reviewCount >= 250 then [BestSeller] else []) +
    (if 0 < p.stock < 10 then [LimitedStock] else [])
  }

  lemma EarningsAreEarned(p: Product, b: Badge)
    ensures b in Earnings(p) <==> Earned(p, b)
  {
  }

  /** `derivedBadges`: the product's badges and the earned ones, each once. */
  function DerivedBadges(p: Product): (r: seq<Badge>)
    ensures Distinct(r)
    ensures forall b :: b in r <==> b in p.badges.GetOr([]) || Earned(p, b)
  {
    var all := p.badges.GetOr([]) + Earnings(p);
    var r := Dedup(all);
    forall b
      ensures b in r <==> b in p.badges.GetOr([]) || Earned(p, b)
    {
      EarningsAreEarned(p, b);
      if b in all {
        var i :| 0 <= i < |all| && all[i] == b;
      }
      if b in r {
        var i :| 0 <= i < |r| && r[i] == b;
      }
    }
    r
  }

  // ---------------------------------------------------------------------
  // Shipping

  const FreeShippingFrom: real := 75.0
  const StandardCost: real := 9.99
  const ExpressCost: real := 19.99

  /** `shippingInfo`: the product's own offer, or Standard (free from 75)
      and Express. */
  function Shipping(p: Product): (r: ShippingInfo)
    ensures p.shippingInfo.Some? ==> r == p.shippingInfo.value
    ensures p.shippingInfo.None? ==>
      (r.freeShipping <==> p.price >= FreeShippingFrom) &&
      r.minDays == 3 && r.maxDays == 7 &&
      r.methods.Some? && |r.methods.value| == 2 &&
      r.methods.value[0].name == "Standard" && r.methods.value[1].name == "Express" &&
      r.cost == Some(r.methods.value[0].cost) &&
      (r.freeShipping <==> r.methods.value[0].cost == 0.0) &&
      (!r.freeShipping ==> r.methods.value[0].cost == StandardCost) &&
      r.methods.value[0].minDays == 3 && r.methods.value[0].maxDays == 7 &&
      r.methods.value[1].cost == ExpressCost &&
      r.methods.value[1].minDays == 1 && r.methods.value[1].maxDays == 3
  {
    if p.shippingInfo.Some? then p.shippingInfo.value
    else
      var free := p.price >= FreeShippingFrom;
      var standard := if free then 0.0 else StandardCost;
      ShippingInfo(free, 3, 7, Some(standard), Some([
        ShippingMethod("Standard", standard, 3, 7),
        ShippingMethod("Express", ExpressCost, 1, 3)]))
  }

  /** Without an offer of its own, a dearer product never loses free
      shipping, and Standard never costs more than Express. */
  lemma ShippingMonotone(p: Product, price: real)
    requires p.shippingInfo.None? && price >= p.price
    ensures Shipping(p).freeShipping ==> Shipping(p.(price := price)).freeShipping
    ensures Shipping(p).methods.value[0].cost <= Shipping(p).methods.value[1].cost
  {
  }

  // ---------------------------------------------------------------------
  // Volume pricing

  predicate Applies(t: VolumePrice, q: int) { q >= t.quantity }

  /** Thresholds strictly increase along the list, as in the catalogue. */
  predicate Ascending(tiers: seq<VolumePrice>) {
    forall i, j :: 0 <= i < j < |tiers| ==> tiers[i].quantity < tiers[j].quantity
  }

  /** Tier `k` is the first one the quantity reaches. */
  predicate FirstAt(tiers: seq<VolumePrice>, q: int, k: int) {
    0 <= k < |tiers| && Applies(tiers[k], q) && forall i :: 0 <= i < k ==> !Applies(tiers[i], q)
  }

  /** Tier `k` is the last one the quantity reaches. */
  predicate LastAt(tiers: seq<VolumePrice>, q: int, k: int) {
    0 <= k < |tiers| && Applies(tiers[k], q) && forall i :: k < i < |tiers| ==> !Applies(tiers[i], q)
  }

  /** `tiers.find(vp => quantity >= vp.quantity)`: the first tier in list
      order whose threshold the quantity reaches. */
  function FirstTier(tiers: seq<VolumePrice>, q: int): (r: Option<VolumePrice>)
    ensures r.None? <==> forall i :: 0 <= i < |tiers| ==> !Applies(tiers[i], q)
    ensures r.Some? ==> exists k :: FirstAt(tiers, q, k) && tiers[k] == r.value
  {
    if tiers == [] then None
    else if Applies(tiers[0], q) then Some(tiers[0])
    else
      var rest := FirstTier(tiers[1..], q);
      assert forall i :: 1 <= i < |tiers| ==> tiers[i] == tiers[1..][i - 1];
      rest
  }

  /** The tier the view selects for `quantity`. */
  function SelectedTierAsWritten(p: Product, q: int): Option<VolumePrice> {
    if p.volumePricing.Some? then FirstTier(p.volumePricing.value, q) else None
  }

  /** The index of the last tier in list order whose threshold the
      quantity reaches, or -1 when there is none. */
  function LastIndex(tiers: seq<VolumePrice>, q: int): (k: int)
    ensures -1 <= k < |tiers|
    ensures k == -1 <==> forall i :: 0 <= i < |tiers| ==> !Applies(tiers[i], q)
    ensures k >= 0 ==> LastAt(tiers, q, k)
    decreases |tiers|
  {
    if tiers == [] then -1
    else if Applies(tiers[|tiers| - 1], q) then |tiers| - 1
    else
      var init := tiers[..|tiers| - 1];
      assert forall i :: 0 <= i < |init| ==> init[i] == tiers[i];
      LastIndex(init, q)
  }

  /** The last tier in list order whose threshold the quantity reaches: on
      ascending tiers, the one with the highest threshold reached. */
  function LastTier(tiers: seq<VolumePrice>, q: int): (r: Option<VolumePrice>)
    ensures r.None? <==> forall i :: 0 <= i < |tiers| ==> !Applies(tiers[i], q)
    ensures r.Some? ==> exists k :: LastAt(tiers, q, k) && tiers[k] == r.value
  {
    var k := LastIndex(tiers, q);
    if k < 0 then None else Some(tiers[k])
  }

  /** On ascending tiers the corrected choice reaches the highest threshold
      the quantity qualifies for. */
  lemma LastTierIsBest(tiers: seq<VolumePrice>, q: int)
    requires Ascending(tiers)
    ensures LastTier(tiers, q).Some? ==>
      forall i :: 0 <= i < |tiers| && Applies(tiers[i], q) ==> tiers[i].quantity <= LastTier(tiers, q).value.quantity
  {
    var r := LastTier(tiers, q);
    if r.Some? {
      var k :| LastAt(tiers, q, k) && tiers[k] == r.value;
      forall i | 0 <= i < |tiers| && Applies(tiers[i], q)
        ensures tiers[i].quantity <= r.value.quantity
      {
        if i < k {
          assert tiers[i].quantity < tiers[k].quantity;
        }
      }
    }
  }

  /** The tier the view is evidently meant to select. */
  function SelectedTier(p: Product, q: int): Option<VolumePrice> {
    if p.volumePricing.Some? then LastTier(p.volumePricing.value, q) else None
  }

  /** `currentVolumePrice?.price || product.price` */
  function EffectivePrice(tier: Option<VolumePrice>, p: Product): (r: real)
    ensures tier.Some? && tier.value.price != 0.0 ==> r == tier.value.price
    ensures tier.None? ==> r == p.price
  {
    if tier.Some? && tier.value.price != 0.0 then tier.value.price else p.price
  }

  /** `currentVolumePrice?.discount || 0` */
  function VolumeDiscount(tier: Option<VolumePrice>): (r: real)
    ensures tier.Some? ==> r == tier.value.discount
    ensures tier.None? ==> r == 0.0
  {
    if tier.Some? && tier.value.discount != 0.0 then tier.value.discount else 0.0
  }

  /** With ascending tiers starting at threshold 1, `find` stops at the
      first tier for every quantity the stepper allows: no higher tier is
      ever selected. */
  lemma FirstTierAlwaysFirst(tiers: seq<VolumePrice>, q: int)
    requires |tiers| > 0 && tiers[0].quantity == 1 && q >= 1
    ensures FirstTier(tiers, q) == Some(tiers[0])
  {
  }

  /** A generated product bought 20 at a time still gets no volume
      discount as written; the corrected choice gives the 15 percent tier. */
  lemma TwentyUnitsGetNoDiscount(id: nat, d: MockProducts.Draws)
    requires MockProducts.ValidDraws(d)
    ensures VolumeDiscount(SelectedTierAsWritten(MockProducts.GenerateProduct(id, d), 20)) == 0.0
    ensures VolumeDiscount(SelectedTier(MockProducts.GenerateProduct(id, d), 20)) == 15.0
  {
    var p := MockProducts.GenerateProduct(id, d);
    var t := p.volumePricing.value;
    assert Applies(t[3], 20);
    var r := LastTier(t, 20);
    var k :| LastAt(t, 20, k) && t[k] == r.value;
    assert k == 3;
  }

  /** For every generated product the corrected selection picks the tier
      whose band the quantity falls in. */
  lemma CatalogTierBands(id: nat, d: MockProducts.Draws, q: int)
    requires MockProducts.ValidDraws(d) && q >= 1
    ensures var p := MockProducts.GenerateProduct(id, d);
      VolumeDiscount(SelectedTier(p, q)) ==
        if q >= 20 then 15.0 else if q >= 10 then 10.0 else if q >= 5 then 5.0 else 0.0
  {
    var t := MockProducts.GenerateProduct(id, d).volumePricing.value;
    assert Applies(t[0], q);
    var r := LastTier(t, q);
    var k :| LastAt(t, q, k) && t[k] == r.value;
    if q >= 20 { assert k == 3; }
    else if q >= 10 { assert Applies(t[2], q); assert k == 2; }
    else if q >= 5 { assert Applies(t[1], q); assert k == 1; }
    else { assert k == 0; }
  }

  /** For a discounted generated product the first tier carries the
      pre-sale base price, so the per-unit price shown is its original
      price rather than its sale price. */
  lemma SaleProductShowsBasePrice(id: nat, d: MockProducts.Draws, q: int)
    requires MockProducts.ValidDraws(d) && q >= 1 && d.discount > 0.7
    ensures var p := MockProducts.GenerateProduct(id, d);
      EffectivePrice(SelectedTierAsWritten(p, q), p) == p.originalPrice.value > p.price
  {
  }

  // ---------------------------------------------------------------------
  // Quantity stepper

  /** A change to the quantity field: the − and + buttons, or typing, where
      `parseInt` gives `None` for text that is not a number. */
  datatype QuantityEvent = Decrement | Increment | Typed(parsed: Option<int>)

  /** `Math.max(1, parseInt(value) || 1)` */
  function ParseQuantity(parsed: Option<int>): (q: int)
    ensures q >= 1
    ensures parsed.Some? && parsed.value >= 1 ==> q == parsed.value
    ensures parsed.None? || parsed.value < 1 ==> q == 1
  {
    MaxInt(1, if parsed.Some? && parsed.value != 0 then parsed.value else 1)
  }

  function NextQuantity(q: int, e: QuantityEvent): (r: int)
    ensures e.Decrement? ==> r == MaxInt(1, q - 1)
    ensures e.Increment? ==> r == q + 1
    ensures e.Typed? ==> r == ParseQuantity(e.parsed)
  {
    match e
    case Decrement => MaxInt(1, q - 1)
    case Increment => q + 1
    case Typed(parsed) => ParseQuantity(parsed)
  }

  /** The quantity after a run of events, starting from `q`. */
  function Quantity(q: int, events: seq<QuantityEvent>): int
    decreases |events|
  {
    if events == [] then q else Quantity(NextQuantity(q, events[0]), events[1..])
  }

  /** Starting from the initial 1, the quantity never drops below 1. */
  lemma {:induction false} QuantityStaysPositive(q: int, events: seq<QuantityEvent>)
    requires q >= 1
    ensures Quantity(q, events) >= 1
    decreases |events|
  {
    if events != [] {
      QuantityStaysPositive(NextQuantity(q, events[0]), events[1..]);
    }
  }

  // ---------------------------------------------------------------------
  // Buttons and payload

  /** Add to Cart and Buy Now. */
  predicate BuyDisabled(p: Product) { p.stock == 0 }

  /** Compare: already compared, or the comparison list is full. */
  predicate CompareDisabled(p: Product, comparison: seq<Product>) {
    Lists.HasKey(comparison, ProductId, p.id) || |comparison| >= 4
  }

  /** The Compare button is enabled exactly when the store's
      `addToComparison` would append the product. */
  lemma CompareEnabledIffAppends(p: Product, comparison: seq<Product>)
    ensures !CompareDisabled(p, comparison) <==>
      Lists.AppendIfRoom(comparison, p, ProductId, 4) == comparison + [p]
    ensures CompareDisabled(p, comparison) ==>
      Lists.AppendIfRoom(comparison, p, ProductId, 4) == comparison
  {
    if !CompareDisabled(p, comparison) {
      assert |Lists.AppendIfRoom(comparison, p, ProductId, 4)| == |comparison| + 1;
    } else {
      assert |Lists.AppendIfRoom(comparison, p, ProductId, 4)| != |comparison| + 1;
    }
  }

  /** The initial colour and size: the first of each list, if any. */
  function InitialColor(p: Product): (r: Option<string>)
    ensures r.Some? <==> |p.colors| > 0
    ensures r.Some? ==> r.value == p.colors[0].name
  {
    if |p.colors| > 0 then Some(p.colors[0].name) else None
  }

  function InitialSize(p: Product): (r: Option<string>)
    ensures r.Some? <==> |p.sizes| > 0
    ensures r.Some? ==> r.value == p.sizes[0]
  {
    if |p.sizes| > 0 then Some(p.sizes[0]) else None
  }

  /** `{ ...product, quantity, selectedColor, selectedSize }` */
  function Payload(p: Product, q: int, color: Option<string>, size: Option<string>): (c: CartProduct)
    ensures c.product == p && c.quantity == Some(q)
    ensures Cart.Key(c) == Cart.LineKey(p.id, color, size)
  {
    CartProduct(p, Some(q), color, size)
  }

  /** Adding the payload puts exactly the chosen number of units of the
      chosen variant into a well-formed cart. */
  lemma AddPayloadAddsQuantity(cart: seq<CartProduct>, p: Product, q: int, color: Option<string>, size: Option<string>)
    requires Cart.WellFormed(cart) && q >= 1
    ensures Cart.TotalUnits(Cart.AddToCart(cart, Payload(p, q, color, size))) == Cart.TotalUnits(cart) + q
    ensures Cart.HasLine(Cart.AddToCart(cart, Payload(p, q, color, size)), Cart.LineKey(p.id, color, size))
  {
    Cart.AddToCartUnits(cart, Payload(p, q, color, size));
    Cart.AddToCartTwiceMerges(cart, Payload(p, q, color, size));
  }
}

=== FILE: product_page.dfy ===
/** The product page (`src/pages/ProductPage.tsx`): the seeded reviews it
    shows before any are stored, the stand-in seller for products without
    one, the average rating it passes to the reviews block, and the review
    list it keeps and stores. Dates and `Date.now` ids are parameters. */
module ProductPage {
  import opened Base
  import opened Types
  import opened Text
  import opened ReviewsSection

  const Names: seq<string> := ["Avery", "Casey", "Drew", "Jamie", "Morgan", "Riley", "Skyler", "Taylor"]
  const Titles: seq<string> := ["Great value", "Solid quality", "Works as expected", "Pleasantly surprised",
    "Good for the price", "Would buy again"]
  const Comments: seq<string> := [
    "Arrived quickly and matches the description. Packaging was good and the product feels well made.",
    "Used it for a week now — performance is consistent and it looks great. Recommend it.",
    "The build quality is better than I expected. Setup was straightforward and it works nicely.",
    "Fits my needs perfectly. Shipping was fast and customer support answered my question quickly.",
    "Good overall. I wish the instructions were a bit clearer, but it’s still an excellent purchase."]

  /** How many seed reviews a product gets. */
  function SeedCount(productId: string): (n: nat)
    ensures 4 <= n <= 6
    ensures n == 4 + CharCodeSum(productId) % 3
  {
    4 + CharCodeSum(productId) % 3
  }

  /** `Math.max(3, Math.min(5, Math.round(base + ((seed + i) % 3 - 1) * 0.6)))`:
      the product's rating nudged by -0.6, 0 or +0.6, rounded and held to
      three to five stars. */
  function SeedRating(baseRating: real, seed: nat, i: nat): (r: int)
    ensures 3 <= r <= 5
    ensures var x := Round(baseRating + ((seed + i) % 3 - 1) as real * 0.6);
      (3 <= x <= 5 ==> r == x) && (x < 3 ==> r == 3) && (x > 5 ==> r == 5)
  {
    MaxInt(3, MinInt(5, Round(baseRating + ((seed + i) % 3 - 1) as real * 0.6)))
  }

  function SeedReviewId(productId: string, i: nat): string {
    "seed-" + productId + "-" + NatToString(i)
  }

  /** The `i`-th seed review; `date` is the locale date `3 * (i + 1)` days
      before now. */
  function SeedReview(productId: string, baseRating: real, i: nat, date: string): (r: Review)
    ensures r.id == SeedReviewId(productId, i) && r.userId == "seed-user-" + NatToString(i)
    ensures r.rating == SeedRating(baseRating, CharCodeSum(productId), i)
    ensures r.userName == Names[(CharCodeSum(productId) + i) % 8]
    ensures r.title == Titles[(CharCodeSum(productId) + i) % 6]
    ensures r.comment == Comments[(CharCodeSum(productId) + i) % 5]
    ensures r.helpful == (CharCodeSum(productId) + i) % 17 && 0 <= r.helpful < 17
    ensures r.verified <==> i % 2 == 0
  {
    var seed := CharCodeSum(productId);
    Review(SeedReviewId(productId, i), "seed-user-" + NatToString(i), Names[(seed + i) % |Names|],
      SeedRating(baseRating, seed, i), Titles[(seed + i) % |Titles|], Comments[(seed + i) % |Comments|],
      date, (seed + i) % 17, i % 2 == 0)
  }

  /** `generateSeedReviews(productId, baseRating)` */
  function SeedReviews(productId: string, baseRating: real, dateOf: nat -> string): (r: seq<Review>)
    ensures |r| == SeedCount(productId)
    ensures forall i :: 0 <= i < |r| ==> r[i] == SeedReview(productId, baseRating, i, dateOf(i))
    ensures forall i :: 0 <= i < |r| ==> 3 <= r[i].rating <= 5
  {
    seq(SeedCount(productId), i requires 0 <= i => SeedReview(productId, baseRating, i, dateOf(i)))
  }

  lemma SeedReviewIdInjective(productId: string, i: nat, j: nat)
    ensures SeedReviewId(productId, i) == SeedReviewId(productId, j) ==> i == j
  {
    var prefix := "seed-" + productId + "-";
    if SeedReviewId(productId, i) == SeedReviewId(productId, j) {
      assert NatToString(i) == SeedReviewId(productId, i)[|prefix|..];
      assert NatToString(j) == SeedReviewId(productId, j)[|prefix|..];
      NatToStringInjective(i, j);
    }
  }

  /** The seed reviews of one product have pairwise distinct ids. */
  lemma SeedReviewIdsDistinct(productId: string, baseRating: real, dateOf: nat -> string)
    ensures DistinctBy(SeedReviews(productId, baseRating, dateOf), (r: Review) => r.id)
  {
    var r := SeedReviews(productId, baseRating, dateOf);
    forall i, j | 0 <= i < j < |r|
      ensures r[i].id != r[j].id
    {
      SeedReviewIdInjective(productId, i, j);
    }
  }

  // ---------------------------------------------------------------------
  // Seller

  const Countries: seq<string> := ["United States", "China", "Germany", "Japan", "United Kingdom", "Canada"]

  /** `s.replace(/\s+/g, '-')`: every run of white space becomes one dash. */
  function DashSpaces(s: string): (r: string)
    ensures forall i :: 0 <= i < |r| ==> !IsSpace(r[i])
    ensures |r| <= |s|
    ensures (forall i :: 0 <= i < |s| ==> !IsSpace(s[i])) ==> r == s
    decreases |s|
  {
    if s == [] then []
    else if IsSpace(s[0]) then "-" + DashSpaces(s[LeadingSpaces(s)..])
    else [s[0]] + DashSpaces(s[1..])
  }

  /** The leading white space of `a + b` is that of `a`, unless `a` is all
      white space, when it is `a` itself as long as `b` does not go on with
      more. */
  lemma {:induction false} LeadingSpacesAppend(a: string, b: string)
    requires LeadingSpaces(a) == |a| ==> b == [] || !IsSpace(b[0])
    ensures LeadingSpaces(a + b) == LeadingSpaces(a)
    decreases |a|
  {
    if a == [] {
      assert a + b == b;
    } else if IsSpace(a[0]) {
      assert (a + b)[1..] == a[1..] + b;
      LeadingSpacesAppend(a[1..], b);
    }
  }

  /** A non-empty run of white space in front of text that does not start
      with white space becomes exactly one dash. */
  lemma DashSpacesRun(w: string, s: string)
    requires w != [] && forall i :: 0 <= i < |w| ==> IsSpace(w[i])
    requires s == [] || !IsSpace(s[0])
    ensures DashSpaces(w + s) == "-" + DashSpaces(s)
  {
    LeadingSpacesAppend(w, s);
    assert (w + s)[|w|..] == s;
  }

  /** Replacing runs works piece by piece, provided the split does not cut a
      run of white space in two. */
  lemma {:induction false} DashSpacesSplit(a: string, b: string)
    requires a == [] || b == [] || !IsSpace(a[|a| - 1]) || !IsSpace(b[0])
    ensures DashSpaces(a + b) == DashSpaces(a) + DashSpaces(b)
    decreases |a|
  {
    if a == [] {
      assert a + b == b;
    } else if !IsSpace(a[0]) {
      assert (a + b)[1..] == a[1..] + b;
      DashSpacesSplit(a[1..], b);
    } else {
      var k := LeadingSpaces(a);
      if k == |a| {
        assert IsSpace(a[|a| - 1]);
        LeadingSpacesAppend(a, b);
        assert (a + b)[k..] == b;
        assert a[k..] == [];
      } else {
        LeadingSpacesAppend(a, b);
        assert (a + b)[k..] == a[k..] + b;
        DashSpacesSplit(a[k..], b);
      }
    }
  }

  /** The seller made up from the brand when the product names none. */
  function FallbackSeller(p: Product): (s: Seller)
    ensures s.id == "seller-" + DashSpaces(ToLower(p.brand))
    ensures s.name == p.brand + " Official Store"
    ensures 3.8 <= s.rating <= 5.0 && (3.8 <= p.rating - 0.2 <= 5.0 ==> s.rating == p.rating - 0.2)
    ensures s.totalReviews >= 120 && s.totalReviews >= p.reviewCount
    ensures s.totalReviews == 120 || s.totalReviews == p.reviewCount
    ensures 94 <= s.responseRate <= 99
    ensures s.responseTime == "< 12 hours" || s.responseTime == "< 24 hours"
    ensures s.products.Some? && 200 <= s.products.value < 1400
    ensures s.country.Some? && s.country.value in Countries
  {
    var seed := CharCodeSum(p.brand);
    Seller(
      "seller-" + DashSpaces(ToLower(p.brand)),
      p.brand + " Official Store",
      MinReal(5.0, MaxReal(3.8, p.rating - 0.2)),
      MaxInt(120, p.reviewCount),
      NatToString(2017 + seed % 6),
      94 + seed % 6,
      if seed % 2 == 0 then "< 12 hours" else "< 24 hours",
      Some(200 + seed % 1200),
      Some(Countries[seed % |Countries|]))
  }

  /** The product's own seller wins; the stand-in is used only without one. */
  function SellerOf(p: Product): (s: Seller)
    ensures p.seller.Some? ==> s == p.seller.value
    ensures p.seller.None? ==> s == FallbackSeller(p)
  {
    if p.seller.Some? then p.seller.value else FallbackSeller(p)
  }

  /** The stand-in seller joined in 2017 to 2022. */
  lemma FallbackJoinedYear(p: Product)
    ensures exists y :: 2017 <= y <= 2022 && FallbackSeller(p).joinedDate == NatToString(y)
  {
    var y := 2017 + CharCodeSum(p.brand) % 6;
    assert FallbackSeller(p).joinedDate == NatToString(y);
  }

  // ---------------------------------------------------------------------
  // Average rating and the stored list

  function RatingOf(r: Review): int { r.rating }

  /** The product's rating with no reviews, else the mean review rating. */
  function AverageRating(p: Product, reviews: seq<Review>): real {
    if |reviews| == 0 then p.rating
    else SumInt(reviews, RatingOf) as real / |reviews| as real
  }

  lemma {:induction false} SumIntBetween(reviews: seq<Review>, lo: int, hi: int)
    requires forall i :: 0 <= i < |reviews| ==> lo <= reviews[i].rating <= hi
    ensures lo * |reviews| <= SumInt(reviews, RatingOf) <= hi * |reviews|
    decreases |reviews|
  {
    if reviews != [] {
      SumIntBetween(reviews[1..], lo, hi);
    }
  }

  lemma MeanBetween(total: real, n: real, lo: real, hi: real)
    requires n > 0.0 && lo * n <= total <= hi * n
    ensures lo <= total / n <= hi
  {
    var m := total / n;
    assert m * n == total;
    assert (lo - m) * n == lo * n - m * n;
    assert (m - hi) * n == m * n - hi * n;
    if m < lo {
      MulPositive(lo - m, n);
      assert false;
    }
    if m > hi {
      MulPositive(m - hi, n);
      assert false;
    }
  }

  /** When every review has one to five stars, so does the average; with
      no reviews the average is the product's own rating. */
  lemma AverageRatingInRange(p: Product, reviews: seq<Review>)
    requires forall i :: 0 <= i < |reviews| ==> 1 <= reviews[i].rating <= 5
    ensures |reviews| == 0 ==> AverageRating(p, reviews) == p.rating
    ensures |reviews| > 0 ==> 1.0 <= AverageRating(p, reviews) <= 5.0
  {
    if |reviews| > 0 {
      SumIntBetween(reviews, 1, 5);
      MeanBetween(SumInt(reviews, RatingOf) as real, |reviews| as real, 1.0, 5.0);
    }
  }

  /** The seed reviews average three to five stars. */
  lemma SeedAverageInRange(p: Product, dateOf: nat -> string)
    ensures 3.0 <= AverageRating(p, SeedReviews(p.id, p.rating, dateOf)) <= 5.0
  {
    var reviews := SeedReviews(p.id, p.rating, dateOf);
    SumIntBetween(reviews, 3, 5);
    MeanBetween(SumInt(reviews, RatingOf) as real, |reviews| as real, 3.0, 5.0);
  }

  const ReviewsCap: nat := 100

  /** `handleAddReview`: the submission, with a fresh id, today's date and
      no helpful votes, goes in front. */
  function AddReview(reviews: seq<Review>, s: Submission, id: string, date: string): (r: seq<Review>)
    ensures |r| == |reviews| + 1 && r[1..] == reviews
    ensures r[0] == Review(id, s.userId, s.userName, s.rating, s.title, s.comment, date, 0, s.verified)
  {
    [Review(id, s.userId, s.userName, s.rating, s.title, s.comment, date, 0, s.verified)] + reviews
  }

  /** What is written to storage: the first 100 reviews, and nothing at all
      for an empty list. */
  function Persist(reviews: seq<Review>): (r: Option<seq<Review>>)
    ensures r.None? <==> |reviews| == 0
    ensures r.Some? ==> r.value <= reviews && |r.value| == MinInt(|reviews|, ReviewsCap)
  {
    if |reviews| > 0 then Some(Take(reviews, ReviewsCap)) else None
  }

  /** Reloading what was stored gives back the first hundred reviews, or
      the seeds when there was nothing to store. */
  lemma ReloadKeepsFirstHundred(reviews: seq<Review>, seed: seq<Review>)
    ensures reviews == [] ==> LoadStored(Persist(reviews), seed) == seed
    ensures reviews != [] ==> LoadStored(Persist(reviews), seed) == reviews[..MinInt(|reviews|, ReviewsCap)]
  {
  }

  /** A new review is always stored, first, and the stored list never grows
      past 100 however many reviews are added. */
  lemma AddedReviewIsStored(reviews: seq<Review>, s: Submission, id: string, date: string)
    ensures var stored := Persist(AddReview(reviews, s, id, date));
      stored.Some? && stored.value[0].id == id && stored.value[0].helpful == 0 &&
      |stored.value| <= ReviewsCap
  {
  }
}

=== FILE: product_qa.dfy ===
/** Questions and answers on the product page
    (`src/components/ProductQA/ProductQA.tsx`): the two seeded questions,
    asking a new one, the helpful counter and the stored list. Dates and
    `Date.now` ids are parameters. */
module ProductQA {
  import opened Base
  import opened Types
  import opened Text

  datatype Canned = Canned(q: string, a: string)

  const Questions: seq<Canned> := [
    Canned("Is this item covered by a warranty?",
      "Yes — it includes a 12-month limited warranty. Please keep your receipt."),
    Canned("Does this come with all accessories shown in the pictures?",
      "It ships with the standard accessories listed in the product description. Photos may include optional add-ons."),
    Canned("Can I return this if it doesn't fit/meet expectations?",
      "Yes — we offer a 30-day return policy for unused items in original packaging."),
    Canned("How fast can you ship this?",
      "Most orders ship within 24–48 hours. Delivery speed depends on your selected shipping method.")
  ]

  const Askers: seq<string> := ["Alex", "Jordan", "Sam", "Taylor"]

  /** `sellerName ? `${sellerName} (Seller)` : 'Seller'`, where an empty
      name is falsy. */
  function AnsweredBy(sellerName: Option<string>): (r: string)
    ensures sellerName.Some? && sellerName.value != "" ==> r == sellerName.value + " (Seller)"
    ensures sellerName.None? || sellerName.value == "" ==> r == "Seller"
  {
    if sellerName.Some? && sellerName.value != "" then sellerName.value + " (Seller)" else "Seller"
  }

  /** The `idx`-th seed question; `daysAgo(n)` is the locale date `n` days
      before now. */
  function SeedQuestion(productId: string, sellerName: Option<string>, idx: nat, daysAgo: nat -> string)
    : (r: ProductQuestion)
    ensures r.id == "seed-" + productId + "-" + NatToString(idx) && r.userId == "seed-user"
    ensures r.userName == Askers[(CharCodeSum(productId) + idx) % 4]
    ensures r.question == Questions[(CharCodeSum(productId) + idx) % 4].q
    ensures r.answer == Some(Answer(Questions[(CharCodeSum(productId) + idx) % 4].a, AnsweredBy(sellerName), daysAgo(idx + 1)))
    ensures r.date == daysAgo(idx + 2)
    ensures r.helpful == (CharCodeSum(productId) + idx) % 12
  {
    var seed := CharCodeSum(productId);
    var item := Questions[(seed + idx) % |Questions|];
    ProductQuestion("seed-" + productId + "-" + NatToString(idx), "seed-user", Askers[(seed + idx) % 4],
      item.q, daysAgo(idx + 2), Some(Answer(item.a, AnsweredBy(sellerName), daysAgo(idx + 1))),
      (seed + idx) % 12)
  }

  /** `generateSeedQuestions(productId, sellerName)`: two consecutive canned
      questions, answered, starting at `seed % 4`. */
  function SeedQuestions(productId: string, sellerName: Option<string>, daysAgo: nat -> string)
    : (r: seq<ProductQuestion>)
    ensures |r| == 2
    ensures r[0] == SeedQuestion(productId, sellerName, 0, daysAgo)
    ensures r[1] == SeedQuestion(productId, sellerName, 1, daysAgo)
  {
    [SeedQuestion(productId, sellerName, 0, daysAgo), SeedQuestion(productId, sellerName, 1, daysAgo)]
  }

  /** The two seeded questions are different canned questions, with
      different ids, and both are answered. */
  lemma SeedQuestionsDiffer(productId: string, sellerName: Option<string>, daysAgo: nat -> string)
    ensures var r := SeedQuestions(productId, sellerName, daysAgo);
      r[0].question != r[1].question && r[0].id != r[1].id && r[0].answer.Some? && r[1].answer.Some?
  {
    var r := SeedQuestions(productId, sellerName, daysAgo);
    var seed := CharCodeSum(productId);
    assert (seed + 1) % 4 != seed % 4;
    assert NatToString(0) == "0" && NatToString(1) == "1";
    assert r[0].id[|r[0].id| - 1] != r[1].id[|r[1].id| - 1];
  }

  // ---------------------------------------------------------------------
  // Asking and voting

  datatype Panel = Panel(questions: seq<ProductQuestion>, draft: string, showForm: bool)

  /** `handleAsk`, with `id` and `date` the values `Date.now` gives. */
  function Ask(p: Panel, id: string, date: string): (r: Panel)
    ensures IsBlank(p.draft) ==> r == p
    ensures !IsBlank(p.draft) ==>
      r.questions == [ProductQuestion(id, "current-user", "You", Trim(p.draft), date, None, 0)] + p.questions &&
      r.draft == "" && !r.showForm
  {
    if IsBlank(p.draft) then p
    else Panel([ProductQuestion(id, "current-user", "You", Trim(p.draft), date, None, 0)] + p.questions, "", false)
  }

  /** The asked question carries no surrounding white space, and asking
      again before typing anything changes nothing. */
  lemma AskTrimsAndClears(p: Panel, id: string, date: string, id2: string, date2: string)
    requires !IsBlank(p.draft)
    ensures var q := Ask(p, id, date).questions[0].question;
      q != [] && !IsSpace(q[0]) && !IsSpace(q[|q| - 1])
    ensures Ask(Ask(p, id, date), id2, date2) == Ask(p, id, date)
  {
  }

  function Vote(q: ProductQuestion, id: string): ProductQuestion {
    if q.id == id then q.(helpful := q.helpful + 1) else q
  }

  /** `markHelpful(id)` */
  function MarkHelpful(questions: seq<ProductQuestion>, id: string): (r: seq<ProductQuestion>)
    ensures |r| == |questions|
    ensures forall i :: 0 <= i < |questions| ==>
      (questions[i].id == id ==> r[i] == questions[i].(helpful := questions[i].helpful + 1)) &&
      (questions[i].id != id ==> r[i] == questions[i])
  {
    Map(questions, (q: ProductQuestion) => Vote(q, id))
  }

  function HelpfulOf(q: ProductQuestion): int { q.helpful }

  function HasId(id: string): ProductQuestion -> bool {
    (q: ProductQuestion) => q.id == id
  }

  /** A vote adds one helpful mark per question carrying the id. */
  lemma {:induction false} VotesAdded(questions: seq<ProductQuestion>, id: string)
    ensures SumInt(MarkHelpful(questions, id), HelpfulOf) == SumInt(questions, HelpfulOf) + Count(questions, HasId(id))
    decreases |questions|
  {
    if questions != [] {
      assert MarkHelpful(questions, id)[1..] == MarkHelpful(questions[1..], id);
      VotesAdded(questions[1..], id);
    }
  }

  /** With unique ids, a vote on a listed question adds exactly one helpful
      mark across the whole list. */
  lemma MarkHelpfulAddsOneVote(questions: seq<ProductQuestion>, id: string, i: nat)
    requires DistinctBy(questions, (q: ProductQuestion) => q.id)
    requires i < |questions| && questions[i].id == id
    ensures SumInt(MarkHelpful(questions, id), HelpfulOf) == SumInt(questions, HelpfulOf) + 1
  {
    VotesAdded(questions, id);
    forall j | 0 <= j < |questions| && j != i
      ensures questions[j].id != id
    {
    }
    OnlyOneWithId(questions, id, i);
  }

  lemma {:induction false} OnlyOneWithId(questions: seq<ProductQuestion>, id: string, i: nat)
    requires i < |questions| && questions[i].id == id
    requires forall j :: 0 <= j < |questions| && j != i ==> questions[j].id != id
    ensures Count(questions, HasId(id)) == 1
    decreases |questions|
  {
    if i == 0 {
      FilterDropsAll(questions[1..], HasId(id));
    } else {
      OnlyOneWithId(questions[1..], id, i - 1);
    }
  }

  // ---------------------------------------------------------------------
  // Storage

  const QuestionsCap: nat := 50

  /** What is written to storage: nothing for an empty list, else the first
      fifty questions. */
  function Persist(questions: seq<ProductQuestion>): (r: Option<seq<ProductQuestion>>)
    ensures r.None? <==> |questions| == 0
    ensures r.Some? ==> r.value <= questions && |r.value| == MinInt(|questions|, QuestionsCap)
  {
    if |questions| == 0 then None else Some(Take(questions, QuestionsCap))
  }

  /** Reloading what was stored gives back the first fifty questions, or
      the seeds when there was nothing to store. */
  lemma ReloadKeepsFirstFifty(questions: seq<ProductQuestion>, seed: seq<ProductQuestion>)
    ensures questions == [] ==> LoadStored(Persist(questions), seed) == seed
    ensures questions != [] ==> LoadStored(Persist(questions), seed) == questions[..MinInt(|questions|, QuestionsCap)]
  {
  }

  /** A question just asked is always stored, in front. */
  lemma AskedQuestionIsStored(p: Panel, id: string, date: string)
    requires !IsBlank(p.draft)
    ensures var stored := Persist(Ask(p, id, date).questions);
      stored.Some? && stored.value[0].id == id && stored.value[0].question == Trim(p.draft) &&
      |stored.value| <= QuestionsCap
  {
  }
}

=== FILE: recommendations.dfy ===
/** `RecommendationService` of `src/services/recommendationService.ts`:
    additive scores, exclusion of the focal or purchased products, a static
    table of complementary categories, and top-k selection by a stable sort
    on the score. */
module Recommendations {
  import opened Base
  import opened Types
  import opened StableSort

  const DefaultSimilarLimit: nat := 4
  const DefaultBundleLimit: nat := 3
  const DefaultTrendingLimit: nat := 8
  const DefaultPersonalizedLimit: nat := 6

  /** `Math.min(a, b) / Math.max(a, b)`; a zero maximum, where the division
      would give NaN, is scored 0. */
  function PriceRatio(a: real, b: real): (r: real)
    ensures a > 0.0 && b > 0.0 ==> 0.0 < r <= 1.0
    ensures a > 0.0 && b > 0.0 ==> (r == 1.0 <==> a == b)
  {
    if MaxReal(a, b) == 0.0 then 0.0 else MinReal(a, b) / MaxReal(a, b)
  }

  /** The focal product's tags that the candidate also carries, repeats
      included. */
  function CommonTags(focal: Product, p: Product): (r: seq<string>)
    ensures |r| <= |focal.tags|
    ensures forall i :: 0 <= i < |r| ==> r[i] in focal.tags && r[i] in p.tags
  {
    Filter(focal.tags, t => t in p.tags)
  }

  /** `calculateSimilarity(focal, p)` */
  function Similarity(focal: Product, p: Product): (r: real)
    ensures focal.price > 0.0 && p.price > 0.0 && 0.0 <= p.rating <= 5.0 ==>
      0.0 <= r <= 3.0 + 2.0 + 2.0 + 0.5 * |focal.tags| as real + 1.5
  {
    (if focal.category == p.category then 3.0 else 0.0) +
    (if focal.brand == p.brand then 2.0 else 0.0) +
    PriceRatio(focal.price, p.price) * 2.0 +
    |CommonTags(focal, p)| as real * 0.5 +
    (p.rating / 5.0) * 1.5
  }

  function SimilarityTo(focal: Product): Product -> real {
    p => Similarity(focal, p)
  }

  function NotFocal(focal: Product): Product -> bool {
    (p: Product) => p.id != focal.id
  }

  /** `getSimilarProducts(focal, limit)` */
  function GetSimilarProducts(products: seq<Product>, focal: Product, limit: nat): (r: seq<Product>)
    ensures |r| == MinInt(limit, |Filter(products, NotFocal(focal))|)
    ensures forall i :: 0 <= i < |r| ==> r[i].id != focal.id && r[i] in products
    ensures NonIncreasing(r, SimilarityTo(focal))
  {
    var candidates := Filter(products, NotFocal(focal));
    var ranked := SortDesc(Tag(candidates, SimilarityTo(focal)), Score);
    var r := Untag(Take(ranked, limit));
    TopByScore(candidates, SimilarityTo(focal), limit);
    r
  }

  /** Scoring, sorting the pairs, slicing and unwrapping is the first
      `limit` elements of the stable sort by the score. */
  lemma TopByScore(candidates: seq<Product>, key: Product -> real, limit: nat)
    ensures Untag(Take(SortDesc(Tag(candidates, key), Score), limit)) == Take(SortDesc(candidates, key), limit)
    ensures forall i :: 0 <= i < |Take(SortDesc(candidates, key), limit)| ==>
      Take(SortDesc(candidates, key), limit)[i] in candidates
    ensures NonIncreasing(Take(SortDesc(candidates, key), limit), key)
  {
    var ranked := SortDesc(Tag(candidates, key), Score);
    SortTaggedIsSortByScore(candidates, key);
    assert Untag(Take(ranked, limit)) == Take(Untag(ranked), limit);
    var sorted := SortDesc(candidates, key);
    forall i | 0 <= i < |Take(sorted, limit)|
      ensures Take(sorted, limit)[i] in candidates
    {
      SortDescMembers(candidates, key, sorted[i]);
    }
    TakeNonIncreasing(sorted, key, limit);
  }

  /** The similar products are the most similar candidates other than the
      focal one, in stable order: ties keep their catalogue order. */
  lemma SimilarIsStableTop(products: seq<Product>, focal: Product, limit: nat)
    ensures GetSimilarProducts(products, focal, limit)
      == Take(SortDesc(Filter(products, NotFocal(focal)), SimilarityTo(focal)), limit)
  {
    TopByScore(Filter(products, NotFocal(focal)), SimilarityTo(focal), limit);
  }

  /** The complementary-category table; a category outside it has none.
      `BundleOutcome` handles the names the table's object literal inherits,
      where the lookup finds no list. */
  function Complementary(category: string): (r: seq<string>)
    ensures |r| == 0 || |r| == 2
    ensures |r| == 2 ==> r[0] == category
  {
    if category == "Electronics" then ["Electronics", "Home & Garden"]
    else if category == "Fashion" then ["Fashion", "Sports"]
    else if category == "Home & Garden" then ["Home & Garden", "Electronics"]
    else if category == "Sports" then ["Sports", "Fashion"]
    else if category == "Books" then ["Books", "Toys"]
    else if category == "Toys" then ["Toys", "Books"]
    else []
  }

  /** The table is symmetric, and a category is complementary to itself
      exactly when the table knows it. */
  lemma ComplementarySymmetric(a: string, b: string)
    ensures b in Complementary(a) <==> a in Complementary(b)
    ensures a in Complementary(a) <==> Complementary(a) != []
  {
  }

  function BundleCandidate(focal: Product): Product -> bool {
    (p: Product) => p.id != focal.id && p.category in Complementary(focal.category)
  }

  function Rating(p: Product): real { p.rating }

  /** `getBundleRecommendations(focal, limit)` */
  function GetBundleRecommendations(products: seq<Product>, focal: Product, limit: nat): (r: seq<Product>)
    ensures |r| == MinInt(limit, |Filter(products, BundleCandidate(focal))|)
    ensures forall i :: 0 <= i < |r| ==>
      r[i] in products && r[i].id != focal.id && r[i].category in Complementary(focal.category)
    ensures NonIncreasing(r, Rating)
  {
    var sorted := SortDesc(Filter(products, BundleCandidate(focal)), Rating);
    forall i | 0 <= i < |sorted|
      ensures sorted[i] in Filter(products, BundleCandidate(focal))
    {
      SortDescMembers(Filter(products, BundleCandidate(focal)), Rating, sorted[i]);
    }
    TakeNonIncreasing(sorted, Rating, limit);
    Take(sorted, limit)
  }

  /** The bundle is the `limit` best-rated complementary candidates, ties
      in catalogue order. */
  lemma BundleIsStableTop(products: seq<Product>, focal: Product, limit: nat)
    ensures GetBundleRecommendations(products, focal, limit)
      == Take(SortDesc(Filter(products, BundleCandidate(focal)), Rating), limit)
  {
  }

  /** A complementary candidate left out of the bundle means the bundle is
      full and every product in it is rated at least as high. */
  lemma BundleIsTop(products: seq<Product>, focal: Product, limit: nat, p: Product)
    requires p in products && p.id != focal.id && p.category in Complementary(focal.category)
    requires p !in GetBundleRecommendations(products, focal, limit)
    ensures |GetBundleRecommendations(products, focal, limit)| == limit
    ensures forall i :: 0 <= i < limit ==> GetBundleRecommendations(products, focal, limit)[i].rating >= p.rating
  {
    TakeSortedIsTop(Filter(products, BundleCandidate(focal)), Rating, limit, p);
  }

  /** The property names every object literal inherits from
      `Object.prototype`: looking one up in the table finds a function or an
      object, which `|| []` keeps. */
  const PrototypeKeys: set<string> := {
    "constructor", "hasOwnProperty", "isPrototypeOf", "propertyIsEnumerable",
    "toLocaleString", "toString", "valueOf", "__proto__",
    "__defineGetter__", "__defineSetter__", "__lookupGetter__", "__lookupSetter__"}

  predicate HasOther(products: seq<Product>, focal: Product) {
    exists i :: 0 <= i < |products| && products[i].id != focal.id
  }

  /** `getBundleRecommendations` with its exception path: for an inherited
      name the value found has no `includes`, so the filter throws (`None`)
      at the first product other than the focal one, and `&&` spares the
      focal product itself. Every other category gets the bundle. */
  function BundleOutcome(products: seq<Product>, focal: Product, limit: nat): (r: Option<seq<Product>>)
    ensures r.None? <==> focal.category in PrototypeKeys && HasOther(products, focal)
    ensures r.Some? ==> r.value == GetBundleRecommendations(products, focal, limit)
  {
    if focal.category in PrototypeKeys && HasOther(products, focal) then None
    else Some(GetBundleRecommendations(products, focal, limit))
  }

  /** A focal product whose category the table does not know gets no
      bundle, unless the category is an inherited name and another product
      is on offer, when the call throws instead. */
  lemma UnknownCategoryNoBundle(products: seq<Product>, focal: Product, limit: nat)
    requires Complementary(focal.category) == []
    ensures GetBundleRecommendations(products, focal, limit) == []
    ensures BundleOutcome(products, focal, limit) ==
      (if focal.category in PrototypeKeys && HasOther(products, focal) then None else Some([]))
  {
    FilterDropsAll(products, BundleCandidate(focal));
  }

  /** A focal product from one of the table's six categories never reaches
      the exception path. */
  lemma KnownCategoryNeverThrows(products: seq<Product>, focal: Product, limit: nat)
    requires Complementary(focal.category) != []
    ensures BundleOutcome(products, focal, limit) == Some(GetBundleRecommendations(products, focal, limit))
  {
    assert focal.category !in PrototypeKeys;
  }

  /** `rating * reviewCount` */
  function TrendScore(p: Product): real { p.rating * p.reviewCount as real }

  /** `getTrendingProducts(limit)`: sorts a copy, the catalogue keeps its
      order. No product appears more often than in the catalogue. */
  function GetTrendingProducts(products: seq<Product>, limit: nat): (r: seq<Product>)
    ensures |r| == MinInt(limit, |products|)
    ensures forall i :: 0 <= i < |r| ==> r[i] in products
    ensures multiset(r) <= multiset(products)
    ensures NonIncreasing(r, TrendScore)
  {
    var sorted := SortDesc(products, TrendScore);
    forall i | 0 <= i < |sorted|
      ensures sorted[i] in products
    {
      SortDescMembers(products, TrendScore, sorted[i]);
    }
    TakeNonIncreasing(sorted, TrendScore, limit);
    var r := Take(sorted, limit);
    assert sorted == r + sorted[|r|..];
    assert multiset(sorted) == multiset(r) + multiset(sorted[|r|..]);
    r
  }

  /** The trending list is the first `limit` products of the stable sort by
      rating times review count: ties keep their catalogue order. */
  lemma TrendingIsStableTop(products: seq<Product>, limit: nat)
    ensures GetTrendingProducts(products, limit) == Take(SortDesc(products, TrendScore), limit)
  {
  }

  /** A product left out of the trending list means the list is full and
      every product in it scores at least as high. */
  lemma TrendingLeavesOutOnlyLower(products: seq<Product>, limit: nat, p: Product)
    requires p in products && p !in GetTrendingProducts(products, limit)
    ensures |GetTrendingProducts(products, limit)| == limit
    ensures forall i :: 0 <= i < limit ==> TrendScore(GetTrendingProducts(products, limit)[i]) >= TrendScore(p)
  {
    TakeSortedIsTop(products, TrendScore, limit, p);
  }

  /** A product outside the trending list scores no higher than the last
      one in it. */
  lemma TrendingIsTop(products: seq<Product>, limit: nat, i: nat)
    requires i < |products| && 0 < limit < |products|
    requires products[i] !in GetTrendingProducts(products, limit)
    ensures TrendScore(products[i]) <= TrendScore(GetTrendingProducts(products, limit)[limit - 1])
  {
    var sorted := SortDesc(products, TrendScore);
    SortDescMembers(products, TrendScore, products[i]);
    var j :| 0 <= j < |sorted| && sorted[j] == products[i];
    assert Take(sorted, limit) == sorted[..limit];
  }

  /** `viewed.filter(c => c === x).length` */
  function Occurrences(s: seq<string>, x: string): (n: nat)
    ensures n <= |s|
  {
    |Filter(s, c => c == x)|
  }

  /** `calculatePersonalizationScore(p, viewedCategories, viewedBrands)` */
  function PersonalScore(p: Product, viewedCategories: seq<string>, viewedBrands: seq<string>): (r: real)
    ensures p.rating >= 0.0 && p.reviewCount >= 0 ==> r >= 0.0
  {
    p.rating * 2.0 +
    Occurrences(viewedCategories, p.category) as real * 3.0 +
    Occurrences(viewedBrands, p.brand) as real * 2.0 +
    (p.reviewCount as real / 100.0) * 0.5
  }

  function Category(p: Product): string { p.category }
  function Brand(p: Product): string { p.brand }

  function PersonalKey(viewed: seq<Product>): Product -> real {
    p => PersonalScore(p, Map(viewed, Category), Map(viewed, Brand))
  }

  function NotPurchased(purchasedIds: seq<string>): Product -> bool {
    (p: Product) => p.id !in purchasedIds
  }

  /** `getPersonalizedRecommendations(viewed, purchased, limit)` */
  function GetPersonalizedRecommendations(products: seq<Product>, viewed: seq<Product>, purchased: seq<Product>, limit: nat)
    : (r: seq<Product>)
    ensures |r| == MinInt(limit, |Filter(products, NotPurchased(Map(purchased, ProductId)))|)
    ensures forall i :: 0 <= i < |r| ==> r[i] in products
    ensures forall i, j :: 0 <= i < |r| && 0 <= j < |purchased| ==> r[i].id != purchased[j].id
    ensures NonIncreasing(r, PersonalKey(viewed))
  {
    var purchasedIds := Map(purchased, ProductId);
    var candidates := Filter(products, NotPurchased(purchasedIds));
    var ranked := SortDesc(Tag(candidates, PersonalKey(viewed)), Score);
    TopByScore(candidates, PersonalKey(viewed), limit);
    var r := Untag(Take(ranked, limit));
    assert forall i :: 0 <= i < |r| ==> r[i] in candidates;
    forall i, j | 0 <= i < |r| && 0 <= j < |purchased|
      ensures r[i].id != purchased[j].id
    {
      assert purchasedIds[j] == purchased[j].id;
    }
    r
  }

  /** The personalised list is the `limit` best-scoring products not yet
      purchased, ties in catalogue order. */
  lemma PersonalizedIsStableTop(products: seq<Product>, viewed: seq<Product>, purchased: seq<Product>, limit: nat)
    ensures GetPersonalizedRecommendations(products, viewed, purchased, limit)
      == Take(SortDesc(Filter(products, NotPurchased(Map(purchased, ProductId))), PersonalKey(viewed)), limit)
  {
    TopByScore(Filter(products, NotPurchased(Map(purchased, ProductId))), PersonalKey(viewed), limit);
  }

  /** A product never purchased but left out of the list means the list is
      full and every product in it scores at least as high. */
  lemma PersonalizedIsTop(products: seq<Product>, viewed: seq<Product>, purchased: seq<Product>, limit: nat, p: Product)
    requires p in products
    requires forall j :: 0 <= j < |purchased| ==> purchased[j].id != p.id
    requires p !in GetPersonalizedRecommendations(products, viewed, purchased, limit)
    ensures |GetPersonalizedRecommendations(products, viewed, purchased, limit)| == limit
    ensures forall i :: 0 <= i < limit ==>
      PersonalKey(viewed)(GetPersonalizedRecommendations(products, viewed, purchased, limit)[i]) >= PersonalKey(viewed)(p)
  {
    var purchasedIds := Map(purchased, ProductId);
    PersonalizedIsStableTop(products, viewed, purchased, limit);
    assert p.id !in purchasedIds;
    TakeSortedIsTop(Filter(products, NotPurchased(purchasedIds)), PersonalKey(viewed), limit, p);
  }

  /** Viewing one more product raises a candidate's score by 3 if the
      categories agree and by 2 if the brands agree. */
  lemma ViewingRaisesScore(p: Product, viewed: seq<Product>, v: Product)
    ensures PersonalKey(viewed + [v])(p) ==
      PersonalKey(viewed)(p) +
      (if v.category == p.category then 3.0 else 0.0) +
      (if v.brand == p.brand then 2.0 else 0.0)
  {
    var cats := Map(viewed, Category);
    var brands := Map(viewed, Brand);
    assert Map(viewed + [v], Category) == cats + [v.category];
    assert Map(viewed + [v], Brand) == brands + [v.brand];
    FilterAppend(cats, [v.category], c => c == p.category);
    FilterAppend(brands, [v.brand], c => c == p.brand);
  }

  /** Viewed products are not excluded: when every candidate fits within the
      limit, a viewed product that was never purchased is recommended. */
  lemma ViewedNotExcluded(products: seq<Product>, viewed: seq<Product>, purchased: seq<Product>, limit: nat, i: nat)
    requires i < |products| && |products| <= limit
    requires forall j :: 0 <= j < |purchased| ==> purchased[j].id != products[i].id
    ensures products[i] in GetPersonalizedRecommendations(products, viewed, purchased, limit)
  {
    var purchasedIds := Map(purchased, ProductId);
    var candidates := Filter(products, NotPurchased(purchasedIds));
    TopByScore(candidates, PersonalKey(viewed), limit);
    assert products[i].id !in purchasedIds;
    assert products[i] in candidates;
    SortDescMembers(candidates, PersonalKey(viewed), products[i]);
  }

  /** `getRecommendations(focal)`: three groups with fixed limits. */
  function GetRecommendations(products: seq<Product>, focal: Product): (r: seq<Recommendation>)
    ensures |r| == 3
    ensures r[0].kind == SimilarKind && r[0].products == GetSimilarProducts(products, focal, DefaultSimilarLimit)
    ensures r[1].kind == BundleKind && r[1].products == GetBundleRecommendations(products, focal, DefaultBundleLimit)
    ensures r[2].kind == TrendingKind && r[2].products == GetTrendingProducts(products, 4)
    ensures r[0].reason.Some? && r[1].reason.Some? && r[2].reason.Some?
  {
    var similar := GetSimilarProducts(products, focal, DefaultSimilarLimit);
    var bundle := GetBundleRecommendations(products, focal, DefaultBundleLimit);
    var trending := GetTrendingProducts(products, 4);
    [Recommendation(SimilarKind, similar, Some("Customers who viewed this also viewed")),
     Recommendation(BundleKind, bundle, Some("Frequently bought together")),
     Recommendation(TrendingKind, trending, Some("Trending now"))]
  }

  /** Equal categories add exactly 3 to the similarity, equal brands 2. */
  lemma SimilarityIsAdditive(focal: Product, p: Product, other: string)
    requires other != focal.category && other != focal.brand
    ensures Similarity(focal, p.(category := focal.category)) == Similarity(focal, p.(category := other)) + 3.0
    ensures Similarity(focal, p.(brand := focal.brand)) == Similarity(focal, p.(brand := other)) + 2.0
  {
    assert CommonTags(focal, p.(category := focal.category)) == CommonTags(focal, p.(category := other));
    assert CommonTags(focal, p.(brand := focal.brand)) == CommonTags(focal, p.(brand := other));
  }
}

=== FILE: reorder.dfy ===
/** The "Quick Reorder" panel (`src/components/OneClickReorder/OneClickReorder.tsx`):
    its three sample orders, the reorder button that adds every item of an
    order to the cart, and the relative date shown for each order. The
    current time and the locale date text are parameters. */
module OneClickReorder {
  import opened Base
  import opened Types
  import Cart
  import Store

  datatype OrderItem = OrderItem(productId: string, productName: string, quantity: int, price: real, image: string)

  datatype PreviousOrder = PreviousOrder(id: string, date: string, total: real, items: seq<OrderItem>)

  const MockOrders: seq<PreviousOrder> := [
    PreviousOrder("order-1", "2024-01-15", 156.97, [
      OrderItem("prod-1", "Premium Wireless Headphones", 1, 129.99,
        "https://images.unsplash.com/photo-1505740420928-5e560c06d30e?w=400"),
      OrderItem("prod-2", "USB-C Charging Cable", 2, 13.49,
        "https://images.unsplash.com/photo-1546868871-7041f2a55e12?w=400")]),
    PreviousOrder("order-2", "2024-01-02", 89.99, [
      OrderItem("prod-3", "Bluetooth Speaker", 1, 89.99,
        "https://images.unsplash.com/photo-1608043152269-423dbba4e7e1?w=400")]),
    PreviousOrder("order-3", "2023-12-20", 249.99, [
      OrderItem("prod-4", "Smart Watch Pro", 1, 249.99,
        "https://images.unsplash.com/photo-1523275335684-37898b6baf30?w=400")])
  ]

  function ItemTotal(i: OrderItem): real { i.price * i.quantity as real }

  /** The sum of price times quantity over an order's items. */
  function ItemsTotal(items: seq<OrderItem>): real {
    SumReal(items, ItemTotal)
  }

  /** Every sample order states the total of its own items, and their
      product ids are distinct. */
  lemma MockOrdersConsistent()
    ensures forall o :: o in MockOrders ==> o.total == ItemsTotal(o.items)
    ensures forall o :: o in MockOrders ==>
      forall a, b :: 0 <= a < b < |o.items| ==> o.items[a].productId != o.items[b].productId
  {
    assert ItemsTotal(MockOrders[0].items) == 129.99 + 2.0 * 13.49;
  }

  /** `if (!isAuthenticated) return null`. The panel reads the flag from
      `src/store/authStore`, which is not part of this model; the flag of
      `useAuthStore` in `src/store/useStore.ts` stands in for it. */
  predicate Visible(auth: Store.AuthState) { auth.isAuthenticated }

  /** The stand-in product built for an order item. */
  function ReorderProduct(i: OrderItem): (p: Product)
    ensures p.id == i.productId && p.name == i.productName && p.price == i.price
    ensures p.images == [i.image] && p.stock == 10 && p.specifications == []
  {
    Product(i.productId, i.productName, "Reorder item", i.price, None, "Electronics", "Accessories",
      "Unknown", 4.5, 100, [i.image], [], [], 10, [], [], [], None, None, None, None)
  }

  /** The `addToCart` argument for an order item: its quantity, no variant. */
  function ReorderLine(i: OrderItem): (c: CartProduct)
    ensures c.product == ReorderProduct(i) && c.quantity == Some(i.quantity)
    ensures Cart.Key(c) == Cart.LineKey(i.productId, None, None)
  {
    CartProduct(ReorderProduct(i), Some(i.quantity), None, None)
  }

  /** `handleReorder(order)`: one add per item, in order. */
  function Reorder(order: PreviousOrder): (r: seq<Store.Action>)
    ensures |r| == |order.items|
    ensures forall k :: 0 <= k < |order.items| ==> r[k] == Store.AddToCart(ReorderLine(order.items[k]))
  {
    Store.AddActions(Map(order.items, ReorderLine))
  }

  /** Reordering adds to a line exactly the units the order's items with that
      line's identity bring, so a second reorder of the same order adds the
      same again: the order's share of every line doubles. */
  lemma ReorderTwiceDoubles(s: Store.State, order: PreviousOrder, k: Cart.LineKey)
    requires Cart.WellFormed(s.cart)
    ensures var once := Store.Run(s, Reorder(order));
      var twice := Store.Run(once, Reorder(order));
      Cart.WellFormed(twice.cart) &&
      Cart.LineUnits(twice.cart, k) - Cart.LineUnits(s.cart, k) ==
        2 * (Cart.LineUnits(once.cart, k) - Cart.LineUnits(s.cart, k))
  {
    var lines := Map(order.items, ReorderLine);
    Store.RunAddActions(s, lines);
    var once := Store.Run(s, Reorder(order));
    Cart.AddEachUnits(s.cart, lines, k);
    Store.RunAddActions(once, lines);
    Cart.AddEachUnits(once.cart, lines, k);
  }

  /** Into an empty cart, an order whose product ids are distinct and whose
      quantities are at least one lands as one line per item carrying that
      item's quantity; a second reorder doubles it. */
  lemma ReorderIntoEmptyCart(s: Store.State, order: PreviousOrder, n: nat)
    requires s.cart == [] && n < |order.items|
    requires forall a, b :: 0 <= a < b < |order.items| ==> order.items[a].productId != order.items[b].productId
    requires order.items[n].quantity >= 1
    ensures var k := Cart.LineKey(order.items[n].productId, None, None);
      var once := Store.Run(s, Reorder(order));
      Cart.LineUnits(once.cart, k) == order.items[n].quantity &&
      Cart.LineUnits(Store.Run(once, Reorder(order)).cart, k) == 2 * order.items[n].quantity
  {
    var k := Cart.LineKey(order.items[n].productId, None, None);
    var lines := Map(order.items, ReorderLine);
    ReorderTwiceDoubles(s, order, k);
    Store.RunAddActions(s, lines);
    Cart.AddEachUnits(s.cart, lines, k);
    forall j | 0 <= j < |lines| && j != n
      ensures Cart.IncomingOn(k)(lines[j]) == 0
    {
      assert Cart.Key(lines[j]) != k;
    }
    SumIntSingle(lines, Cart.IncomingOn(k), n);
  }

  // ---------------------------------------------------------------------
  // Relative dates

  const MillisPerDay: nat := 1000 * 60 * 60 * 24

  /** `Math.ceil(Math.abs(now - date) / 86400000)` over whole milliseconds. */
  function DiffDays(now: int, date: int): (d: nat)
    ensures (d - 1) * MillisPerDay < Abs(now - date) <= d * MillisPerDay
  {
    var span := Abs(now - date);
    (span + MillisPerDay - 1) / MillisPerDay
  }

  function Abs(x: int): nat { if x < 0 then -x else x }

  /** What `formatDate` shows. */
  datatype DateLabel = Yesterday | DaysAgo(days: nat) | WeeksAgo(weeks: nat) | OnDate(text: string)

  /** `formatDate`, given the day count and the locale rendering of the date. */
  function FormatDate(diffDays: nat, localeDate: string): (r: DateLabel)
    ensures r.Yesterday? <==> diffDays == 1
    ensures r.DaysAgo? <==> diffDays != 1 && diffDays < 7
    ensures r.DaysAgo? ==> r.days == diffDays
    ensures r.WeeksAgo? <==> 7 <= diffDays < 30
    ensures r.WeeksAgo? ==> 1 <= r.weeks <= 4 && 7 * r.weeks <= diffDays < 7 * (r.weeks + 1)
    ensures r.OnDate? <==> diffDays >= 30
    ensures r.OnDate? ==> r.text == localeDate
  {
    if diffDays == 1 then Yesterday
    else if diffDays < 7 then DaysAgo(diffDays)
    else if diffDays < 30 then WeeksAgo(diffDays / 7)
    else OnDate(localeDate)
  }

  /** The label does not depend on the direction of time: a date in the
      future is labelled like one equally far in the past, and the very
      moment of the order reads "0 days ago". */
  lemma LabelIsSymmetric(now: int, date: int, localeDate: string)
    ensures FormatDate(DiffDays(now, date), localeDate) == FormatDate(DiffDays(date, now), localeDate)
    ensures FormatDate(DiffDays(now, now), localeDate) == DaysAgo(0)
  {
    assert Abs(now - date) == Abs(date - now);
  }
}

=== FILE: reviews.dfy ===
/** The reviews block (`src/components/Reviews/ReviewsSection.tsx`): the
    rating histogram and the review form. */
module ReviewsSection {
  import opened Base

  datatype Review = Review(
    id: string,
    userId: string,
    userName: string,
    rating: int,
    title: string,
    comment: string,
    date: string,
    helpful: int,
    verified: bool)

  /** What the form hands to `onAddReview`: a review without id, date and
      helpful count. */
  datatype Submission = Submission(
    userId: string,
    userName: string,
    rating: int,
    title: string,
    comment: string,
    verified: bool)

  datatype DistributionRow = DistributionRow(rating: int, count: nat, percentage: real)

  function HasRating(k: int): Review -> bool {
    (r: Review) => r.rating == k
  }

  /** `{ rating, count, percentage }` for one star value. */
  function Row(reviews: seq<Review>, totalReviews: int, k: int): (row: DistributionRow)
    ensures row.rating == k && row.count == Count(reviews, HasRating(k))
    ensures totalReviews > 0 ==> row.percentage == row.count as real / totalReviews as real * 100.0
    ensures totalReviews <= 0 ==> row.percentage == 0.0
  {
    var count := Count(reviews, HasRating(k));
    DistributionRow(k, count, if totalReviews > 0 then count as real / totalReviews as real * 100.0 else 0.0)
  }

  const Stars: seq<int> := [5, 4, 3, 2, 1]

  /** `ratingDistribution`: rows for 5, 4, 3, 2 and 1 stars, in that order. */
  function Distribution(reviews: seq<Review>, totalReviews: int): (rows: seq<DistributionRow>)
    ensures |rows| == 5
    ensures forall i :: 0 <= i < 5 ==> rows[i] == Row(reviews, totalReviews, 5 - i)
  {
    Map(Stars, (k: int) => Row(reviews, totalReviews, k))
  }

  function CountSum(rows: seq<DistributionRow>): int {
    SumInt(rows, (row: DistributionRow) => row.count)
  }

  /** How many of `reviews` have one of the five star values. */
  function Starred(reviews: seq<Review>): (n: nat)
    ensures n <= |reviews|
  {
    if reviews == [] then 0
    else (if 1 <= reviews[0].rating <= 5 then 1 else 0) + Starred(reviews[1..])
  }

  lemma {:induction false} FiveCounts(reviews: seq<Review>)
    ensures Count(reviews, HasRating(5)) + Count(reviews, HasRating(4)) + Count(reviews, HasRating(3)) +
      Count(reviews, HasRating(2)) + Count(reviews, HasRating(1)) == Starred(reviews)
    decreases |reviews|
  {
    if reviews != [] {
      FiveCounts(reviews[1..]);
    }
  }

  /** The histogram counts every review rated 1 to 5 exactly once and
      nothing else, so its counts add up to at most the number of reviews,
      and to exactly that number when every rating is a star value. */
  lemma DistributionCountsReviews(reviews: seq<Review>, totalReviews: int)
    ensures CountSum(Distribution(reviews, totalReviews)) == Starred(reviews) <= |reviews|
    ensures (forall i :: 0 <= i < |reviews| ==> 1 <= reviews[i].rating <= 5) ==>
      CountSum(Distribution(reviews, totalReviews)) == |reviews|
  {
    var rows := Distribution(reviews, totalReviews);
    FiveCounts(reviews);
    CountSumOfFive(rows);
    assert rows[0].count == Count(reviews, HasRating(5));
    assert rows[4].count == Count(reviews, HasRating(1));
    if forall i :: 0 <= i < |reviews| ==> 1 <= reviews[i].rating <= 5 {
      AllStarred(reviews);
    }
  }

  lemma CountSumOfFive(rows: seq<DistributionRow>)
    requires |rows| == 5
    ensures CountSum(rows) == rows[0].count + rows[1].count + rows[2].count + rows[3].count + rows[4].count
  {
    var f := (row: DistributionRow) => row.count;
    assert CountSum(rows[4..]) == rows[4].count + SumInt(rows[5..], f);
    assert CountSum(rows[3..]) == rows[3].count + CountSum(rows[4..]) by { assert rows[3..][1..] == rows[4..]; }
    assert CountSum(rows[2..]) == rows[2].count + CountSum(rows[3..]) by { assert rows[2..][1..] == rows[3..]; }
    assert CountSum(rows[1..]) == rows[1].count + CountSum(rows[2..]) by { assert rows[1..][1..] == rows[2..]; }
  }

  lemma {:induction false} AllStarred(reviews: seq<Review>)
    requires forall i :: 0 <= i < |reviews| ==> 1 <= reviews[i].rating <= 5
    ensures Starred(reviews) == |reviews|
    decreases |reviews|
  {
    if reviews != [] {
      AllStarred(reviews[1..]);
    }
  }

  // ---------------------------------------------------------------------
  // The form

  datatype Form = Form(rating: int, title: string, comment: string, open: bool)

  const EmptyForm := Form(5, "", "", false)

  /** `handleSubmitReview`: with a title, a comment and a callback the form
      hands over a review by "You" and resets; otherwise nothing happens. */
  function Submit(f: Form, hasCallback: bool): (r: (Form, Option<Submission>))
    ensures r.1.Some? <==> f.title != "" && f.comment != "" && hasCallback
    ensures r.1.Some? ==> r.1.value == Submission("current-user", "You", f.rating, f.title, f.comment, true)
    ensures r.1.Some? ==> r.0 == EmptyForm
    ensures r.1.None? ==> r.0 == f
  {
    if f.title != "" && f.comment != "" && hasCallback then
      (EmptyForm, Some(Submission("current-user", "You", f.rating, f.title, f.comment, true)))
    else (f, None)
  }

  /** A second click right after a successful submission sends nothing. */
  lemma SubmitOnce(f: Form, hasCallback: bool)
    ensures Submit(Submit(f, hasCallback).0, hasCallback).1.None?
  {
  }
}

=== FILE: search.dfy ===
/** `SearchService` (`src/services/searchService.ts`) and the `useSearch`
    hook (`src/hooks/useSearch.ts`). The fuzzy matcher itself is a
    parameter: a function from the query to Fuse's ordered hits. */
module Search {
  import opened Base
  import opened Types
  import opened Text

  /** One Fuse hit: the product, the optional distance score (0 is a
      perfect match) and the optional keys of the matched fields. */
  datatype FuseHit = FuseHit(item: Product, score: Option<real>, matches: Option<seq<Option<string>>>)

  type Fuse = string -> seq<FuseHit>

  const DefaultSuggestionLimit: nat := 5

  /** `result.score || 0`: a missing (or zero) score counts as 0. */
  function FuseScore(h: FuseHit): real { h.score.GetOr(0.0) }

  /** `m.key || ''` */
  function MatchKey(k: Option<string>): (r: string)
    ensures k.Some? ==> r == k.value
    ensures k.None? ==> r == ""
  {
    k.GetOr("")
  }

  function ToResult(h: FuseHit): (r: SearchResult)
    ensures r.product == h.item
    ensures r.score + FuseScore(h) == 1.0
    ensures h.matches.None? ==> r.matches == []
    ensures h.matches.Some? ==> |r.matches| == |h.matches.value|
    ensures h.matches.Some? ==> forall i :: 0 <= i < |r.matches| ==> r.matches[i] == MatchKey(h.matches.value[i])
  {
    SearchResult(
      h.item,
      1.0 - FuseScore(h),
      if h.matches.Some? then Map(h.matches.value, MatchKey) else [])
  }

  /** `search(query)` */
  function SearchProducts(fuse: Fuse, query: string): (r: seq<SearchResult>)
    ensures IsBlank(query) ==> r == []
    ensures !IsBlank(query) ==> |r| == |fuse(query)|
    ensures !IsBlank(query) ==> forall i :: 0 <= i < |r| ==>
      r[i].product == fuse(query)[i].item && r[i].score == 1.0 - FuseScore(fuse(query)[i])
    ensures !IsBlank(query) ==> forall i :: 0 <= i < |r| ==> r[i].matches == ToResult(fuse(query)[i]).matches
  {
    if IsBlank(query) then [] else Map(fuse(query), ToResult)
  }

  /** Fuse lists its best hits first, with distances that do not decrease;
      the inverted scores then do not increase. */
  lemma ScoresInvertOrder(fuse: Fuse, query: string)
    requires forall i, j :: 0 <= i < j < |fuse(query)| ==> FuseScore(fuse(query)[i]) <= FuseScore(fuse(query)[j])
    ensures forall i, j :: 0 <= i < j < |SearchProducts(fuse, query)| ==>
      SearchProducts(fuse, query)[i].score >= SearchProducts(fuse, query)[j].score
  {
  }

  /** Distances in [0, 1] become scores in [0, 1]. */
  lemma ScoresInUnitRange(fuse: Fuse, query: string)
    requires forall i :: 0 <= i < |fuse(query)| ==> 0.0 <= FuseScore(fuse(query)[i]) <= 1.0
    ensures forall i :: 0 <= i < |SearchProducts(fuse, query)| ==>
      0.0 <= SearchProducts(fuse, query)[i].score <= 1.0
  {
  }

  /** `[name, category, brand]` of one result, in the order they are added
      to the set. */
  function Labels(r: SearchResult): seq<string> {
    [r.product.name, r.product.category, r.product.brand]
  }

  /** The labels of the first `2 * limit` results, result by result, in the
      order they are added to the set. */
  function CandidateLabels(results: seq<SearchResult>, limit: nat): seq<string> {
    Flatten(Map(Take(results, 2 * limit), Labels))
  }

  /** The labels of the first `2 * limit` results, de-duplicated in
      insertion order and cut to `limit`. */
  function SuggestionsFrom(results: seq<SearchResult>, limit: nat): (r: seq<string>)
    ensures Distinct(r)
    ensures |r| == MinInt(limit, |Dedup(CandidateLabels(results, limit))|)
    ensures forall i :: 0 <= i < |r| ==>
      exists j :: 0 <= j < |results| && j < 2 * limit && r[i] in Labels(results[j])
  {
    var top := Take(results, 2 * limit);
    var labels := Flatten(Map(top, Labels));
    var r := Take(Dedup(labels), limit);
    forall i | 0 <= i < |r|
      ensures exists j :: 0 <= j < |results| && j < 2 * limit && r[i] in Labels(results[j])
    {
      assert r[i] in labels;
      FlattenMember(Map(top, Labels), r[i]);
      var j :| 0 <= j < |top| && r[i] in Map(top, Labels)[j];
      assert top[j] == results[j];
    }
    r
  }

  /** A label of the leading results that is not suggested means the
      suggestions are full, and each of them was added to the set before
      it. */
  lemma SuggestionsAreEarliest(results: seq<SearchResult>, limit: nat, x: string)
    requires x in CandidateLabels(results, limit) && x !in SuggestionsFrom(results, limit)
    ensures |SuggestionsFrom(results, limit)| == limit
    ensures forall i :: 0 <= i < limit ==>
      FirstIndex(CandidateLabels(results, limit), SuggestionsFrom(results, limit)[i])
        < FirstIndex(CandidateLabels(results, limit), x)
  {
    var labels := CandidateLabels(results, limit);
    var d := Dedup(labels);
    var r := SuggestionsFrom(results, limit);
    assert r == Take(d, limit);
    var k :| 0 <= k < |d| && d[k] == x;
    assert k >= |r| by {
      if k < |r| {
        assert false;
      }
    }
    DedupFirstOccurrenceOrder(labels);
    forall i | 0 <= i < limit
      ensures FirstIndex(labels, r[i]) < FirstIndex(labels, x)
    {
      assert r[i] == d[i];
    }
  }

  /** The best result's name is always the first suggestion. */
  lemma FirstSuggestionIsTopName(results: seq<SearchResult>, limit: nat)
    requires results != [] && limit > 0
    ensures SuggestionsFrom(results, limit) != []
    ensures SuggestionsFrom(results, limit)[0] == results[0].product.name
  {
    var labels := CandidateLabels(results, limit);
    var d := Dedup(labels);
    assert Take(results, 2 * limit)[0] == results[0];
    assert Flatten(Map(Take(results, 2 * limit), Labels))
      == Labels(results[0]) + Flatten(Map(Take(results, 2 * limit), Labels)[1..]);
    assert labels[0] == results[0].product.name;
    var k :| 0 <= k < |d| && d[k] == labels[0];
    DedupFirstOccurrenceOrder(labels);
    assert FirstIndex(labels, d[k]) == 0;
    assert forall i :: 0 < i < |d| ==> FirstIndex(labels, d[0]) < FirstIndex(labels, d[i]);
  }

  /** `getSuggestions(query, limit)` */
  function GetSuggestions(fuse: Fuse, query: string, limit: nat): (r: seq<string>)
    ensures IsBlank(query) || |query| < 2 ==> r == []
    ensures !(IsBlank(query) || |query| < 2) ==>
      |r| == MinInt(limit, |Dedup(CandidateLabels(SearchProducts(fuse, query), limit))|)
    ensures Distinct(r) && |r| <= limit
    ensures forall i :: 0 <= i < |r| ==>
      exists j :: 0 <= j < |SearchProducts(fuse, query)| && j < 2 * limit &&
        r[i] in Labels(SearchProducts(fuse, query)[j])
  {
    if IsBlank(query) || |query| < 2 then []
    else SuggestionsFrom(SearchProducts(fuse, query), limit)
  }

  /** Suggestions are the first `limit` distinct labels of the leading
      results, in first-insertion order: name, category and brand, result by
      result. */
  lemma SuggestionsInInsertionOrder(fuse: Fuse, query: string, limit: nat)
    requires !IsBlank(query) && |query| >= 2
    ensures var labels := CandidateLabels(SearchProducts(fuse, query), limit);
      GetSuggestions(fuse, query, limit) == Take(Dedup(labels), limit) &&
      forall i, j :: 0 <= i < j < |Dedup(labels)| ==>
        FirstIndex(labels, Dedup(labels)[i]) < FirstIndex(labels, Dedup(labels)[j])
  {
    DedupFirstOccurrenceOrder(CandidateLabels(SearchProducts(fuse, query), limit));
  }

  /** `useSearch(query)`: results and suggestions, both empty for a query of
      fewer than two characters. */
  function UseSearch(fuse: Fuse, query: string): (r: (seq<SearchResult>, seq<string>))
    ensures |query| < 2 ==> r == ([], [])
    ensures |query| >= 2 ==> r == (SearchProducts(fuse, query), GetSuggestions(fuse, query, DefaultSuggestionLimit))
  {
    if |query| >= 2 then (SearchProducts(fuse, query), GetSuggestions(fuse, query, DefaultSuggestionLimit))
    else ([], [])
  }

  /** The length gate counts raw characters: a query of two or more spaces
      passes it, reaches the service, and still yields nothing. */
  lemma BlankQueryYieldsNothing(fuse: Fuse, query: string)
    requires forall i :: 0 <= i < |query| ==> IsSpace(query[i])
    ensures UseSearch(fuse, query) == ([], [])
  {
  }
}

=== FILE: shopping_cart.dfy ===
/** The full cart page (`src/components/ShoppingCart/ShoppingCart.tsx`).
    The page reads each line as the `{ product, quantity }` shape that
    `src/types/index.ts:39-44` declares, but the store holds flat
    `CartProduct` lines (`src/store/useStore.ts:13`), so its first read of
    `item.product.price` throws on any non-empty store cart:
    `SubtotalAsWritten` records that. The rest of the module is the page as
    evidently intended, reading each store line through `PageLine`: the
    order summary, the free-shipping hint, and the line controls, which name
    only the product id and so reach every variant of it. */
module ShoppingCart {
  import opened Base
  import opened Types
  import Cart
  import Store
  import MiniCart

  const TaxRate: real := 0.1

  /** The page's subtotal over the store's own lines. A flat line has no
      `product` field, so `item.product.price` throws (`None`) as soon as
      the cart holds a line, and the page renders nothing; the empty cart
      sums to 0 and shows the empty state. */
  function SubtotalAsWritten(cart: seq<CartProduct>): (r: Option<real>)
    ensures r.None? <==> cart != []
    ensures r.Some? ==> r.value == 0.0
  {
    if cart == [] then Some(0.0) else None
  }

  /** After any add to the cart the page's render throws. */
  lemma AddedLineBreaksPage(s: Store.State, p: CartProduct)
    ensures SubtotalAsWritten(Store.Step(s, Store.AddToCart(p)).cart).None?
  {
    var r := Store.Step(s, Store.AddToCart(p)).cart;
    if Cart.HasLine(s.cart, Cart.Key(p)) {
      assert s.cart != [];
    }
    assert r != [];
  }

  /** A store line read as a page line, as evidently intended: the line's
      product, its units (`quantity ?? 1`) and its variant. */
  function PageLine(c: CartProduct): CartItem {
    CartItem(c.product, Cart.Units(c), c.selectedColor, c.selectedSize)
  }

  function PageLines(cart: seq<CartProduct>): (r: seq<CartItem>)
    ensures |r| == |cart|
    ensures forall i :: 0 <= i < |cart| ==> r[i] == PageLine(cart[i])
  {
    Map(cart, PageLine)
  }

  function LineTotal(item: CartItem): real {
    item.product.price * item.quantity as real
  }

  /** `cart.reduce((sum, item) => sum + item.product.price * item.quantity, 0)`
      over page lines. */
  function Subtotal(items: seq<CartItem>): (r: real)
    ensures items == [] ==> r == 0.0
  {
    SumReal(items, LineTotal)
  }

  /** The subtotal adds up line by line: a split list sums to the sum of its
      parts, and one line contributes its price times its quantity. */
  lemma SubtotalSplit(a: seq<CartItem>, b: seq<CartItem>)
    ensures Subtotal(a + b) == Subtotal(a) + Subtotal(b)
    ensures |b| == 1 ==> Subtotal(a + b) == Subtotal(a) + b[0].product.price * b[0].quantity as real
  {
    SumRealAppend(a, b, LineTotal);
  }

  /** Prices and quantities that are not negative give a subtotal that is
      not negative. */
  lemma SubtotalNonNegative(items: seq<CartItem>)
    requires forall i :: 0 <= i < |items| ==> items[i].product.price >= 0.0 && items[i].quantity >= 0
    ensures Subtotal(items) >= 0.0
  {
    forall x | x in items ensures LineTotal(x) >= 0.0 {
      MulNonNegative(x.product.price, x.quantity as real);
    }
    SumRealNonNegative(items, LineTotal);
  }

  lemma {:induction false} PageSubtotalOfPositive(cart: seq<CartProduct>)
    requires forall i :: 0 <= i < |cart| ==> cart[i].quantity.Some? && cart[i].quantity.value >= 1
    ensures Subtotal(PageLines(cart)) == MiniCart.Subtotal(cart)
    decreases |cart|
  {
    if cart != [] {
      PageSubtotalOfPositive(cart[1..]);
      assert PageLines(cart)[1..] == PageLines(cart[1..]);
    }
  }

  /** On a well-formed store cart the corrected page's subtotal is the
      drawer's. */
  lemma PageSubtotalIsDrawerSubtotal(cart: seq<CartProduct>)
    requires Cart.WellFormed(cart)
    ensures Subtotal(PageLines(cart)) == MiniCart.Subtotal(cart)
  {
    PageSubtotalOfPositive(cart);
  }

  /** On every store the actions can reach, the corrected page and the drawer
      show the same subtotal. */
  lemma ReachablePageMatchesDrawer(actions: seq<Store.Action>)
    ensures Subtotal(PageLines(Store.Run(Store.Initial, actions).cart)) ==
      MiniCart.Subtotal(Store.Run(Store.Initial, actions).cart)
  {
    Store.InitialInv();
    Store.RunInv(Store.Initial, actions);
    PageSubtotalIsDrawerSubtotal(Store.Run(Store.Initial, actions).cart);
  }

  /** The summary lines derived from a subtotal. */
  datatype Summary = Summary(subtotal: real, tax: real, shipping: real, total: real, hint: Option<real>)

  /** `tax = subtotal * 0.1`, free shipping strictly above 100, and the hint
      "Add $x more" strictly below 100. */
  function Summarize(subtotal: real): (r: Summary)
    ensures r.subtotal == subtotal && r.tax == TaxRate * subtotal
    ensures r.shipping == 0.0 <==> subtotal > 100.0
    ensures r.shipping == 0.0 || r.shipping == 10.0
    ensures r.total == r.subtotal + r.tax + r.shipping
    ensures r.hint.Some? <==> subtotal < 100.0
    ensures r.hint.Some? ==> r.hint.value > 0.0 && subtotal + r.hint.value == 100.0
  {
    var shipping := if subtotal > 100.0 then 0.0 else 10.0;
    Summary(subtotal, subtotal * TaxRate, shipping, subtotal + subtotal * TaxRate + shipping,
      if subtotal < 100.0 then Some(100.0 - subtotal) else None)
  }

  /** At exactly 100 the order pays shipping and no hint says how to avoid
      it; everywhere else exactly one of the two applies. */
  lemma HintOrFreeShipping(subtotal: real)
    ensures subtotal == 100.0 ==> Summarize(subtotal).shipping == 10.0 && Summarize(subtotal).hint.None?
    ensures subtotal != 100.0 ==> (Summarize(subtotal).shipping == 0.0 <==> Summarize(subtotal).hint.None?)
  {
  }

  /** The page charges what the drawer charges plus ten percent tax. */
  lemma PageTotalIsDrawerTotalPlusTax(subtotal: real)
    ensures Summarize(subtotal).total == subtotal + MiniCart.ShippingFee(subtotal) + TaxRate * subtotal
  {
  }

  /** `cart.length === 0` renders the empty state. */
  predicate IsEmptyState(items: seq<CartItem>) { |items| == 0 }

  /** "Shopping Cart (n items)" counts lines, not units. */
  function HeaderCount(items: seq<CartItem>): (n: nat)
    ensures n == |items|
    ensures n == 0 <==> IsEmptyState(items)
  {
    |items|
  }

  function Quantity(item: CartItem): int { item.quantity }

  /** With every line holding at least one unit, the header never counts
      more than the units, and counts exactly the units only when every line
      holds one. */
  lemma {:induction false} HeaderCountsLines(items: seq<CartItem>)
    requires forall i :: 0 <= i < |items| ==> items[i].quantity >= 1
    ensures HeaderCount(items) <= SumInt(items, Quantity)
    ensures HeaderCount(items) == SumInt(items, Quantity) <==>
      forall i :: 0 <= i < |items| ==> items[i].quantity == 1
    decreases |items|
  {
    if items != [] {
      var t := items[1..];
      assert forall i :: 0 <= i < |t| ==> t[i] == items[i + 1];
      HeaderCountsLines(t);
      if forall i :: 0 <= i < |items| ==> items[i].quantity == 1 {
        assert forall i :: 0 <= i < |t| ==> t[i].quantity == 1;
      }
      if HeaderCount(items) == SumInt(items, Quantity) {
        assert items[0].quantity == 1 && HeaderCount(t) == SumInt(t, Quantity);
        forall i | 0 <= i < |items| ensures items[i].quantity == 1 {
          if i > 0 { assert items[i] == t[i - 1]; }
        }
      }
    }
  }

  // ---------------------------------------------------------------------
  // Line controls: none of them passes the line's colour or size.

  /** '−': `updateCartQuantity(product.id, Math.max(1, quantity - 1))` */
  function MinusAction(item: CartItem): (a: Store.Action)
    ensures a.UpdateCartQuantity? && a == Store.UpdateCartQuantity(item.product.id, a.quantity, None, None)
    ensures item.quantity >= 2 ==> a.quantity == item.quantity - 1
    ensures item.quantity < 2 ==> a.quantity == 1
  {
    Store.UpdateCartQuantity(item.product.id, MaxInt(1, item.quantity - 1), None, None)
  }

  /** '+': `updateCartQuantity(product.id, quantity + 1)` */
  function PlusAction(item: CartItem): (a: Store.Action)
    ensures a == Store.UpdateCartQuantity(item.product.id, item.quantity + 1, None, None)
  {
    Store.UpdateCartQuantity(item.product.id, item.quantity + 1, None, None)
  }

  /** Remove: `removeFromCart(product.id)` */
  function RemoveAction(item: CartItem): (a: Store.Action)
    ensures a == Store.RemoveFromCart(item.product.id, None, None)
  {
    Store.RemoveFromCart(item.product.id, None, None)
  }

  /** Remove drops every line of the product, whatever its variant, and
      keeps the lines of every other product; this holds for any page line,
      in particular for `PageLine` of a line of the store's cart. */
  lemma RemoveDropsEveryVariant(s: Store.State, item: CartItem)
    ensures forall i :: 0 <= i < |Store.Step(s, RemoveAction(item)).cart| ==>
      Store.Step(s, RemoveAction(item)).cart[i].id() != item.product.id
    ensures forall i :: 0 <= i < |s.cart| && s.cart[i].id() != item.product.id ==>
      s.cart[i] in Store.Step(s, RemoveAction(item)).cart
  {
    Cart.RemoveWithoutVariantRemovesAllVariants(s.cart, item.product.id);
  }

  /** '−' sets every line of the product, whatever its variant, to the same
      quantity, never below one, and removes nothing; as for remove, the
      page line may be `PageLine` of any line of the store's cart. */
  lemma MinusSetsEveryVariant(s: Store.State, item: CartItem)
    ensures |Store.Step(s, MinusAction(item)).cart| == |s.cart|
    ensures forall i :: 0 <= i < |s.cart| ==>
      (s.cart[i].id() == item.product.id ==>
        Store.Step(s, MinusAction(item)).cart[i].quantity == Some(MaxInt(1, item.quantity - 1))) &&
      (s.cart[i].id() != item.product.id ==> Store.Step(s, MinusAction(item)).cart[i] == s.cart[i])
  {
    var r := Store.Step(s, MinusAction(item)).cart;
    assert forall i :: 0 <= i < |s.cart| ==>
      (Cart.Matches(s.cart[i], item.product.id, None, None) <==> s.cart[i].id() == item.product.id);
  }
}

=== FILE: stable_sort.dfy ===
/** `Array.prototype.sort` with a numeric comparator `(a, b) => key(b) - key(a)`
    is a stable sort by non-increasing key. It is modelled as insertion sort;
    its contract is the full specification of a stable sort: the output is
    ordered by the key, and for every key value the elements with that key
    appear in the same relative order as in the input (which also makes the
    output a permutation of the input). An ascending sort is the same sort on
    the negated key. */
module StableSort {
  import opened Base

  /** Keys never increase from left to right. */
  predicate NonIncreasing<T>(s: seq<T>, key: T -> real) {
    forall i, j :: 0 <= i < j < |s| ==> key(s[i]) >= key(s[j])
  }

  /** The elements of `s` whose key is `k`, in their order in `s`. */
  function WithKey<T>(s: seq<T>, key: T -> real, k: real): seq<T> {
    if s == [] then []
    else (if key(s[0]) == k then [s[0]] else []) + WithKey(s[1..], key, k)
  }

  /** Same elements with the same key, in the same relative order, for
      every key value: "ties keep their input order". */
  ghost predicate SameTies<T>(a: seq<T>, b: seq<T>, key: T -> real) {
    forall k :: WithKey(a, key, k) == WithKey(b, key, k)
  }

  /** Inserts `x` in front of the first element whose key is not greater
      than its own. */
  function Insert<T>(x: T, r: seq<T>, key: T -> real): seq<T> {
    if r == [] || key(r[0]) <= key(x) then [x] + r
    else [r[0]] + Insert(x, r[1..], key)
  }

  lemma {:induction false} InsertMultiset<T>(x: T, r: seq<T>, key: T -> real)
    ensures multiset(Insert(x, r, key)) == multiset([x] + r)
    decreases |r|
  {
    if !(r == [] || key(r[0]) <= key(x)) {
      InsertMultiset(x, r[1..], key);
      assert r == [r[0]] + r[1..];
    }
  }

  lemma {:induction false} InsertSorted<T>(x: T, r: seq<T>, key: T -> real)
    requires NonIncreasing(r, key)
    ensures NonIncreasing(Insert(x, r, key), key)
    decreases |r|
  {
    if !(r == [] || key(r[0]) <= key(x)) {
      var rest := Insert(x, r[1..], key);
      InsertSorted(x, r[1..], key);
      InsertMultiset(x, r[1..], key);
      var out := [r[0]] + rest;
      assert Insert(x, r, key) == out;
      forall j | 0 < j < |out|
        ensures key(out[0]) >= key(out[j])
      {
        var e := out[j];
        assert e in multiset(rest);
        assert e in multiset([x] + r[1..]);
        if e != x {
          assert e in r[1..];
        }
      }
    }
  }

  lemma {:induction false} InsertTies<T>(x: T, r: seq<T>, key: T -> real, k: real)
    ensures WithKey(Insert(x, r, key), key, k) == WithKey([x] + r, key, k)
    decreases |r|
  {
    if !(r == [] || key(r[0]) <= key(x)) {
      var rest := Insert(x, r[1..], key);
      InsertTies(x, r[1..], key, k);
      assert ([r[0]] + rest)[1..] == rest;
      assert ([x] + r)[1..] == r;
      assert ([x] + r[1..])[1..] == r[1..];
      assert WithKey(rest, key, k)
        == (if key(x) == k then [x] else []) + WithKey(r[1..], key, k);
      assert WithKey(r, key, k)
        == (if key(r[0]) == k then [r[0]] else []) + WithKey(r[1..], key, k);
    }
  }

  /** One step of the insertion sort keeps the specification. */
  lemma InsertIntoSorted<T>(x: T, t: seq<T>, tail: seq<T>, key: T -> real)
    requires NonIncreasing(t, key)
    requires multiset(t) == multiset(tail)
    requires SameTies(t, tail, key)
    ensures NonIncreasing(Insert(x, t, key), key)
    ensures multiset(Insert(x, t, key)) == multiset([x] + tail)
    ensures SameTies(Insert(x, t, key), [x] + tail, key)
    ensures |Insert(x, t, key)| == 1 + |tail|
  {
    InsertSorted(x, t, key);
    InsertMultiset(x, t, key);
    forall k ensures WithKey(Insert(x, t, key), key, k) == WithKey([x] + tail, key, k) {
      InsertTies(x, t, key, k);
      assert ([x] + t)[1..] == t;
      assert ([x] + tail)[1..] == tail;
    }
    assert |multiset(Insert(x, t, key))| == |multiset([x] + tail)|;
  }

  /** `[...s].sort((a, b) => key(b) - key(a))` */
  function SortDesc<T>(s: seq<T>, key: T -> real): (r: seq<T>)
    ensures NonIncreasing(r, key)
    ensures multiset(r) == multiset(s)
    ensures SameTies(r, s, key)
    ensures |r| == |s|
  {
    if s == [] then []
    else
      var t := SortDesc(s[1..], key);
      InsertIntoSorted(s[0], t, s[1..], key);
      assert s == [s[0]] + s[1..];
      Insert(s[0], t, key)
  }

  /** Elements present in the output are exactly those of the input. */
  lemma SortDescMembers<T>(s: seq<T>, key: T -> real, x: T)
    ensures x in SortDesc(s, key) <==> x in s
  {
    var r := SortDesc(s, key);
    assert x in r <==> x in multiset(r);
    assert x in s <==> x in multiset(s);
  }

  /** A prefix of a non-increasing sequence is non-increasing. */
  lemma TakeNonIncreasing<T>(s: seq<T>, key: T -> real, n: nat)
    requires NonIncreasing(s, key)
    ensures NonIncreasing(Take(s, n), key)
  {
  }

  /** Keeping the first `n` of the sorted sequence keeps the best: an input
      element left out means all `n` places were filled, each by an element
      whose key is at least as large. */
  lemma TakeSortedIsTop<T>(s: seq<T>, key: T -> real, n: nat, x: T)
    requires x in s && x !in Take(SortDesc(s, key), n)
    ensures |Take(SortDesc(s, key), n)| == n
    ensures forall i :: 0 <= i < n ==> key(Take(SortDesc(s, key), n)[i]) >= key(x)
  {
    var sorted := SortDesc(s, key);
    var t := Take(sorted, n);
    SortDescMembers(s, key, x);
    var j :| 0 <= j < |sorted| && sorted[j] == x;
    assert j >= |t| by {
      if j < |t| {
        assert false;
      }
    }
    forall i | 0 <= i < n
      ensures key(t[i]) >= key(x)
    {
      assert t[i] == sorted[i];
    }
  }

  lemma {:induction false} WithKeyMember<T>(s: seq<T>, key: T -> real, i: nat)
    requires i < |s|
    ensures s[i] in WithKey(s, key, key(s[i]))
    decreases |s|
  {
    if i > 0 {
      WithKeyMember(s[1..], key, i - 1);
    }
  }

  lemma WithKeyHead<T>(s: seq<T>, key: T -> real)
    requires s != []
    ensures WithKey(s, key, key(s[0])) != []
  {
  }

  lemma {:induction false} WithKeyEmpty<T>(s: seq<T>, key: T -> real, k: real)
    requires forall i :: 0 <= i < |s| ==> key(s[i]) != k
    ensures WithKey(s, key, k) == []
    decreases |s|
  {
    if s != [] {
      WithKeyEmpty(s[1..], key, k);
    }
  }

  /** The specification determines the result: any sequence ordered by the
      key with the same ties as the input is the stable sort of the input. */
  lemma {:induction false} StableSortUnique<T>(a: seq<T>, b: seq<T>, key: T -> real)
    requires NonIncreasing(a, key) && NonIncreasing(b, key)
    requires SameTies(a, b, key)
    ensures a == b
    decreases |a| + |b|
  {
    // an element on one side needs a partner with its key on the other
    if a != [] {
      WithKeyHead(a, key);
    }
    if b != [] {
      WithKeyHead(b, key);
    }
    if a != [] && b != [] {
      UniqueHeads(a, b, key);
      StableSortUnique(a[1..], b[1..], key);
      SameHeadAndTail(a, b);
    }
  }

  lemma SameHeadAndTail<T>(a: seq<T>, b: seq<T>)
    requires a != [] && b != [] && a[0] == b[0] && a[1..] == b[1..]
    ensures a == b
  {
    assert a == [a[0]] + a[1..] && b == [b[0]] + b[1..];
  }

  lemma UniqueHeads<T>(a: seq<T>, b: seq<T>, key: T -> real)
    requires a != [] && b != []
    requires NonIncreasing(a, key) && NonIncreasing(b, key)
    requires SameTies(a, b, key)
    ensures a[0] == b[0]
    ensures SameTies(a[1..], b[1..], key)
  {
    var ka, kb := key(a[0]), key(b[0]);
    if ka < kb {
      WithKeyMember(b, key, 0);
      WithKeyEmpty(a, key, kb);
    } else if kb < ka {
      WithKeyMember(a, key, 0);
      WithKeyEmpty(b, key, ka);
    }
    assert ka == kb;
    assert WithKey(a, key, ka) == [a[0]] + WithKey(a[1..], key, ka);
    assert WithKey(b, key, kb) == [b[0]] + WithKey(b[1..], key, kb);
    assert WithKey(a, key, ka) == WithKey(b, key, ka);
    assert a[0] == WithKey(a, key, ka)[0] == WithKey(b, key, kb)[0] == b[0];
    forall k
      ensures WithKey(a[1..], key, k) == WithKey(b[1..], key, k)
    {
      assert WithKey(a, key, k) == WithKey(b, key, k);
      assert WithKey(a, key, k) == (if ka == k then [a[0]] else []) + WithKey(a[1..], key, k);
      assert WithKey(b, key, k) == (if ka == k then [a[0]] else []) + WithKey(b[1..], key, k);
      if ka == k {
        assert WithKey(a[1..], key, k) == WithKey(a, key, k)[1..];
        assert WithKey(b[1..], key, k) == WithKey(b, key, k)[1..];
      } else {
        assert WithKey(a[1..], key, k) == WithKey(a, key, k);
        assert WithKey(b[1..], key, k) == WithKey(b, key, k);
      }
    }
  }

  /** Sorting is a no-op on a sequence that is already ordered. */
  lemma SortDescOfSorted<T>(s: seq<T>, key: T -> real)
    requires NonIncreasing(s, key)
    ensures SortDesc(s, key) == s
  {
    StableSortUnique(SortDesc(s, key), s, key);
  }

  /** `xs.map(x => ({ item: x, score: f(x) }))` */
  function Tag<T>(s: seq<T>, f: T -> real): (r: seq<(T, real)>)
    ensures |r| == |s|
  {
    seq(|s|, i requires 0 <= i < |s| => (s[i], f(s[i])))
  }

  /** `pairs.map(p => p.item)` */
  function Untag<T>(s: seq<(T, real)>): (r: seq<T>)
    ensures |r| == |s|
  {
    seq(|s|, i requires 0 <= i < |s| => s[i].0)
  }

  function Score<T>(p: (T, real)): real { p.1 }

  /** Every pair carries the score of its item. */
  ghost predicate Tagged<T>(s: seq<(T, real)>, f: T -> real) {
    forall i :: 0 <= i < |s| ==> s[i].1 == f(s[i].0)
  }

  lemma {:induction false} UntagWithKey<T>(t: seq<(T, real)>, f: T -> real, k: real)
    requires Tagged(t, f)
    ensures WithKey(Untag(t), f, k) == Untag(WithKey(t, Score, k))
    decreases |t|
  {
    if t != [] {
      UntagWithKey(t[1..], f, k);
      assert Untag(t)[1..] == Untag(t[1..]);
      var head: seq<(T, real)> := if Score(t[0]) == k then [t[0]] else [];
      assert Untag(head + WithKey(t[1..], Score, k)) == Untag(head) + Untag(WithKey(t[1..], Score, k));
    }
  }

  /** Scoring each item, sorting the pairs by score and dropping the scores
      is the same as sorting the items by their score. */
  lemma SortTaggedIsSortByScore<T>(s: seq<T>, f: T -> real)
    ensures Untag(SortDesc(Tag(s, f), Score)) == SortDesc(s, f)
  {
    var tagged := Tag(s, f);
    var sorted := SortDesc(tagged, Score);
    var r := Untag(sorted);
    assert Tagged(sorted, f) by {
      forall i | 0 <= i < |sorted|
        ensures sorted[i].1 == f(sorted[i].0)
      {
        assert sorted[i] in multiset(tagged);
        assert sorted[i] in tagged;
      }
    }
    assert Untag(tagged) == s;
    forall k
      ensures WithKey(r, f, k) == WithKey(s, f, k)
    {
      UntagWithKey(sorted, f, k);
      UntagWithKey(tagged, f, k);
    }
    StableSortUnique(r, SortDesc(s, f), f);
  }
}

=== FILE: store.dfy ===
/** The client store (`useStore` and `useAuthStore` in
    `src/store/useStore.ts`). Every action replaces whole fields of the
    state, so the store is a reducer `Step(State, Action): State`; the
    persistence middleware is modelled by its projection `Partialize` and
    the shallow merge `Rehydrate` that reads the projection back. */
module Store {
  import opened Base
  import opened Types
  import opened Lists
  import Cart

  datatype AuthMode = LoginMode | SignupMode

  datatype StoreUser = StoreUser(name: string, email: string)

  datatype SearchFilters = SearchFilters(query: string, category: string, priceRange: (real, real), sort: string)

  /** A `Partial<SearchFilters>`. */
  datatype SearchFiltersPatch = SearchFiltersPatch(
    query: Option<string>,
    category: Option<string>,
    priceRange: Option<(real, real)>,
    sort: Option<string>)

  /** The untyped `filters` slot: whichever filter keys the last
      `setFilters` call supplied. */
  datatype FilterPatch = FilterPatch(
    categories: Option<seq<string>>,
    brands: Option<seq<string>>,
    priceRange: Option<(real, real)>,
    rating: Option<real>,
    inStock: Option<bool>,
    colors: Option<seq<string>>,
    sizes: Option<seq<string>>)

  const NoFilters := FilterPatch(None, None, None, None, None, None, None)

  datatype State = State(
    cart: seq<CartProduct>,
    wishlist: seq<Product>,
    comparisonList: seq<Product>,
    searchQuery: string,
    searchFilters: SearchFilters,
    selectedCategory: Option<string>,
    isAuthOpen: bool,
    authMode: Option<AuthMode>,
    user: Option<StoreUser>,
    showOneClickReorder: bool,
    mobileSearchOpen: bool,
    activeTab: Tab,
    recentSearches: seq<string>,
    mobileMenuOpen: bool,
    mobileCategoryOpen: bool,
    filters: FilterPatch,
    sortBy: string,
    recentlyViewed: seq<Product>,
    savedForLater: seq<CartProduct>,
    appliedCoupon: Option<Coupon>)

  const ComparisonCap: nat := 4
  const RecentCap: nat := 10

  const DefaultSearchFilters := SearchFilters("", "", (0.0, 1000.0), "featured")

  const Initial := State(
    [], [], [], "", DefaultSearchFilters, None, false, None, None, false,
    false, HomeTab, [], false, false, NoFilters, "featured", [], [], None)

  datatype Action =
    | AddToCart(product: CartProduct)
    | RemoveFromCart(productId: string, color: Option<string>, size: Option<string>)
    | UpdateCartQuantity(productId: string, quantity: int, color: Option<string>, size: Option<string>)
    | ClearCart
    | AddToWishlist(p: Product)
    | RemoveFromWishlist(productId: string)
    | AddToComparison(p: Product)
    | RemoveFromComparison(productId: string)
    | ClearComparison
    | SetSearchQuery(query: string)
    | SetSearchFilters(patch: SearchFiltersPatch)
    | ClearSearchFilters
    | SetSelectedCategory(category: Option<string>)
    | SetAuthOpen(open: bool)
    | SetAuthMode(mode: Option<AuthMode>)
    | SetUser(u: Option<StoreUser>)
    | Logout
    | SetShowOneClickReorder(show: bool)
    | SetMobileSearchOpen(open: bool)
    | SetActiveTab(tab: Tab)
    | AddRecentSearch(query: string)
    | ClearRecentSearches
    | SetMobileMenuOpen(open: bool)
    | SetMobileCategoryOpen(open: bool)
    | SetFilters(f: FilterPatch)
    | SetSortBy(sortBy: string)
    | ResetFilters
    | AddToRecentlyViewed(p: Product)
    | MoveToSavedForLater(item: CartProduct)
    | MoveToCart(item: CartProduct)
    | RemoveSavedForLater(itemId: string)
    | ApplyCoupon(coupon: Coupon)
    | RemoveCoupon

  function Identity<T>(x: T): T { x }

  function LineId(c: CartProduct): string { c.id() }

  /** `{ ...current, ...patch }` */
  function MergeSearchFilters(current: SearchFilters, patch: SearchFiltersPatch): (r: SearchFilters)
    ensures patch.query.Some? ==> r.query == patch.query.value
    ensures patch.query.None? ==> r.query == current.query
    ensures patch.category.Some? ==> r.category == patch.category.value
    ensures patch.category.None? ==> r.category == current.category
    ensures patch.priceRange.Some? ==> r.priceRange == patch.priceRange.value
    ensures patch.priceRange.None? ==> r.priceRange == current.priceRange
    ensures patch.sort.Some? ==> r.sort == patch.sort.value
    ensures patch.sort.None? ==> r.sort == current.sort
  {
    SearchFilters(
      patch.query.GetOr(current.query),
      patch.category.GetOr(current.category),
      patch.priceRange.GetOr(current.priceRange),
      patch.sort.GetOr(current.sort))
  }

  /** `logout`: the account slots are emptied and nothing else changes. */
  function LogoutState(s: State): (r: State)
    ensures r.user.None? && r.cart == [] && r.wishlist == []
    ensures r.(user := s.user, cart := s.cart, wishlist := s.wishlist) == s
  {
    s.(user := None, cart := [], wishlist := [])
  }

  /** `moveToCart(item)`: `addToCart(item)`, then every saved entry with the
      item's id is dropped. */
  function MoveToCartState(s: State, item: CartProduct): (r: State)
    ensures r.cart == Cart.AddToCart(s.cart, item)
    ensures !HasKey(r.savedForLater, LineId, item.id())
    ensures forall i :: 0 <= i < |s.savedForLater| && s.savedForLater[i].id() != item.id() ==>
      s.savedForLater[i] in r.savedForLater
    ensures r.(cart := s.cart, savedForLater := s.savedForLater) == s
  {
    s.(cart := Cart.AddToCart(s.cart, item),
       savedForLater := RemoveKey(s.savedForLater, LineId, item.id()))
  }

  /** The store reducer. */
  function Step(s: State, a: Action): State {
    match a
    case AddToCart(p) => s.(cart := Cart.AddToCart(s.cart, p))
    case RemoveFromCart(id, c, z) => s.(cart := Cart.RemoveFromCart(s.cart, id, c, z))
    case UpdateCartQuantity(id, q, c, z) => s.(cart := Cart.UpdateCartQuantity(s.cart, id, q, c, z))
    case ClearCart => s.(cart := [])
    case AddToWishlist(p) => s.(wishlist := AppendIfAbsent(s.wishlist, p, ProductId))
    case RemoveFromWishlist(id) => s.(wishlist := RemoveKey(s.wishlist, ProductId, id))
    case AddToComparison(p) => s.(comparisonList := AppendIfRoom(s.comparisonList, p, ProductId, ComparisonCap))
    case RemoveFromComparison(id) => s.(comparisonList := RemoveKey(s.comparisonList, ProductId, id))
    case ClearComparison => s.(comparisonList := [])
    case SetSearchQuery(q) => s.(searchQuery := q)
    case SetSearchFilters(patch) => s.(searchFilters := MergeSearchFilters(s.searchFilters, patch))
    case ClearSearchFilters => s.(searchFilters := DefaultSearchFilters)
    case SetSelectedCategory(c) => s.(selectedCategory := c)
    case SetAuthOpen(o) => s.(isAuthOpen := o)
    case SetAuthMode(m) => s.(authMode := m)
    case SetUser(u) => s.(user := u)
    case Logout => LogoutState(s)
    case SetShowOneClickReorder(b) => s.(showOneClickReorder := b)
    case SetMobileSearchOpen(o) => s.(mobileSearchOpen := o)
    case SetActiveTab(t) => s.(activeTab := t)
    case AddRecentSearch(q) => s.(recentSearches := PushRecent(s.recentSearches, q, Identity, RecentCap))
    case ClearRecentSearches => s.(recentSearches := [])
    case SetMobileMenuOpen(o) => s.(mobileMenuOpen := o)
    case SetMobileCategoryOpen(o) => s.(mobileCategoryOpen := o)
    case SetFilters(f) => s.(filters := f)
    case SetSortBy(b) => s.(sortBy := b)
    case ResetFilters => s.(filters := NoFilters)
    case AddToRecentlyViewed(p) => s.(recentlyViewed := PushRecent(s.recentlyViewed, p, ProductId, RecentCap))
    case MoveToSavedForLater(item) => s.(savedForLater := AppendIfAbsent(s.savedForLater, item, LineId))
    case MoveToCart(item) => MoveToCartState(s, item)
    case RemoveSavedForLater(id) => s.(savedForLater := RemoveKey(s.savedForLater, LineId, id))
    case ApplyCoupon(c) => s.(appliedCoupon := Some(c))
    case RemoveCoupon => s.(appliedCoupon := None)
  }

  /** The state after a sequence of actions. */
  function Run(s: State, actions: seq<Action>): State
    decreases |actions|
  {
    if actions == [] then s else Run(Step(s, actions[0]), actions[1..])
  }

  /** What the actions keep true of the collections: unique cart lines with
      quantities of at least one, wishlist and saved-for-later entries unique
      by id, at most four distinct products compared, and recent lists
      without repeats and at most ten long. */
  predicate Inv(s: State) {
    Cart.WellFormed(s.cart) &&
    DistinctBy(s.wishlist, ProductId) &&
    |s.comparisonList| <= ComparisonCap && DistinctBy(s.comparisonList, ProductId) &&
    |s.recentSearches| <= RecentCap && DistinctBy(s.recentSearches, Identity) &&
    |s.recentlyViewed| <= RecentCap && DistinctBy(s.recentlyViewed, ProductId) &&
    DistinctBy(s.savedForLater, LineId)
  }

  // ---------------------------------------------------------------------
  // Persistence

  /** The slice of the state written to storage. */
  datatype Persisted = Persisted(
    cart: seq<CartProduct>,
    wishlist: seq<Product>,
    user: Option<StoreUser>,
    recentSearches: seq<string>)

  /** `partialize` */
  function Partialize(s: State): (p: Persisted)
    ensures p.cart == s.cart && p.wishlist == s.wishlist
    ensures p.user == s.user && p.recentSearches == s.recentSearches
  {
    Persisted(s.cart, s.wishlist, s.user, s.recentSearches)
  }

  /** Loading a stored slice over a state: the stored keys win, every other
      field keeps the state's value. */
  function Rehydrate(base: State, p: Persisted): (r: State)
    ensures Partialize(r) == p
    ensures r.(cart := base.cart, wishlist := base.wishlist, user := base.user,
               recentSearches := base.recentSearches) == base
  {
    base.(cart := p.cart, wishlist := p.wishlist, user := p.user, recentSearches := p.recentSearches)
  }

  // ---------------------------------------------------------------------
  // The authentication store

  datatype AuthState = AuthState(isAuthenticated: bool, user: Option<StoreUser>)

  const InitialAuth := AuthState(false, None)

  /** `setAuth(isAuthenticated, user?)`: an omitted user is stored as null. */
  function SetAuth(a: AuthState, isAuthenticated: bool, user: Option<StoreUser>): (r: AuthState)
    ensures r.isAuthenticated == isAuthenticated && r.user == user
  {
    AuthState(isAuthenticated, user)
  }

  /** `logout` of the authentication store. */
  function AuthLogout(a: AuthState): (r: AuthState)
    ensures r == InitialAuth
  {
    AuthState(false, None)
  }

  // ---------------------------------------------------------------------
  // Properties

  lemma InitialInv()
    ensures Inv(Initial)
  {
  }

  /** Every action keeps the invariant. */
  lemma StepInv(s: State, a: Action)
    requires Inv(s)
    ensures Inv(Step(s, a))
  {
    if a.AddToCart? || a.RemoveFromCart? || a.UpdateCartQuantity? || a.ClearCart? || a.Logout? {
      CartStepInv(s, a);
    } else if a.AddToWishlist? || a.RemoveFromWishlist? || a.AddToComparison? || a.RemoveFromComparison? ||
              a.ClearComparison? {
      ListStepInv(s, a);
    } else if a.AddRecentSearch? || a.ClearRecentSearches? || a.AddToRecentlyViewed? {
      RecentStepInv(s, a);
    } else if a.MoveToSavedForLater? || a.RemoveSavedForLater? {
      SavedStepInv(s, a);
    } else if a.MoveToCart? {
      MoveToCartInv(s, a.item);
    } else {
      KeepsInv(s, Step(s, a));
    }
  }

  lemma CartStepInv(s: State, a: Action)
    requires Inv(s)
    requires a.AddToCart? || a.RemoveFromCart? || a.UpdateCartQuantity? || a.ClearCart? || a.Logout?
    ensures Inv(Step(s, a))
  {
    match a
    case AddToCart(p) =>
      Cart.AddToCartWellFormed(s.cart, p);
      WithCart(s, Cart.AddToCart(s.cart, p));
    case RemoveFromCart(id, c, z) =>
      Cart.RemoveFromCartWellFormed(s.cart, id, c, z);
      WithCart(s, Cart.RemoveFromCart(s.cart, id, c, z));
    case UpdateCartQuantity(id, q, c, z) =>
      Cart.UpdateCartQuantityWellFormed(s.cart, id, q, c, z);
      WithCart(s, Cart.UpdateCartQuantity(s.cart, id, q, c, z));
    case ClearCart => WithCart(s, []);
    case Logout =>
      WithCart(s, []);
      WithWishlist(s.(cart := []), []);
  }

  lemma ListStepInv(s: State, a: Action)
    requires Inv(s)
    requires a.AddToWishlist? || a.RemoveFromWishlist? || a.AddToComparison? || a.RemoveFromComparison? ||
             a.ClearComparison?
    ensures Inv(Step(s, a))
  {
    match a
    case AddToWishlist(p) =>
      AppendIfAbsentDistinct(s.wishlist, p, ProductId);
      WithWishlist(s, AppendIfAbsent(s.wishlist, p, ProductId));
    case RemoveFromWishlist(id) =>
      RemoveKeyDistinct(s.wishlist, ProductId, id);
      WithWishlist(s, RemoveKey(s.wishlist, ProductId, id));
    case AddToComparison(p) =>
      AppendIfRoomDistinct(s.comparisonList, p, ProductId, ComparisonCap);
      WithComparison(s, AppendIfRoom(s.comparisonList, p, ProductId, ComparisonCap));
    case RemoveFromComparison(id) =>
      RemoveKeyDistinct(s.comparisonList, ProductId, id);
      WithComparison(s, RemoveKey(s.comparisonList, ProductId, id));
    case ClearComparison => WithComparison(s, []);
  }

  lemma RecentStepInv(s: State, a: Action)
    requires Inv(s)
    requires a.AddRecentSearch? || a.ClearRecentSearches? || a.AddToRecentlyViewed?
    ensures Inv(Step(s, a))
  {
    match a
    case AddRecentSearch(q) =>
      PushRecentDistinct(s.recentSearches, q, Identity, RecentCap);
      WithRecentSearches(s, PushRecent(s.recentSearches, q, Identity, RecentCap));
    case ClearRecentSearches => WithRecentSearches(s, []);
    case AddToRecentlyViewed(p) =>
      PushRecentDistinct(s.recentlyViewed, p, ProductId, RecentCap);
      WithRecentlyViewed(s, PushRecent(s.recentlyViewed, p, ProductId, RecentCap));
  }

  lemma SavedStepInv(s: State, a: Action)
    requires Inv(s)
    requires a.MoveToSavedForLater? || a.RemoveSavedForLater?
    ensures Inv(Step(s, a))
  {
    match a
    case MoveToSavedForLater(item) =>
      AppendIfAbsentDistinct(s.savedForLater, item, LineId);
      assert Step(s, a) == s.(savedForLater := AppendIfAbsent(s.savedForLater, item, LineId));
      WithSaved(s, AppendIfAbsent(s.savedForLater, item, LineId));
    case RemoveSavedForLater(id) =>
      RemoveKeyDistinct(s.savedForLater, LineId, id);
      assert Step(s, a) == s.(savedForLater := RemoveKey(s.savedForLater, LineId, id));
      WithSaved(s, RemoveKey(s.savedForLater, LineId, id));
  }

  lemma MoveToCartInv(s: State, item: CartProduct)
    requires Inv(s)
    ensures Inv(MoveToCartState(s, item))
  {
    Cart.AddToCartWellFormed(s.cart, item);
    RemoveKeyDistinct(s.savedForLater, LineId, item.id());
    var t := s.(cart := Cart.AddToCart(s.cart, item));
    WithCart(s, t.cart);
    WithSaved(t, RemoveKey(s.savedForLater, LineId, item.id()));
  }

  /** The invariant speaks only of the collections, so a state that shares
      them shares it. */
  lemma KeepsInv(s: State, t: State)
    requires Inv(s)
    requires t.cart == s.cart && t.wishlist == s.wishlist && t.comparisonList == s.comparisonList
    requires t.recentSearches == s.recentSearches && t.recentlyViewed == s.recentlyViewed
    requires t.savedForLater == s.savedForLater
    ensures Inv(t)
  {
  }

  lemma WithCart(s: State, cart: seq<CartProduct>)
    requires Inv(s) && Cart.WellFormed(cart)
    ensures Inv(s.(cart := cart))
  {
  }

  lemma WithWishlist(s: State, wishlist: seq<Product>)
    requires Inv(s) && DistinctBy(wishlist, ProductId)
    ensures Inv(s.(wishlist := wishlist))
  {
  }

  lemma WithComparison(s: State, list: seq<Product>)
    requires Inv(s) && |list| <= ComparisonCap && DistinctBy(list, ProductId)
    ensures Inv(s.(comparisonList := list))
  {
  }

  lemma WithRecentSearches(s: State, list: seq<string>)
    requires Inv(s) && |list| <= RecentCap && DistinctBy(list, Identity)
    ensures Inv(s.(recentSearches := list))
  {
  }

  lemma WithRecentlyViewed(s: State, list: seq<Product>)
    requires Inv(s) && |list| <= RecentCap && DistinctBy(list, ProductId)
    ensures Inv(s.(recentlyViewed := list))
  {
  }

  lemma WithSaved(s: State, saved: seq<CartProduct>)
    requires Inv(s) && DistinctBy(saved, LineId)
    ensures Inv(s.(savedForLater := saved))
  {
  }

  /** Every state the store can reach from its initial state satisfies the
      invariant. */
  lemma {:induction false} RunInv(s: State, actions: seq<Action>)
    requires Inv(s)
    ensures Inv(Run(s, actions))
    decreases |actions|
  {
    if actions != [] {
      StepInv(s, actions[0]);
      RunInv(Step(s, actions[0]), actions[1..]);
    }
  }

  /** One `addToCart` call per product, in order. */
  function AddActions(ps: seq<CartProduct>): (r: seq<Action>)
    ensures |r| == |ps|
    ensures forall i :: 0 <= i < |ps| ==> r[i] == AddToCart(ps[i])
    decreases |ps|
  {
    if ps == [] then [] else [AddToCart(ps[0])] + AddActions(ps[1..])
  }

  /** Dispatching the adds one by one is the batched cart update, with the
      rest of the state untouched. */
  lemma {:induction false} RunAddActions(s: State, ps: seq<CartProduct>)
    ensures Run(s, AddActions(ps)) == s.(cart := Cart.AddEach(s.cart, ps))
    decreases |ps|
  {
    if ps != [] {
      assert AddActions(ps)[1..] == AddActions(ps[1..]);
      RunAddActions(Step(s, AddToCart(ps[0])), ps[1..]);
    }
  }

  /** The cart actions change the cart and nothing else. */
  lemma CartActionsTouchOnlyCart(s: State, a: Action)
    requires a.AddToCart? || a.RemoveFromCart? || a.UpdateCartQuantity? || a.ClearCart?
    ensures Step(s, a).(cart := s.cart) == s
  {
  }

  /** A coupon slot: the last applied coupon wins, and removal empties it
      whatever was applied before. */
  lemma CouponLastWins(s: State, c1: Coupon, c2: Coupon)
    ensures Step(Step(s, ApplyCoupon(c1)), ApplyCoupon(c2)) == Step(s, ApplyCoupon(c2))
    ensures Step(Step(s, ApplyCoupon(c1)), RemoveCoupon) == Step(s, RemoveCoupon)
    ensures Step(s, ApplyCoupon(c1)).appliedCoupon == Some(c1)
  {
  }

  /** Adding to the wishlist twice is adding once. */
  lemma WishlistIdempotent(s: State, p: Product)
    ensures Step(Step(s, AddToWishlist(p)), AddToWishlist(p)) == Step(s, AddToWishlist(p))
  {
    AppendIfAbsentIdempotent(s.wishlist, p, ProductId);
  }

  /** Searching the same text twice in a row records it once. */
  lemma RecentSearchIdempotent(s: State, q: string)
    ensures Step(Step(s, AddRecentSearch(q)), AddRecentSearch(q)) == Step(s, AddRecentSearch(q))
  {
    PushRecentIdempotent(s.recentSearches, q, Identity, RecentCap);
  }

  /** Persisting and loading the slice back into the same state is the
      identity; loading into a fresh store restores exactly the four
      persisted slots and leaves the others at their initial values. */
  lemma PersistRoundTrip(s: State)
    ensures Rehydrate(s, Partialize(s)) == s
    ensures Rehydrate(Initial, Partialize(s)).cart == s.cart
    ensures Rehydrate(Initial, Partialize(s)).savedForLater == []
    ensures Rehydrate(Initial, Partialize(s)).recentlyViewed == []
    ensures Rehydrate(Initial, Partialize(s)).appliedCoupon.None?
  {
  }

  /** A fresh store loaded from the slice of a store that satisfies the
      invariant satisfies it too. */
  lemma RehydrateInv(s: State)
    requires Inv(s)
    ensures Inv(Rehydrate(Initial, Partialize(s)))
  {
  }

  /** Merging an empty patch changes nothing, and a patch applied twice
      has the effect of applying it once. */
  lemma MergeSearchFiltersLaws(f: SearchFilters, patch: SearchFiltersPatch)
    ensures MergeSearchFilters(f, SearchFiltersPatch(None, None, None, None)) == f
    ensures MergeSearchFilters(MergeSearchFilters(f, patch), patch) == MergeSearchFilters(f, patch)
  {
  }

  /** After `setAuth` then `logout` the authentication store is back at its
      initial state. */
  lemma AuthLogoutResets(a: AuthState, b: bool, u: Option<StoreUser>)
    ensures AuthLogout(SetAuth(a, b, u)) == InitialAuth
  {
  }
}

=== FILE: text.dfy ===
/** String operations the storefront code relies on: `toLowerCase`,
    `includes`, `trim`, decimal rendering of integers and the `\D` digit
    filter. Strings are sequences of Unicode scalar values. */
module Text {
  import opened Base

  predicate IsDigit(c: char) { '0' <= c <= '9' }

  /** ECMAScript WhiteSpace and LineTerminator code points, the set `trim`
      and `\s` remove. */
  predicate IsSpace(c: char) {
    || c == '\t' || c == '\n' || c == '\U{000B}' || c == '\U{000C}' || c == '\r'
    || c == ' ' || c == '\U{00A0}' || c == '\U{1680}'
    || ('\U{2000}' <= c <= '\U{200A}')
    || c == '\U{2028}' || c == '\U{2029}' || c == '\U{202F}' || c == '\U{205F}'
    || c == '\U{3000}' || c == '\U{FEFF}'
  }

  /** An ASCII capital moves 32 code points down to its small letter; every
      other character stays. */
  function LowerChar(c: char): (d: char)
    ensures !('A' <= d <= 'Z')
    ensures 'A' <= c <= 'Z' ==> 'a' <= d <= 'z' && d as int == c as int + 32
    ensures !('A' <= c <= 'Z') ==> d == c
  {
    if 'A' <= c <= 'Z' then (c as int + 32) as char else c
  }

  /** `s.toLowerCase()` on the ASCII letters. */
  function ToLower(s: string): (r: string)
    ensures |r| == |s|
    ensures forall i :: 0 <= i < |s| ==> r[i] == LowerChar(s[i])
    ensures forall i :: 0 <= i < |r| ==> !('A' <= r[i] <= 'Z')
  {
    seq(|s|, i requires 0 <= i < |s| => LowerChar(s[i]))
  }

  /** Lower-casing twice is lower-casing once. */
  lemma ToLowerIdempotent(s: string)
    ensures ToLower(ToLower(s)) == ToLower(s)
  {
  }

  /** `s.includes(t)`: `t` occurs in `s` as a contiguous block. */
  predicate Contains(s: string, t: string) {
    exists i :: 0 <= i <= |s| && t <= s[i..]
  }

  /** Every string contains the empty string and itself. */
  lemma ContainsTrivial(s: string)
    ensures Contains(s, "") && Contains(s, s)
  {
    assert "" <= s[0..];
    assert s <= s[0..];
  }

  /** `s.startsWith(t)` implies `s.includes(t)`. */
  lemma PrefixIsContained(s: string, t: string)
    requires t <= s
    ensures Contains(s, t)
  {
    assert s[0..] == s;
  }

  /** Number of leading whitespace characters. */
  function LeadingSpaces(s: string): (k: nat)
    ensures k <= |s|
    ensures forall j :: 0 <= j < k ==> IsSpace(s[j])
    ensures k < |s| ==> !IsSpace(s[k])
  {
    if s != [] && IsSpace(s[0]) then 1 + LeadingSpaces(s[1..]) else 0
  }

  /** Number of trailing whitespace characters. */
  function TrailingSpaces(s: string): (k: nat)
    ensures k <= |s|
    ensures forall j :: |s| - k <= j < |s| ==> IsSpace(s[j])
    ensures k < |s| ==> !IsSpace(s[|s| - k - 1])
  {
    if s != [] && IsSpace(s[|s| - 1]) then 1 + TrailingSpaces(s[..|s| - 1]) else 0
  }

  /** `s.trim()`: the contiguous middle of `s` left once the leading and the
      trailing whitespace are cut off. */
  function Trim(s: string): (r: string)
    ensures |r| <= |s|
    ensures r == [] <==> forall i :: 0 <= i < |s| ==> IsSpace(s[i])
    ensures r != [] ==> !IsSpace(r[0]) && !IsSpace(r[|r| - 1])
    ensures LeadingSpaces(s) + |r| <= |s|
    ensures r == s[LeadingSpaces(s)..LeadingSpaces(s) + |r|]
    ensures forall j :: LeadingSpaces(s) + |r| <= j < |s| ==> IsSpace(s[j])
  {
    var a := LeadingSpaces(s);
    var t := s[a..];
    var b := TrailingSpaces(t);
    assert b < |t| ==> t[|t| - b - 1] == s[|s| - b - 1];
    t[..|t| - b]
  }

  /** `!s.trim()`: the string is empty or all whitespace. */
  predicate IsBlank(s: string) {
    Trim(s) == []
  }

  /** Trimming removes only whitespace: a string without whitespace at its
      ends is its own trim. */
  lemma TrimUnpadded(s: string)
    requires s != [] && !IsSpace(s[0]) && !IsSpace(s[|s| - 1])
    ensures Trim(s) == s
  {
  }

  function DigitChar(d: nat): (c: char)
    requires d < 10
    ensures IsDigit(c)
  {
    "0123456789"[d]
  }

  function DigitValue(c: char): (d: nat)
    requires IsDigit(c)
    ensures d < 10 && DigitChar(d) == c
  {
    c as int - '0' as int
  }

  /** `String(n)` for a non-negative integer. */
  function NatToString(n: nat): (r: string)
    ensures r != []
    ensures forall i :: 0 <= i < |r| ==> IsDigit(r[i])
  {
    if n < 10 then [DigitChar(n)] else NatToString(n / 10) + [DigitChar(n % 10)]
  }

  /** `parseInt` on a non-empty run of decimal digits. */
  function ParseDigits(s: string): nat
    requires forall i :: 0 <= i < |s| ==> IsDigit(s[i])
  {
    if s == [] then 0 else 10 * ParseDigits(s[..|s| - 1]) + DigitValue(s[|s| - 1])
  }

  /** Rendering a number and parsing it back gives the number. */
  lemma {:induction false} ParseNatToString(n: nat)
    ensures ParseDigits(NatToString(n)) == n
  {
    var r := NatToString(n);
    if n >= 10 {
      ParseNatToString(n / 10);
      assert r[..|r| - 1] == NatToString(n / 10);
      assert DigitValue(r[|r| - 1]) == n % 10;
    } else {
      assert r[..0] == [];
    }
  }

  /** Distinct numbers render as distinct strings. */
  lemma NatToStringInjective(m: nat, n: nat)
    requires NatToString(m) == NatToString(n)
    ensures m == n
  {
    ParseNatToString(m);
    ParseNatToString(n);
  }

  /** `s.replace(/\D/g, '')`: the decimal digits of `s`, in order. */
  function KeepDigits(s: string): (r: string)
    ensures forall i :: 0 <= i < |r| ==> IsDigit(r[i])
    ensures forall i :: 0 <= i < |s| && IsDigit(s[i]) ==> s[i] in r
  {
    Filter(s, IsDigit)
  }

  /** Stripping non-digits twice is stripping them once. */
  lemma KeepDigitsIdempotent(s: string)
    ensures KeepDigits(KeepDigits(s)) == KeepDigits(s)
  {
    FilterKeepsAll(KeepDigits(s), IsDigit);
  }

  /** A digits-only string is unchanged. */
  lemma KeepDigitsOfDigits(s: string)
    requires forall i :: 0 <= i < |s| ==> IsDigit(s[i])
    ensures KeepDigits(s) == s
  {
    FilterKeepsAll(s, IsDigit);
  }

  /** `s.split(sep)[0]`: everything before the first `sep`, or all of `s`. */
  function Before(s: string, sep: char): (r: string)
    ensures r <= s && sep !in r
    ensures |r| < |s| ==> s[|r|] == sep
  {
    if s == [] || s[0] == sep then [] else [s[0]] + Before(s[1..], sep)
  }

  /** The prefix is found again after it is put back in front of the
      separator. */
  lemma {:induction false} BeforeOfJoin(name: string, sep: char, rest: string)
    requires sep !in name
    ensures Before(name + [sep] + rest, sep) == name
    decreases |name|
  {
    if name != [] {
      assert (name + [sep] + rest)[1..] == name[1..] + [sep] + rest;
      BeforeOfJoin(name[1..], sep, rest);
    } else {
      assert (name + [sep] + rest)[0] == sep;
    }
  }

  /** `s.split('').reduce((acc, c) => acc + c.charCodeAt(0), 0)`: the seed
      the product page and its Q&A derive from an id or a brand. */
  function CharCodeSum(s: string): nat {
    if s == [] then 0 else s[0] as nat + CharCodeSum(s[1..])
  }
}

=== FILE: types.dfy ===
/** The records of `src/types/index.ts` that the storefront logic works on.
    Optional properties (`x?: T`) are `Option`s; a `Record<string, string>`
    is the list of its entries in key-insertion order; images, colours and
    other display data are kept only where some rule reads them. */
module Types {
  import opened Base

  datatype ProductColor = ProductColor(name: string, hex: string)

  /** One volume-pricing tier: from `quantity` units on, `price` per unit. */
  datatype VolumePrice = VolumePrice(quantity: int, price: real, discount: real)

  datatype Seller = Seller(
    id: string,
    name: string,
    rating: real,
    totalReviews: int,
    joinedDate: string,
    responseRate: int,
    responseTime: string,
    products: Option<int>,
    country: Option<string>)

  datatype Badge = BestSeller | LimitedStock | NewArrival | TrendingBadge | FeaturedBadge | Sale

  datatype ShippingMethod = ShippingMethod(name: string, cost: real, minDays: int, maxDays: int)

  datatype ShippingInfo = ShippingInfo(
    freeShipping: bool,
    minDays: int,
    maxDays: int,
    cost: Option<real>,
    methods: Option<seq<ShippingMethod>>)

  datatype Product = Product(
    id: string,
    name: string,
    description: string,
    price: real,
    originalPrice: Option<real>,
    category: string,
    subcategory: string,
    brand: string,
    rating: real,
    reviewCount: int,
    images: seq<string>,
    colors: seq<ProductColor>,
    sizes: seq<string>,
    stock: int,
    tags: seq<string>,
    features: seq<string>,
    specifications: seq<(string, string)>,
    volumePricing: Option<seq<VolumePrice>>,
    seller: Option<Seller>,
    badges: Option<seq<Badge>>,
    shippingInfo: Option<ShippingInfo>)

  /** A product as the store's cart holds it: the product's own fields plus
      an optional quantity and the chosen variant. */
  datatype CartProduct = CartProduct(
    product: Product,
    quantity: Option<int>,
    selectedColor: Option<string>,
    selectedSize: Option<string>)
  {
    function id(): string { product.id }
  }

  /** The `{ product, quantity }` line shape that `src/types/index.ts`
      declares and the full cart page reads; the store never holds it. */
  datatype CartItem = CartItem(
    product: Product,
    quantity: int,
    selectedColor: Option<string>,
    selectedSize: Option<string>)

  /** The complete filter object the catalogue filter reads. */
  datatype FilterOptions = FilterOptions(
    categories: seq<string>,
    brands: seq<string>,
    priceRange: (real, real),
    rating: real,
    inStock: bool,
    colors: seq<string>,
    sizes: seq<string>)

  datatype SearchResult = SearchResult(product: Product, score: real, matches: seq<string>)

  datatype RecommendationKind = SimilarKind | BundleKind | TrendingKind | PersonalizedKind

  datatype Recommendation = Recommendation(kind: RecommendationKind, products: seq<Product>, reason: Option<string>)

  /** The five tabs of the mobile bottom navigation. */
  datatype Tab = HomeTab | CategoriesTab | SearchTab | CartTab | ProfileTab

  datatype CouponType = Percentage | Fixed

  datatype Coupon = Coupon(
    code: string,
    kind: CouponType,
    value: real,
    minPurchase: Option<real>,
    description: Option<string>)

  datatype Answer = Answer(text: string, answeredBy: string, date: string)

  datatype ProductQuestion = ProductQuestion(
    id: string,
    userId: string,
    userName: string,
    question: string,
    date: string,
    answer: Option<Answer>,
    helpful: int)

  datatype BulkQuoteRequest = BulkQuoteRequest(
    productId: string,
    quantity: int,
    email: string,
    company: Option<string>,
    message: Option<string>)

  function ProductId(p: Product): string { p.id }
}

=== FILE: whatsapp_chat.dfy ===
/** The floating chat button (`src/components/WhatsAppChat/WhatsAppChat.tsx`):
    the wa.me link it opens, where it opens it, and the open/closed state
    with its notification dot. `encodeURIComponent` and the window width are
    parameters. */
module WhatsAppChat {
  import opened Base
  import opened Text

  const DefaultMessage: string := "Hello! I have a question about your products."

  datatype Position = BottomRight | BottomLeft

  /** The props; `None` is an omitted prop. */
  datatype Props = Props(phoneNumber: string, message: Option<string>, position: Option<Position>)

  /** Default parameters apply only to omitted props: an empty message
      stays empty. */
  function MessageOf(p: Props): (m: string)
    ensures p.message.None? ==> m == DefaultMessage
    ensures p.message.Some? ==> m == p.message.value
  {
    p.message.GetOr(DefaultMessage)
  }

  function PositionOf(p: Props): (q: Position)
    ensures p.position.None? ==> q == BottomRight
    ensures p.position.Some? ==> q == p.position.value
  {
    p.position.GetOr(BottomRight)
  }

  const UrlPrefix: string := "https://wa.me/"
  const TextQuery: string := "?text="

  /** The link: the phone number's digits, then the encoded message. */
  function Url(phoneNumber: string, message: string, encode: string -> string): (r: string)
    ensures UrlPrefix <= r
    ensures r[|UrlPrefix|..] == KeepDigits(phoneNumber) + TextQuery + encode(message)
  {
    UrlPrefix + KeepDigits(phoneNumber) + TextQuery + encode(message)
  }

  /** The number and the encoded message can both be read back from the
      link: the number is everything up to the first '?', since digits
      never contain one. */
  lemma UrlParts(phoneNumber: string, message: string, encode: string -> string)
    ensures var r := Url(phoneNumber, message, encode);
      Before(r[|UrlPrefix|..], '?') == KeepDigits(phoneNumber) &&
      r[|UrlPrefix| + |KeepDigits(phoneNumber)| + |TextQuery|..] == encode(message)
  {
    var digits := KeepDigits(phoneNumber);
    var r := Url(phoneNumber, message, encode);
    assert '?' !in digits;
    assert r[|UrlPrefix|..] == digits + ['?'] + ("text=" + encode(message));
    BeforeOfJoin(digits, '?', "text=" + encode(message));
  }

  /** Punctuation in the number does not change the link: a number and its
      digits alone give the same link. */
  lemma FormattingIgnored(phoneNumber: string, message: string, encode: string -> string)
    ensures Url(KeepDigits(phoneNumber), message, encode) == Url(phoneNumber, message, encode)
  {
    KeepDigitsIdempotent(phoneNumber);
  }

  /** Digits are kept in order: stripping a joined number strips each part. */
  lemma KeepDigitsInOrder(a: string, b: string)
    ensures KeepDigits(a + b) == KeepDigits(a) + KeepDigits(b)
  {
    FilterAppend(a, b, IsDigit);
  }

  const MobileWidth: int := 768

  predicate IsMobile(innerWidth: int) { innerWidth < MobileWidth }

  /** Where the link is opened. */
  datatype Opened = SameTab(href: string) | NewTab(url: string)

  /** `handleOpenWhatsApp`: narrow windows navigate away, wide ones open a
      new tab; the link is the same either way. */
  function OpenChat(p: Props, innerWidth: int, encode: string -> string): (o: Opened)
    ensures o.SameTab? <==> innerWidth < MobileWidth
    ensures o.SameTab? ==> o.href == Url(p.phoneNumber, MessageOf(p), encode)
    ensures o.NewTab? ==> o.url == Url(p.phoneNumber, MessageOf(p), encode)
  {
    var url := Url(p.phoneNumber, MessageOf(p), encode);
    if IsMobile(innerWidth) then SameTab(url) else NewTab(url)
  }

  /** The open/closed chat window: it starts closed; the round button
      toggles it and the window's close button closes it. */
  datatype Event = ToggleButton | CloseButton

  function Apply(isOpen: bool, e: Event): (r: bool)
    ensures e == ToggleButton ==> r == !isOpen
    ensures e == CloseButton ==> !r
  {
    match e
    case ToggleButton => !isOpen
    case CloseButton => false
  }

  function ApplyAll(isOpen: bool, events: seq<Event>): bool
    decreases |events|
  {
    if events == [] then isOpen else ApplyAll(Apply(isOpen, events[0]), events[1..])
  }

  /** The red dot shows exactly while the chat window is closed. */
  predicate ShowsBadge(isOpen: bool) { !isOpen }

  function Toggles(events: seq<Event>): nat {
    Count(events, (e: Event) => e == ToggleButton)
  }

  /** With only the round button pressed, the window is open after an odd
      number of presses and the dot after an even number. */
  lemma {:induction false} ParityOfPresses(isOpen: bool, events: seq<Event>)
    requires forall i :: 0 <= i < |events| ==> events[i] == ToggleButton
    ensures ApplyAll(isOpen, events) == (if |events| % 2 == 0 then isOpen else !isOpen)
    ensures ShowsBadge(ApplyAll(false, events)) <==> |events| % 2 == 0
    decreases |events|
  {
    if events != [] {
      ParityOfPresses(!isOpen, events[1..]);
      ParityOfPresses(false, events[1..]);
      ParityOfPresses(true, events[1..]);
    }
  }

  /** After the close button, the dot is back whatever came before. */
  lemma CloseShowsBadge(isOpen: bool, before: seq<Event>)
    ensures ShowsBadge(ApplyAll(isOpen, before + [CloseButton]))
  {
    ApplyAllAppend(isOpen, before, [CloseButton]);
  }

  lemma {:induction false} ApplyAllAppend(isOpen: bool, a: seq<Event>, b: seq<Event>)
    ensures ApplyAll(isOpen, a + b) == ApplyAll(ApplyAll(isOpen, a), b)
    decreases |a|
  {
    if a == [] {
      assert a + b == b;
    } else {
      assert (a + b)[1..] == a[1..] + b;
      ApplyAllAppend(Apply(isOpen, a[0]), a[1..], b);
    }
  }
}
